=== FILE: README.md ===
# pytonl in Dafny

A model of the core of pytonl, a Python codec for TONL (Token-Optimized
Notation Language), together with proofs about that model. TONL writes
JSON-like data as indented lines:

- `key: value` for scalars;
- `key[N]: a, b, c` for a primitive array;
- `key[N]{col,...}:` followed by delimiter-separated rows for a uniform
  array of dicts;
- `key{col,...}:` followed by one line of `k: v` pairs, or by indented
  child lines, for a dict.

The model covers three source files:

- pytonl/utils.py: the lexical layer. `infer_type`, `needs_quoting`,
  `quote_string`, `unquote_string`, `is_number`, `parse_primitive_value`,
  `split_line_by_delimiter`, `is_valid_identifier`,
  `parse_key_value_pairs` and `select_best_delimiter`.
- pytonl/encoder.py: the class `TONLEncoder`, with its mutable indentation
  counter.
- pytonl/decoder.py: the class `TONLDecoder`, with its mutable delimiter and
  version.

The files are:

- `types.dfy` (module `Types`): the value datatype. A Python dict is a
  sequence of key/value pairs in insertion order. `Put` is dict assignment.
- `text.dfy` (module `Text`): Python's `str` operations used by the source.
  These are `strip`, `lstrip`, `replace`, `join`, `split("\n")`,
  `isspace`, `lower`, `str(int)` and `sorted` on strings.
- `utils.dfy` (module `Utils`): the functions of utils.py. The loops of
  `split_line_by_delimiter`, `parse_key_value_pairs` and the delimiter
  count are methods, each proved equal to a specification function.
- `encoder.dfy` (module `Encoder`): the class `TONLEncoder`. Every method
  is proved to return the lines that a function of the options, the
  indentation level and the value describes. Every method restores
  `indentLevel`.
- `encoder_props.dfy` (module `EncoderProperties`): properties of what the
  encoder writes.
- `decoder.dfy` (module `Decoder`): the class `TONLDecoder`. Every method
  is proved equal to a specification function over the lines. Those
  functions cover header recognition, blocks, mixed arrays, objects, rows
  and the single-line object.
- `decoder_props.dfy` (module `DecoderProperties`): properties of the
  reader. These are how many lines a block consumes, keys kept, items in
  order, the shape of a row and the header grammar.
- `roundtrip.dfy` (module `RoundTrip`): what the decoder makes of what the
  encoder writes, and a corrected reader for the one defect found.
- `single_line.dfy` (module `SingleLineObjects`): what
  `_parse_single_line_object` reads. It also shows that a dict the encoder
  writes on one line reads back.

## Model

| member | source | states |
|---|---|---|
| Types.TypeNameRoundTrip | pytonl/types.py:8-18 | reading back the value string of any TONLType gives that type |
| Types.Get | pytonl/encoder.py:146 | a dict lookup finds nothing exactly when the key is absent, and otherwise finds an entry with that key |
| Types.Put | pytonl/decoder.py:250-251 | assigning an absent key appends the pair; assigning a present key keeps the length |
| Types.PutInPlace | pytonl/decoder.py:250-251 | in a dict without duplicates, assignment replaces the value in place and adds no duplicate |
| Types.GetAfterPut | pytonl/decoder.py:250-251 | after `d[k] = v`, `d[k]` is v and every other key is unchanged |
| Utils.InferType | pytonl/utils.py:79-107 | each type hint is returned exactly for its kind of value: u32 for ints in [0, 2^32-1], i32 for negative ints down to -2^31, f64 for floats and other ints |
| Utils.NeedsQuotingExactly | pytonl/utils.py:110-151 | a string needs quoting iff it is empty, holds the delimiter, a newline, CR, tab, quote, backslash or (outside a table) a colon, has a space at either end, is a reserved word in lower case, or is a number; its partners are Utils.PlainStringReadsBack (an unquoted string reads back as itself), EncoderProperties.StringWrittenRawIff (the encoder writes a string raw iff it needs no quoting) and Utils.IdentifierQuoting |
| Utils.IdentifierQuoting | pytonl/utils.py:110-151 | an identifier needs quoting iff it is a reserved word |
| Utils.IdentifierNotNumber | pytonl/utils.py:293-296 | no identifier matches the number pattern |
| Utils.NumberStopChar | pytonl/utils.py:186-189 | a token whose digits stop at a character other than `.`, `e` or `E` is not a number |
| Utils.IntLiteralRoundTrip | pytonl/utils.py:186-217 | `str(i)` of every int is a number without `.` or `e`, and `int()` reads it back as i |
| Utils.QuotedShape | pytonl/utils.py:154-165 | a quoted string starts and ends with `"` |
| Utils.QuoteRoundTrip | pytonl/utils.py:154-183 | unquoting a quoted string gives the string back, for every string that does not both start and end with `"` |
| Utils.QuoteRoundTripFailsOnQuotedString | pytonl/utils.py:154-183 | the string `"x"` is quoted with triple quotes and unquotes to `x`: the round trip fails on it |
| Utils.ParsePrimitiveValue | pytonl/utils.py:192-229 | every token reads as a scalar: null, a bool, an int, a float or a string |
| Utils.PlainStringReadsBack | pytonl/utils.py:192-229 | a string that needs no quoting reads back as that same string |
| Utils.IntReadsBack | pytonl/utils.py:212-217 | `str(i)` reads back as the int i |
| Utils.QuotedReadsBack | pytonl/utils.py:196-200 | a quoted string reads back as the string, under the same condition as QuoteRoundTrip |
| Utils.ScalarRoundTrip | pytonl/utils.py:192-229 | every non-float scalar, formatted as the encoder formats it, reads back as itself |
| Utils.InfinityWordRead | pytonl/utils.py:219-222 | every text whose lower case is `infinity` reads as positive infinity |
| Utils.NegInfinityWordRead | pytonl/utils.py:219-224 | every text whose lower case is `-infinity` reads as negative infinity |
| Utils.NaNWordRead | pytonl/utils.py:219-226 | every text whose lower case is `nan` reads as NaN |
| Utils.InfTokenRead | pytonl/utils.py:192-229 | `inf` is neither a number nor a special-float word, so it reads as the string `inf` |
| Utils.NegInfTokenRead | pytonl/utils.py:192-229 | `-inf` reads as the string `-inf` |
| Utils.NanTokenRead | pytonl/utils.py:219-226 | `nan` reads as NaN |
| Utils.SpecialFloatsReadBack | pytonl/encoder.py:61-62 | infinity and negative infinity, written as `str(float)` writes them, read back as the strings `inf` and `-inf`; NaN reads back as NaN |
| Utils.SpecialFloatsReadBackFixed | pytonl/utils.py:219-226 | written as `Infinity`, `-Infinity` and `NaN`, the three special floats read back as themselves |
| Utils.SplitLineByDelimiter | pytonl/utils.py:232-290 | the loop returns the fields of the splitting function: at least one, each stripped |
| Utils.SplitFieldsShape | pytonl/utils.py:232-290 | splitting yields at least one field and every field is stripped |
| Utils.SplitJoinRoundTrip | pytonl/utils.py:232-290 | splitting fields joined by the encoder's separator gives back those fields, when no field holds a quote, backslash, delimiter or edge space |
| Utils.QuotedTextNotSplit | pytonl/utils.py:268-277 | a quoted run is copied into the current field whole, delimiters inside included |
| Utils.NoDelimiterOneField | pytonl/utils.py:232-290 | a line without the delimiter is one field, the stripped line |
| Utils.IsValidIdentifier | pytonl/utils.py:293-296 | a name is an identifier iff it is non-empty, made of word characters, and does not start with a digit |
| Utils.ParseKeyValuePairs | pytonl/utils.py:299-394 | the loop returns the dict the specification function reads, or None where the source loop never ends |
| Utils.KeyValuePairsTerminates | pytonl/utils.py:305-332 | on a line of word characters, spaces and colons the loop always ends |
| Utils.KeyValuePairsStuck | pytonl/utils.py:320-328 | on any line that starts with `-` the loop makes no progress and never ends |
| Utils.KeyValuePairsKeys | pytonl/utils.py:313-318 | the resulting dict has distinct keys made of word characters |
| Utils.OnePair | pytonl/utils.py:299-394 | `key: value`, with a word key and a bare value without spaces, reads as that one pair |
| Utils.CountInData | pytonl/utils.py:39-59 | the counts are, for each of `,`, `\|`, tab and `;`, the occurrences in all strings inside the value |
| Utils.KeysNotCounted | pytonl/utils.py:44-48 | dict keys do not count: dicts with the same values have the same counts |
| Utils.AnalysedList | pytonl/utils.py:17-26 | a list, or the list inside a one-key dict, is analysed; anything else is not |
| Utils.HasColumnKey | pytonl/utils.py:66-70 | true iff some key starts with `col` |
| Utils.FirstMinimum | pytonl/utils.py:76 | the chosen candidate has the least count, and any candidate before it has a strictly greater count |
| Utils.SelectBestDelimiter | pytonl/utils.py:9-76 | comma when there is nothing to analyse; tab for a spreadsheet-like list without tabs; otherwise the first candidate with the fewest occurrences |
| Encoder.SortedKeys | pytonl/encoder.py:191 | the keys sorted, a permutation of the dict's keys |
| Encoder.TONLEncoder.constructor | pytonl/encoder.py:12-15 | the encoder keeps the options and starts at indentation level 0 |
| Encoder.TONLEncoder.Indent | pytonl/encoder.py:270-272 | the indent is level × width spaces |
| Encoder.TONLEncoder.Encode | pytonl/encoder.py:17-33 | the text is the header lines and the root value's lines joined by newlines; the level is restored |
| Encoder.TONLEncoder.EncodeValue | pytonl/encoder.py:35-53 | the lines are those of the value's layout function; the level is restored |
| Encoder.TONLEncoder.EncodePrimitive | pytonl/encoder.py:55-71 | one line `indent key: formatted`, with null for a non-scalar |
| Encoder.TONLEncoder.EncodeArray | pytonl/encoder.py:73-87 | the empty, tabular, primitive or mixed layout, chosen in the source's order |
| Encoder.TONLEncoder.EncodePrimitiveArray | pytonl/encoder.py:89-118 | the primitive layout: one line under the threshold, two lines otherwise |
| Encoder.TONLEncoder.BuildColumnDefs | pytonl/encoder.py:127-137 | the column definitions, with a type hint only when types are on and the value is not a dict or list |
| Encoder.TONLEncoder.EncodeTabularArray | pytonl/encoder.py:120-171 | the header line followed by one row per dict |
| Encoder.TONLEncoder.TabularRows | pytonl/encoder.py:142-169 | one indented row line per dict, in order |
| Encoder.TONLEncoder.FormatRow | pytonl/encoder.py:144-160 | one formatted field per column, `null` for a missing key |
| Encoder.TONLEncoder.EncodeMixedArray | pytonl/encoder.py:173-184 | the header line, then each element's lines one level deeper under key `[i]`; the level is restored |
| Encoder.TONLEncoder.EncodeObject | pytonl/encoder.py:186-237 | the empty form, the multi-line form or the single-line form, as the layout function says; the level is restored |
| Encoder.TONLEncoder.EncodeFields | pytonl/encoder.py:211-218 | the lines of every field, in sorted key order, one level deeper |
| Encoder.TONLEncoder.FormatPairs | pytonl/encoder.py:220-235 | one `k: formatted` text per key |
| Encoder.TONLEncoder.ShouldUseMultiline | pytonl/encoder.py:239-246 | true iff some value is a dict, a list or a string with a newline |
| Encoder.TONLEncoder.IsUniformObjectArray | pytonl/encoder.py:248-268 | true iff the list is non-empty, all dicts, all with the first dict's key set, and no value is a dict or list |
| EncoderProperties.PlainScalarField | pytonl/encoder.py:59-67 | a scalar written without quotes is a simple field and reads back as itself |
| EncoderProperties.StringWrittenRawIff | pytonl/encoder.py:63-67 | a string is written raw iff it needs no quoting; a string with a colon is always quoted |
| EncoderProperties.PlainFieldsReadBack | pytonl/encoder.py:89-113 | the joined primitive values split back into the same fields, each reading back as its item |
| EncoderProperties.PrimitiveLayout | pytonl/encoder.py:107-118 | one line iff the joined text is shorter than the threshold; the last line ends with the joined text |
| EncoderProperties.RowReadBack | pytonl/encoder.py:143-168 | a row of unquoted scalars splits back into its fields, and each field reads back as that column's value |
| EncoderProperties.TableRowReadBack | pytonl/encoder.py:143-169 | every row line is indented under the header and reads back as that dict's values |
| EncoderProperties.TabularLinesAt | pytonl/encoder.py:139-171 | a table has one header line and one row per dict, in order |
| EncoderProperties.TabularRowReadsBack | pytonl/encoder.py:120-171 | row i of the table reads back as dict i's values, under the sorted columns of the first dict |
| EncoderProperties.SortedKeysEmpty | pytonl/encoder.py:191-194 | there are no sorted keys iff the dict is empty |
| EncoderProperties.ObjectLayout | pytonl/encoder.py:193-237 | an empty dict is `key{}:`; otherwise the dict takes more than one line iff it is multi-line |
| EncoderProperties.ColumnDefsWithoutTypes | pytonl/encoder.py:196-206 | without type hints the column definitions are the keys |
| EncoderProperties.ColumnDefsWithTypes | pytonl/encoder.py:196-206 | with type hints, column j is `key:type`, except for dict and list values |
| EncoderProperties.ValueLinesIndented | pytonl/encoder.py:35-53 | the first line starts with indent and key, and every later line is indented deeper |
| EncoderProperties.ArrayLinesIndented | pytonl/encoder.py:73-87 | an array's lines after its header are indented deeper than the header |
| EncoderProperties.MixedIndented | pytonl/encoder.py:173-184 | every element line of a mixed array is indented deeper than its header |
| EncoderProperties.ObjectLinesIndented | pytonl/encoder.py:186-237 | a dict's lines after its header are indented deeper than the header |
| EncoderProperties.FieldsIndented | pytonl/encoder.py:211-218 | every field line of a multi-line dict is indented deeper than its header |
| Decoder.MatchHeaderSound | pytonl/decoder.py:123-133 | a matched header is well formed, and its groups put back together are the line |
| Decoder.ParseKeyValue | pytonl/decoder.py:267-275 | a key/value line is read iff the key-value pattern matches; the key is group 1 and the value a scalar |
| Decoder.MatchDirective | pytonl/decoder.py:71 | a directive has a non-empty name and a non-empty value without a newline |
| Decoder.DataStartHeaders | pytonl/decoder.py:52-89 | every line before the data start is blank, `@…` or `#…` |
| Decoder.DataStartStops | pytonl/decoder.py:85-87 | the data starts at the first line that is none of those |
| Decoder.BlockEnd | pytonl/decoder.py:195-197 | a block runs to the first non-blank line indented no deeper than its header |
| Decoder.ArrayValues | pytonl/decoder.py:277-280 | one value per split field, each read as a primitive, so never a list or a dict |
| Decoder.TabularRows | pytonl/decoder.py:190-207 | a table has fewer rows than the lines it consumes |
| Decoder.LinesResult | pytonl/decoder.py:91-116 | no lines give None and 0; otherwise at least one and at most all lines are consumed |
| Decoder.BlockResult | pytonl/decoder.py:166-265 | a block consumes at least its header line and no more than the lines given |
| Decoder.MixedFrom | pytonl/decoder.py:211-233 | the mixed-array loop consumes between its start and the end of the lines |
| Decoder.ObjectFrom | pytonl/decoder.py:235-265 | the object loop consumes between its start and the end of the lines |
| Decoder.TONLDecoder.constructor | pytonl/decoder.py:13-17 | the decoder starts with version `1.0` and delimiter `,` |
| Decoder.TONLDecoder.Decode | pytonl/decoder.py:19-50 | the result is the decoded document, and the settings are those the header lines set |
| Decoder.TONLDecoder.ParseHeaders | pytonl/decoder.py:52-89 | returns where the data starts, and applies every directive before it in order |
| Decoder.TONLDecoder.ApplyHeaderLine | pytonl/decoder.py:69-84 | `#version v` sets the version; `#delimiter` sets the delimiter only to `\t`, `,`, `\|` or `;` |
| Decoder.TONLDecoder.ParseLines | pytonl/decoder.py:91-116 | the value and the count of consumed lines are those of the lines' specification |
| Decoder.TONLDecoder.ParseHeader | pytonl/decoder.py:118-164 | the header as the header pattern reads it, or None when it matches without `[N]` and `{...}` |
| Decoder.TONLDecoder.ParseColumns | pytonl/decoder.py:144-156 | one column per comma-separated part, in order |
| Decoder.TONLDecoder.ParseColumnPart | pytonl/decoder.py:146-156 | `name:type` gives the stripped name and the type, or no type when unknown; a part without a colon is a name |
| Decoder.TONLDecoder.ParseBlock | pytonl/decoder.py:166-265 | the block's value and consumed lines, as the block specification says |
| Decoder.TONLDecoder.ParseTabular | pytonl/decoder.py:188-209 | consumes up to the block end and builds one row per non-blank line |
| Decoder.TONLDecoder.BuildRow | pytonl/decoder.py:201-204 | assigns each column the field at its position, while fields last |
| Decoder.TONLDecoder.ParseMixed | pytonl/decoder.py:211-233 | the list of elements and the lines consumed, as the mixed-array loop says |
| Decoder.TONLDecoder.ParseMixedElement | pytonl/decoder.py:222-228 | one loop step: appends the element and advances past its lines |
| Decoder.TONLDecoder.ParseObject | pytonl/decoder.py:235-265 | the dict and the lines consumed, as the object loop says |
| Decoder.TONLDecoder.ParseObjectLine | pytonl/decoder.py:246-260 | one loop step: a nested block or a key/value pair, and the lines it takes |
| Decoder.TONLDecoder.ParseArrayValues | pytonl/decoder.py:277-280 | each split field read as a primitive |
| Decoder.TONLDecoder.ParseSingleLineObject | pytonl/decoder.py:282-289 | the dict of the pairs the single-line pattern finds |
| DecoderProperties.BlockConsumed | pytonl/decoder.py:166-265 | a one-line block consumes one line; any other block consumes up to its block end |
| DecoderProperties.LinesConsumed | pytonl/decoder.py:91-116 | the lines consumed are one or the header's whole block |
| DecoderProperties.MixedConsumed | pytonl/decoder.py:211-233 | a mixed array consumes exactly up to its block end, nested blocks included |
| DecoderProperties.ObjectConsumed | pytonl/decoder.py:235-265 | an object consumes exactly up to its block end, nested blocks included |
| DecoderProperties.ObjectBlockStored | pytonl/decoder.py:248-253 | a nested header line of an object stores its block's value under its key, leaves every other key's value as it was, and moves past the header alone for a one-line block or down to the end of the nested block otherwise |
| DecoderProperties.ObjectPairStored | pytonl/decoder.py:254-260 | any other line of an object stores its pair's value under its key and leaves every other key's value as it was, or changes nothing when it is not a pair; the next line is read either way |
| DecoderProperties.ObjectKeysKept | pytonl/decoder.py:235-265 | reading an object never loses or reorders a key already read |
| DecoderProperties.MixedItemsInOrder | pytonl/decoder.py:211-233 | reading a mixed array only appends to the items already read |
| DecoderProperties.RowEntriesSpec | pytonl/decoder.py:201-204 | with distinct column names, a row pairs column j with value j, for as many columns as there are values |
| DecoderProperties.RowEntriesGet | pytonl/decoder.py:201-204 | whatever the column names, a column with a value holds that value unless a later column of the same name has one, so the last column wins |
| DecoderProperties.RowEntriesAbsent | pytonl/decoder.py:201-204 | a name that no column with a value carries is not in the row |
| DecoderProperties.TabularRowsSpec | pytonl/decoder.py:190-207 | a table has one row per non-blank line after its header, row k being the dict of the k-th such line |
| DecoderProperties.RowOfSpec | pytonl/decoder.py:199-205 | with distinct column names, a row line gives column j the primitive read from field j of the stripped line |
| DecoderProperties.MatchHeaderComplete | pytonl/decoder.py:123-124 | every well-formed key, `[N]`, `{cols}`, `:` and tail is matched back to those groups |
| DecoderProperties.PairNotHeader | pytonl/decoder.py:135-138 | `key:rest` with a plain key is not a header |
| DecoderProperties.PairLine | pytonl/decoder.py:114-116 | a line `key:rest` reads as `{key: rest read as a primitive}` and consumes one line |
| DecoderProperties.PairParsed | pytonl/decoder.py:267-275 | `key:rest` parses as key with the primitive read from rest after its leading spaces |
| DecoderProperties.DirectiveDelimiter | pytonl/decoder.py:78-82 | a directive leaves the delimiter alone or sets it to one of the four delimiters |
| DecoderProperties.SettingsDelimiter | pytonl/decoder.py:78-82 | after all the headers, the delimiter is the initial one or one of the four |
| DecoderProperties.DecodeNoData | pytonl/decoder.py:27-29 | a document of header lines only decodes to None |
| RoundTrip.DelimiterDirective | pytonl/decoder.py:78-82 | reading back the encoder's `#delimiter` line sets the delimiter iff it is one of the four |
| RoundTrip.HeaderLinesRead | pytonl/encoder.py:21-27 | the encoder's header lines set the decoder's version, and its delimiter when that is not a comma but one of the four |
| RoundTrip.DecodeDocument | pytonl/decoder.py:19-50 | an encoded document decodes as its data lines under the header's delimiter |
| RoundTrip.ScalarDocument | pytonl/encoder.py:17-33 | an encoded scalar document decodes to the scalar |
| RoundTrip.PrimitiveRootLines | pytonl/encoder.py:113-118 | the root primitive array is one line under the threshold and two lines otherwise |
| RoundTrip.OneLineArray | pytonl/decoder.py:173-178 | a one-line primitive array of unquoted items reads back as those items |
| RoundTrip.PrimitiveArrayDocument | pytonl/encoder.py:89-118 | an encoded primitive array on one line decodes to the same list |
| RoundTrip.ContinuationLine | pytonl/decoder.py:267-275 | an indented line without a colon reads as None |
| RoundTrip.TwoLineRoot | pytonl/decoder.py:211-233 | `root[N]:` with an indented value line is read as a mixed array holding one None |
| RoundTrip.PrimitiveArrayTwoLines | pytonl/encoder.py:115-118 | an encoded primitive array at or over the threshold decodes to `[None]` |
| RoundTrip.BlockResultFixed | pytonl/decoder.py:211-233 | the corrected block reader consumes at least the header and no more than the lines |
| RoundTrip.FixedOneLine | pytonl/decoder.py:173-178 | the corrected reader agrees with the source on every one-line document |
| RoundTrip.TwoLineRootFixed | pytonl/decoder.py:211-233 | the corrected reader reads `root[N]:` and an indented value line as that line's values |
| RoundTrip.PrimitiveArrayDocumentFixed | pytonl/encoder.py:89-118 | under the corrected reader, an encoded primitive array decodes to the same list on either layout |
| SingleLineObjects.FindPairsShape | pytonl/decoder.py:286 | every pair found has an identifier key and a non-empty value without a colon |
| SingleLineObjects.QuotedColonNotFound | pytonl/decoder.py:286 | a quoted string with a colon is never found as a value |
| SingleLineObjects.FindPairsReadsBack | pytonl/decoder.py:286 | `k1: t1 k2: t2 …`, with identifier keys and stripped values without colons, yields exactly those pairs in order |
| SingleLineObjects.PairsDictDistinct | pytonl/decoder.py:287-288 | with distinct keys, the dict holds every pair in order, each value read as a primitive |
| SingleLineObjects.SingleLineReadsBack | pytonl/decoder.py:282-289 | such a line with distinct keys reads back as its pairs, each value read as a primitive |
| SingleLineObjects.JoinedPairs | pytonl/encoder.py:235-237 | the encoder's pair texts joined by spaces form the pairs line |
| SingleLineObjects.ScalarPairValue | pytonl/encoder.py:222-234 | an unquoted scalar's text is a readable value that reads back as the scalar |
| SingleLineObjects.SortedKeysDistinct | pytonl/encoder.py:191 | the sorted keys of a dict without duplicates are distinct |
| SingleLineObjects.EncodedPairsReadBack | pytonl/encoder.py:219-237 | a dict of identifier keys and unquoted scalars is single-line and reads back with the same size, the sorted keys and each key's own value |
| SingleLineObjects.ColonStringLost | pytonl/encoder.py:228-232 | a string with a colon is written quoted, and no value found on the line equals that text |
| SingleLineObjects.ColumnsIgnored | pytonl/decoder.py:179-182 | a header with columns and text after the colon reads the pairs from the text; any other column list gives the same result |

## Left out

- Types.Value: a Python float is an opaque token, the text it was read from or written as (types.dfy, `Float(token)`). Python turns `1.50` into `1.5` and writes it back as `1.5`; the model keeps `1.50`. The words `infinity`, `-infinity` and `nan`, in any case, read as the float tokens `inf`, `-inf` and `nan`. The encoder writes a float's token unchanged, so those come out as `inf`, `-inf` and `nan`, as `str(float)` writes them (see "## Findings"). Float arithmetic and `str` of an ordinary float are not modelled, and no round-trip lemma covers ordinary floats.
- Text.IsSpace, Text.Lower, Text.IsDigit, Text.IsWordChar: ASCII only. Python's `isspace`, `lower`, `\d`, `\w` and `isalnum` also accept non-ASCII characters.
- Decoder.MatchKeyValue, Decoder.MatchHeader, Decoder.MatchDirective, Utils.IsNumber, Utils.IsValidIdentifier: Python's `$` also matches before one trailing newline, so the source accepts `key: v\n`. The model rejects it. Lines come from `split("\n")`, so such a newline can only reach these patterns through a value carried inside the text.
- Encoder.EncodeOptions: the delimiter is one character and the indent width is a natural number. Python accepts any string and any int, and a negative indent gives no indentation.
- DecodeOptions (`strict`, `auto_detect_delimiter`): not modelled. The decoder never reads them.
- The `str(value)` fallbacks of `_encode_value` and of the tabular rows (values that are not JSON): not modelled. The value datatype has only JSON kinds, and a dict or list inside a tabular row cannot occur because `_is_uniform_object_array` excludes it.
- Types.Value: map equality compares entries in order, while Python's dict `==` ignores order. Round-trip results for dicts are therefore stated entry by entry, through Get and the sorted keys (EncodedPairsReadBack), rather than as an equality of values.
- Types.Value: a map may hold duplicate keys, which a Python dict cannot. Lemmas that need distinct keys require UniqueKeys or DistinctKeys, and Put keeps a map without duplicates free of them (PutInPlace).
- RoundTrip.ScalarDocument: the document round trip is proved end to end for scalars and primitive arrays only. For tabular arrays, dicts and nested documents, what is proved are the parts: each table row reads back (TabularRowReadsBack, RowOfSpec) and a one-line dict reads back (EncodedPairsReadBack). No lemma joins them into `decode(encode(x)) == x`.
- The module-level `encode` and `decode` functions (encoder.py:275-278, decoder.py:292-295): they only construct the class and call its method, which the constructor and Encode/Decode model.
- `_parse_lines`' `start_indent` parameter: never read by the source, so it is dropped.
- `self.version`: set by `#version` (ApplyHeaderLine) and never checked. The model does the same.
- DecoderProperties.RowEntriesSpec: the row's entries position by position are stated for distinct column names only (RowOfSpec likewise). With repeated names, RowEntriesGet and RowEntriesAbsent give the value each name looks up to, not where its entry sits.
- Utils.ParseKeyValuePairs: the source loop never ends on some lines (KeyValuePairsStuck). The model returns None there instead of diverging.
- Types.Put: on a map with duplicate keys, every entry with the key is replaced. Python dicts have no duplicates, so this case does not arise in the source.
- Utils.QuoteRoundTrip: holds only for strings that do not both start and end with `"`. QuoteRoundTripFailsOnQuotedString shows the source really fails on `"x"`, which comes back as `x`. The model keeps that behaviour.
- RoundTrip.LinesResultFixed: the correction for the two-line primitive array is applied to the top-level block. The nested readers keep the source's behaviour.
- Clocks, I/O, randomness and the network: not used by the core.

## Findings

| source | as written | input that shows it | evidently intended | confidence | as-written member | corrected member |
|---|---|---|---|---|---|---|
| pytonl/encoder.py:115-118 | a primitive array whose joined text reaches `single_line_threshold` is written as `key[N]:` and then an indented line of values. `_parse_block` (decoder.py:211-233) reads that as a mixed array, and `_parse_key_value` (decoder.py:269) rejects the value line, so decoding gives `[None]` | `encode(list(range(40)))` with the default options: the joined text is 148 characters long, so decode returns `[None]` | `decode(encode(x)) == x` for every primitive array, as for the one-line layout | not executed | RoundTrip.PrimitiveArrayTwoLines | RoundTrip.PrimitiveArrayDocumentFixed |
| pytonl/encoder.py:61-62 | `_encode_primitive` writes a float with `str(value)`, which gives `inf`, `-inf` and `nan` for the special values. `parse_primitive_value` (utils.py:219-226) reads back only the words `infinity`, `-infinity` and `nan`, so `inf` and `-inf` come back as strings | `float("inf")` as a dict value is written as `inf` and decodes to the string `inf`; tests/test_transformation_examples.py:59-73 expects it written as `Infinity` and decoded as infinity | infinity written as `Infinity`, negative infinity as `-Infinity` and NaN as `NaN`, each reading back as itself | not executed | Utils.SpecialFloatsReadBack | Utils.SpecialFloatsReadBackFixed |

=== FILE: decoder.dfy ===
/** The TONL decoder of pytonl/decoder.py: a pass over the `#` and `@`
    lines at the top, then a recursive parser that reads a block from its
    header line down to the first line indented no deeper than the header
    and reports how many lines it consumed. */
module Decoder {
  import opened Types
  import opened Text
  import opened Utils

  /** ColumnDef (pytonl/types.py): a column of a header with its optional
      type hint. */
  datatype ColumnDef = ColumnDef(name: string, typ: Option<TONLType>)

  /** What `_parse_header` returns: the key, the `[N]` length when there is
      one, the columns and the stripped text after the colon. */
  datatype HeaderInfo = HeaderInfo(key: string, arrayLength: Option<nat>, columns: seq<ColumnDef>, rest: string)
  {
    predicate IsArray() {
      arrayLength.Some?
    }
  }

  // ---------------------------------------------------------------------
  // The block header pattern
  // `^([a-zA-Z_]\w*|\[\d+\])(\[\d+\])?(\{([^}]*)\})?:(.*)$`

  /** The groups of a match: the key, the digits of `[N]`, the text
      between the braces and the text after the colon. */
  datatype HeaderMatch = HeaderMatch(key: string, bracket: Option<string>, braces: Option<string>, tail: string)

  /** `[a-zA-Z_]\w*` or `\[\d+\]`: a name or an index key. */
  predicate IsHeaderKey(k: string) {
    (k != [] && IsIdentStart(k[0]) && AllWord(k[1..]))
    || (|k| >= 3 && k[0] == '[' && k[|k| - 1] == ']' && AllDigits(k[1..|k| - 1]))
  }

  /** The groups a match can have: `.` does not match a line break. */
  predicate WellFormedMatch(m: HeaderMatch) {
    IsHeaderKey(m.key)
    && (m.bracket.Some? ==> m.bracket.value != [] && AllDigits(m.bracket.value))
    && (m.braces.Some? ==> '}' !in m.braces.value)
    && '\n' !in m.tail
  }

  /** The line a match reads. */
  function HeaderText(m: HeaderMatch): string {
    m.key + BracketText(m.bracket) + BraceText(m.braces) + ":" + m.tail
  }

  /** `[N]` around the digits of the group, or nothing. */
  function BracketText(bracket: Option<string>): string {
    if bracket.Some? then "[" + bracket.value + "]" else ""
  }

  /** `{...}` around the text of the group, or nothing. */
  function BraceText(braces: Option<string>): string {
    if braces.Some? then "{" + braces.value + "}" else ""
  }

  /** The first index from i on that is not a digit. */
  function SkipDigits(line: string, i: nat): (j: nat)
    requires i <= |line|
    ensures i <= j <= |line| && (j == |line| || !IsDigit(line[j]))
    ensures forall m :: i <= m < j ==> IsDigit(line[m])
    decreases |line| - i
  {
    if i < |line| && IsDigit(line[i]) then SkipDigits(line, i + 1) else i
  }

  /** Where `\[\d+\]` ends when it matches at i. */
  function BracketEnd(line: string, i: nat): (e: Option<nat>)
    requires i <= |line|
    ensures e.Some? ==> i + 3 <= e.value <= |line| && line[i] == '[' && line[e.value - 1] == ']'
    ensures e.Some? ==> forall m :: i + 1 <= m < e.value - 1 ==> IsDigit(line[m])
  {
    if i < |line| && line[i] == '[' then
      var j := SkipDigits(line, i + 1);
      if j > i + 1 && j < |line| && line[j] == ']' then Some(j + 1) else None
    else None
  }

  /** Where the key group ends. A shorter name would leave a word
      character where `[`, `{` or `:` must follow, so the name is the
      longest run. */
  function KeyEnd(line: string): (e: Option<nat>)
    ensures e.Some? ==> 1 <= e.value <= |line|
  {
    if line != [] && IsIdentStart(line[0]) then Some(SkipWord(line, 1))
    else BracketEnd(line, 0)
  }

  /** The first `}` from i on. */
  function CloseBrace(line: string, i: nat): (j: Option<nat>)
    requires i <= |line|
    ensures j.Some? ==> i <= j.value < |line| && line[j.value] == '}'
    ensures forall m :: i <= m < (if j.Some? then j.value else |line|) ==> line[m] != '}'
    decreases |line| - i
  {
    if i >= |line| then None
    else if line[i] == '}' then Some(i)
    else CloseBrace(line, i + 1)
  }

  /** Where the optional `(\[\d+\])?` after the key ends. */
  function BracketStop(line: string, k: nat): (b: nat)
    requires k <= |line|
    ensures k <= b <= |line|
  {
    if BracketEnd(line, k).Some? then BracketEnd(line, k).value else k
  }

  /** The closing brace of `\{([^}]*)\}` when the group matches at b. */
  function BraceClose(line: string, b: nat): (j: Option<nat>)
    requires b <= |line|
    ensures j.Some? ==> b < j.value < |line| && line[b] == '{' && line[j.value] == '}'
    ensures j.Some? ==> forall m :: b < m < j.value ==> line[m] != '}'
  {
    if b < |line| && line[b] == '{' then CloseBrace(line, b + 1) else None
  }

  /** The digits of the `[N]` group after a key ending at k. */
  function BracketGroup(line: string, k: nat): Option<string>
    requires k <= |line|
  {
    var b := BracketStop(line, k);
    if b > k then Some(line[k + 1..b - 1]) else None
  }

  /** The text of the `{...}` group at b. */
  function BraceGroup(line: string, b: nat): Option<string>
    requires b <= |line|
  {
    var close := BraceClose(line, b);
    if close.Some? then Some(line[b + 1..close.value]) else None
  }

  /** Where the colon must be once the key ends at k. */
  function ColonPos(line: string, k: nat): (c: nat)
    requires k <= |line|
    ensures k <= c <= |line|
  {
    var close := BraceClose(line, BracketStop(line, k));
    if close.Some? then close.value + 1 else BracketStop(line, k)
  }

  /** The rest of the pattern once the key group ends at k. */
  function MatchAfterKey(line: string, k: nat): (r: Option<HeaderMatch>)
    requires k <= |line|
  {
    var c := ColonPos(line, k);
    if c < |line| && line[c] == ':' && '\n' !in line[c + 1..] then
      Some(HeaderMatch(line[..k], BracketGroup(line, k), BraceGroup(line, BracketStop(line, k)), line[c + 1..]))
    else None
  }

  /** The match of the header pattern on a line, if any. */
  function MatchHeader(line: string): (r: Option<HeaderMatch>)
  {
    match KeyEnd(line)
    case None => None
    case Some(k) => MatchAfterKey(line, k)
  }

  /** One column of `{...}`: `name:type` splits at its first colon, and a
      type that is no TONLType value becomes None. */
  function ParseColumn(part: string): ColumnDef {
    var p := Strip(part);
    if ':' in p then
      var j := IndexOf(p, ':');
      ColumnDef(Strip(p[..j]), TypeFromName(Strip(p[j + 1..])))
    else ColumnDef(p, None)
  }

  /** The columns of the first n comma-separated parts, in order. */
  function ColumnsOf(parts: seq<string>, n: nat): (cols: seq<ColumnDef>)
    requires n <= |parts|
    ensures |cols| == n
  {
    if n == 0 then [] else ColumnsOf(parts, n - 1) + [ParseColumn(parts[n - 1])]
  }

  /** `_parse_header`: None unless the line matches and has the `[N]` or
      the braces; the columns come from the text between the braces. */
  function HeaderOf(line: string): (r: Option<HeaderInfo>)
  {
    match MatchHeader(line)
    case None => None
    case Some(m) =>
      if m.bracket.None? && m.braces.None? then None
      else
        MatchHeaderSound(line);
        Some(HeaderFromMatch(m))
  }

  /** The header a well-formed match describes. */
  function HeaderFromMatch(m: HeaderMatch): HeaderInfo
    requires WellFormedMatch(m)
  {
    HeaderInfo(m.key,
      if m.bracket.Some? then Some(DigitsValue(m.bracket.value)) else None,
      HeaderColumns(m.braces),
      Strip(m.tail))
  }

  /** The columns of the text between the braces, split at commas; none
      without braces or between empty ones. */
  function HeaderColumns(braces: Option<string>): seq<ColumnDef> {
    if braces.Some? && braces.value != [] then
      var parts := SplitOn(braces.value, ',');
      ColumnsOf(parts, |parts|)
    else []
  }

  /** A match describes the line it was found on. */
  lemma MatchHeaderSound(line: string)
    ensures MatchHeader(line).Some? ==>
      WellFormedMatch(MatchHeader(line).value) && HeaderText(MatchHeader(line).value) == line
  {
    if MatchHeader(line).Some? {
      var k := KeyEnd(line).value;
      KeyEndSound(line);
      AfterKeyWellFormed(line, k);
      AfterKeyText(line, k);
    }
  }

  lemma AfterKeyWellFormed(line: string, k: nat)
    requires k <= |line| && MatchAfterKey(line, k).Some? && IsHeaderKey(line[..k])
    ensures WellFormedMatch(MatchAfterKey(line, k).value)
  {
    BracketPart(line, k);
    BracePart(line, BracketStop(line, k));
  }

  lemma AfterKeyText(line: string, k: nat)
    requires k <= |line| && MatchAfterKey(line, k).Some?
    ensures HeaderText(MatchAfterKey(line, k).value) == line
  {
    var m := MatchAfterKey(line, k).value;
    var b := BracketStop(line, k);
    var c := ColonPos(line, k);
    BracketPart(line, k);
    BracePart(line, b);
    assert m.key == line[..k] && m.tail == line[c + 1..];
    assert BracketText(m.bracket) == line[k..b];
    assert BraceText(m.braces) == line[b..c];
    assert ":" == [line[c]];
    assert HeaderText(m) == line[..k] + line[k..b] + line[b..c] + [line[c]] + line[c + 1..];
    FourParts(line, k, b, c);
  }

  lemma KeyEndSound(line: string)
    requires KeyEnd(line).Some?
    ensures IsHeaderKey(line[..KeyEnd(line).value])
  {
    var k := KeyEnd(line).value;
    var key := line[..k];
    if IsIdentStart(line[0]) {
      SkipWordRun(line, 1);
      assert key[1..] == line[1..k];
    } else {
      BracketPart(line, 0);
      assert key[1..|key| - 1] == line[1..k - 1];
    }
  }

  lemma BracketPart(line: string, k: nat)
    requires k <= |line|
    ensures line[k..BracketStop(line, k)] == BracketText(BracketGroup(line, k))
    ensures var g := BracketGroup(line, k);
      g.Some? ==> g.value != [] && AllDigits(g.value)
  {
    var b := BracketStop(line, k);
    if b > k {
      assert line[k..b] == [line[k]] + line[k + 1..b - 1] + [line[b - 1]];
    }
  }

  lemma BracePart(line: string, b: nat)
    requires b <= |line|
    ensures var close := BraceClose(line, b);
      line[b..if close.Some? then close.value + 1 else b] == BraceText(BraceGroup(line, b))
    ensures var g := BraceGroup(line, b);
      g.Some? ==> '}' !in g.value
  {
    var close := BraceClose(line, b);
    if close.Some? {
      var j := close.value;
      assert line[b..j + 1] == [line[b]] + line[b + 1..j] + [line[j]];
    }
  }

  lemma FourParts<T>(s: seq<T>, k: nat, b: nat, c: nat)
    requires k <= b <= c < |s|
    ensures s == s[..k] + s[k..b] + s[b..c] + [s[c]] + s[c + 1..]
  {
  }

  // ---------------------------------------------------------------------
  // The key-value pattern `^([a-zA-Z_]\w*|\[\d+\]):\s*(.*)$`

  /** The key and the value text of a `key: value` line. */
  function MatchKeyValue(line: string): (r: Option<(string, string)>)
  {
    match KeyEnd(line)
    case None => None
    case Some(k) =>
      if k < |line| && line[k] == ':' && '\n' !in LStrip(line[k + 1..]) then Some((line[..k], LStrip(line[k + 1..])))
      else None
  }

  /** `_parse_key_value`: the key with its parsed value (a one-entry
      dict), or None for a line that does not match. */
  function ParseKeyValue(line: string): (r: Option<(string, Value)>)
    ensures r.Some? <==> MatchKeyValue(line).Some?
    ensures r.Some? ==> r.value.0 == MatchKeyValue(line).value.0 && IsScalar(r.value.1)
  {
    match MatchKeyValue(line)
    case None => None
    case Some((key, valueStr)) => Some((key, ParsePrimitiveValue(valueStr)))
  }

  // ---------------------------------------------------------------------
  // The header directive pattern `^#(\w+)\s+(.+)$`

  /** The name and the value of a directive. The whitespace run is
      greedy, but gives its last character back when nothing follows it. */
  function MatchDirective(s: string): (r: Option<(string, string)>)
    ensures r.Some? ==> r.value.0 != [] && r.value.1 != [] && '\n' !in r.value.1
  {
    if s != [] && s[0] == '#' then
      var k := SkipWord(s, 1);
      var m := SkipSpaces(s, k);
      if k > 1 && m > k then
        var value := if m < |s| then s[m..] else if m - k >= 2 then s[m - 1..] else [];
        if value != [] && '\n' !in value then Some((s[1..k], value)) else None
      else None
    else None
  }

  /** A line `_parse_headers` passes over: blank, `@...` or `#...`. */
  predicate IsHeaderLine(line: string) {
    var s := Strip(line);
    s == [] || s[0] == '@' || s[0] == '#'
  }

  /** The index of the first data line from i on. */
  function DataStart(lines: seq<string>, i: nat): (n: nat)
    requires i <= |lines|
    ensures i <= n <= |lines|
    decreases |lines| - i
  {
    if i == |lines| || !IsHeaderLine(lines[i]) then i else DataStart(lines, i + 1)
  }

  /** Every line from i up to the data start is a header line (blank,
      `@...` or `#...`). */
  lemma {:induction false} DataStartHeaders(lines: seq<string>, i: nat, j: nat)
    requires i <= |lines| && i <= j < DataStart(lines, i)
    ensures IsHeaderLine(lines[j])
    decreases |lines| - i
  {
    if j > i {
      DataStartHeaders(lines, i + 1, j);
    }
  }

  /** The line at the data start, if any, is not a header line. */
  lemma {:induction false} DataStartStops(lines: seq<string>, i: nat)
    requires i <= |lines|
    ensures DataStart(lines, i) < |lines| ==> !IsHeaderLine(lines[DataStart(lines, i)])
    decreases |lines| - i
  {
    if i < |lines| && IsHeaderLine(lines[i]) {
      DataStartStops(lines, i + 1);
    }
  }

  /** The decoder's two settings that header lines can change. */
  datatype HeaderState = HeaderState(delimiter: char, version: string)

  /** The delimiter and the version after one header line: `#version v`
      stores v, `#delimiter \t` sets a tab, `#delimiter` with `,`, `|` or
      `;` sets that character, and anything else changes nothing. */
  function ApplyDirective(line: string, st: HeaderState): HeaderState {
    var s := Strip(line);
    if s != [] && s[0] == '#' then
      match MatchDirective(s)
      case None => st
      case Some((key, value)) =>
        if key == "version" then st.(version := value)
        else if key == "delimiter" then
          if value == "\\t" then st.(delimiter := '\t')
          else if value == "," || value == "|" || value == ";" then st.(delimiter := value[0])
          else st
        else st
    else st
  }

  /** The delimiter and the version after the header lines before n. */
  function Settings(lines: seq<string>, n: nat, initial: HeaderState): HeaderState
    requires n <= |lines|
  {
    if n == 0 then initial else ApplyDirective(lines[n - 1], Settings(lines, n - 1, initial))
  }

  // ---------------------------------------------------------------------
  // The single-line object pattern
  // `([a-zA-Z_]\w*):\s*([^:]+?)(?=\s+[a-zA-Z_]\w*:|$)`, under `re.findall`

  /** `[a-zA-Z_]\w*:` matches at i. */
  predicate KeyColonAt(line: string, i: nat)
    requires i <= |line|
  {
    i < |line| && IsIdentStart(line[i]) && SkipWord(line, i + 1) < |line| && line[SkipWord(line, i + 1)] == ':'
  }

  /** The lookahead `(?=\s+[a-zA-Z_]\w*:|$)` holds at e. */
  predicate PairEndsAt(line: string, e: nat)
    requires e <= |line|
  {
    e == |line| || (IsSpace(line[e]) && KeyColonAt(line, SkipSpaces(line, e)))
  }

  /** The lazy `[^:]+?` whose last character is at e - 1: the first end
      from e on where the lookahead holds, unless a colon comes first. */
  function LazyValueEnd(line: string, e: nat): (r: Option<nat>)
    requires 1 <= e <= |line|
    ensures r.Some? ==> e <= r.value <= |line| && PairEndsAt(line, r.value)
    ensures r.Some? ==> forall m :: e - 1 <= m < r.value ==> line[m] != ':'
    decreases |line| - e
  {
    if line[e - 1] == ':' then None
    else if PairEndsAt(line, e) then Some(e)
    else LazyValueEnd(line, e + 1)
  }

  /** `\s*([^:]+?)` from s0: the value start is tried from the end of the
      whitespace run back down to s0, as the greedy `\s*` backtracks. */
  function ValueSpan(line: string, s0: nat, v: nat): (r: Option<(nat, nat)>)
    requires s0 <= v <= |line|
    ensures r.Some? ==> s0 <= r.value.0 < r.value.1 <= |line| && PairEndsAt(line, r.value.1)
    ensures r.Some? ==> forall m :: r.value.0 <= m < r.value.1 ==> line[m] != ':'
    decreases v - s0
  {
    var e := if v < |line| then LazyValueEnd(line, v + 1) else None;
    if e.Some? then Some((v, e.value))
    else if v > s0 then ValueSpan(line, s0, v - 1)
    else None
  }

  /** The match of the pair pattern at p: the key, the value text and
      where the match ends. */
  function PairMatchAt(line: string, p: nat): (r: Option<(string, string, nat)>)
    requires p <= |line|
    ensures r.Some? ==> p < r.value.2 <= |line|
  {
    if KeyColonAt(line, p) then
      var k := SkipWord(line, p + 1);
      match ValueSpan(line, k + 1, SkipSpaces(line, k + 1))
      case None => None
      case Some(span) => Some((line[p..k], line[span.0..span.1], span.1))
    else None
  }

  /** `re.findall` of the pair pattern from p on: each match is taken,
      and the search goes on where it ended, or one character further
      where none starts. */
  function FindPairs(line: string, p: nat): seq<(string, string)>
    requires p <= |line|
    decreases |line| - p
  {
    if p >= |line| then []
    else
      match PairMatchAt(line, p)
      case Some(m) => [(m.0, m.1)] + FindPairs(line, m.2)
      case None => FindPairs(line, p + 1)
  }

  /** The dict built from the first n pairs in order: `obj[key.strip()] =
      parse_primitive_value(value.strip())`. */
  function PairsDict(pairs: seq<(string, string)>, n: nat): seq<(string, Value)>
    requires n <= |pairs|
  {
    if n == 0 then []
    else Put(PairsDict(pairs, n - 1), Strip(pairs[n - 1].0), ParsePrimitiveValue(Strip(pairs[n - 1].1)))
  }

  /** `_parse_single_line_object`, which reads the keys from the line and
      not from the header's columns. */
  function SingleLineObject(line: string): seq<(string, Value)> {
    var pairs := FindPairs(line, 0);
    PairsDict(pairs, |pairs|)
  }

  // ---------------------------------------------------------------------
  // Values on one line

  /** `_parse_array_values`: value j is field j of the split line read as
      a primitive, so no value is a list or a dict. */
  function ArrayValues(line: string, d: char): (vs: seq<Value>)
    ensures |vs| == |SplitFields(line, d)|
    ensures forall j :: 0 <= j < |vs| ==> IsScalar(vs[j])
  {
    ParseFields(SplitFields(line, d))
  }

  /** Each field parsed by `parse_primitive_value`. */
  function ParseFields(fields: seq<string>): seq<Value> {
    seq(|fields|, j requires 0 <= j < |fields| => ParsePrimitiveValue(fields[j]))
  }

  /** The dict of one tabular row from its parsed fields: column j takes
      value j, for the first n columns that the row has values for. */
  function RowEntries(values: seq<Value>, columns: seq<ColumnDef>, n: nat): seq<(string, Value)>
    requires n <= |columns|
  {
    if n == 0 then []
    else
      var prev := RowEntries(values, columns, n - 1);
      if n - 1 < |values| then Put(prev, columns[n - 1].name, values[n - 1]) else prev
  }

  /** The rows of a tabular block whose lines run from 1 up to hi: one
      dict per non-blank line. */
  function TabularRows(lines: seq<string>, hi: nat, columns: seq<ColumnDef>, d: char): (r: seq<Value>)
    requires 1 <= hi <= |lines|
    ensures |r| < hi
  {
    if hi == 1 then []
    else
      var prev := TabularRows(lines, hi - 1, columns, d);
      if IsBlank(lines[hi - 1]) then prev else prev + [RowOf(lines[hi - 1], columns, d)]
  }

  /** The dict a non-blank row line gives. */
  function RowOf(line: string, columns: seq<ColumnDef>, d: char): Value {
    Map(RowEntries(ArrayValues(Strip(line), d), columns, |columns|))
  }

  // ---------------------------------------------------------------------
  // The recursive parser

  /** A parse result and the number of lines it consumed. */
  datatype Parsed = Parsed(value: Value, consumed: nat)

  /** A non-blank line indented no deeper than ind: it ends a multi-line
      block whose header is indented by ind. */
  predicate EndsBlock(line: string, ind: nat) {
    !IsBlank(line) && IndentOf(line) <= ind
  }

  /** The first line from i on that ends a block whose header is indented
      by ind, or the end of the lines. */
  function BlockEnd(lines: seq<string>, ind: nat, i: nat): (e: nat)
    requires i <= |lines|
    ensures i <= e <= |lines|
    ensures forall j :: i <= j < e ==> !EndsBlock(lines[j], ind)
    ensures e < |lines| ==> EndsBlock(lines[e], ind)
    decreases |lines| - i
  {
    if i == |lines| || EndsBlock(lines[i], ind) then i else BlockEnd(lines, ind, i + 1)
  }

  /** An array index key such as `[0]`, which `_parse_lines` does not wrap. */
  predicate IsIndexKey(key: string) {
    StartsWith(key, "[") && EndsWith(key, "]")
  }

  /** `_parse_lines`: a header line starts a block, which comes back under
      its key unless the key is an index; any other line is a `key: value`
      pair or None. */
  function LinesResult(lines: seq<string>, d: char): (r: Parsed)
    ensures lines == [] ==> r == Parsed(Null, 0)
    ensures lines != [] ==> 1 <= r.consumed <= |lines|
    decreases |lines|, 2
  {
    if lines == [] then Parsed(Null, 0)
    else
      match HeaderOf(Strip(lines[0]))
      case Some(h) =>
        var b := BlockResult(lines, h, d);
        if IsIndexKey(h.key) then b else Parsed(Map([(h.key, b.value)]), b.consumed)
      case None =>
        var kv := ParseKeyValue(Strip(lines[0]));
        Parsed(if kv.Some? then Map([(kv.value.0, kv.value.1)]) else Null, 1)
  }

  /** `_parse_block`: a header with text after its colon is a one-line
      primitive array or object; otherwise the block is tabular, a mixed
      array or an object, read from the following lines. */
  function BlockResult(lines: seq<string>, h: HeaderInfo, d: char): (r: Parsed)
    requires lines != []
    ensures 1 <= r.consumed <= |lines|
    decreases |lines|, 1
  {
    if h.rest != [] && h.IsArray() && h.columns == [] then Parsed(List(ArrayValues(h.rest, d)), 1)
    else if h.rest != [] && h.columns != [] then Parsed(Map(SingleLineObject(h.rest)), 1)
    else
      var ind := IndentOf(lines[0]);
      if h.IsArray() && h.columns != [] then
        var e := BlockEnd(lines, ind, 1);
        Parsed(List(TabularRows(lines, e, h.columns, d)), e)
      else if h.IsArray() then MixedFrom(lines, ind, d, 1, [])
      else ObjectFrom(lines, ind, d, 1, [])
  }

  /** The elements of a mixed array from line i on, after those in acc:
      each non-blank line starts an element that consumes its own lines. */
  function MixedFrom(lines: seq<string>, ind: nat, d: char, i: nat, acc: seq<Value>): (r: Parsed)
    requires 1 <= i <= |lines|
    ensures i <= r.consumed <= |lines|
    decreases |lines|, 0, |lines| - i, 1
  {
    if i == |lines| || EndsBlock(lines[i], ind) then Parsed(List(acc), i)
    else if IsBlank(lines[i]) then MixedFrom(lines, ind, d, i + 1, acc)
    else
      var next := MixedStep(lines, d, i, acc);
      MixedFrom(lines, ind, d, next.next, next.items)
  }

  /** Where a mixed array's reading stands after one element: the next line
      to read and the elements so far. */
  datatype MixedProgress = MixedProgress(next: nat, items: seq<Value>)

  /** The non-blank line i of a mixed array starts an element, read by
      `_parse_lines` from there. */
  function MixedStep(lines: seq<string>, d: char, i: nat, acc: seq<Value>): (r: MixedProgress)
    requires 1 <= i < |lines|
    ensures i < r.next <= |lines|
    decreases |lines|, 0, |lines| - i, 0
  {
    var sub := LinesResult(lines[i..], d);
    MixedProgress(i + sub.consumed, acc + [sub.value])
  }

  /** The fields of an object block from line i on, after those in acc: a
      header line starts a nested block stored under its key, a `key:
      value` line stores its value, and a later key overwrites. */
  function ObjectFrom(lines: seq<string>, ind: nat, d: char, i: nat, acc: seq<(string, Value)>): (r: Parsed)
    requires 1 <= i <= |lines|
    ensures i <= r.consumed <= |lines|
    decreases |lines|, 0, |lines| - i, 1
  {
    if i == |lines| || EndsBlock(lines[i], ind) then Parsed(Map(acc), i)
    else if IsBlank(lines[i]) then ObjectFrom(lines, ind, d, i + 1, acc)
    else
      var next := ObjectStep(lines, d, i, acc, HeaderOf(Strip(lines[i])));
      ObjectFrom(lines, ind, d, next.next, next.entries)
  }

  /** Where an object block's reading stands after one line: the next line
      to read and the fields so far. */
  datatype ObjectProgress = ObjectProgress(next: nat, entries: seq<(string, Value)>)

  /** The non-blank line i of an object block, given the header it
      matches if any: the line after what it reads, and the fields. */
  function ObjectStep(lines: seq<string>, d: char, i: nat, acc: seq<(string, Value)>, header: Option<HeaderInfo>): (r: ObjectProgress)
    requires 1 <= i < |lines|
    ensures i < r.next <= |lines|
    decreases |lines|, 0, |lines| - i, 0
  {
    match header
    case Some(h) =>
      var sub := BlockResult(lines[i..], h, d);
      ObjectProgress(i + sub.consumed, Put(acc, h.key, sub.value))
    case None =>
      var kv := ParseKeyValue(Strip(lines[i]));
      ObjectProgress(i + 1, if kv.Some? then Put(acc, kv.value.0, kv.value.1) else acc)
  }

  /** The top-level unwrapping of `decode`: a one-key dict gives its value
      when the key is `root`, or the value is a list or a scalar. */
  function Unwrap(result: Value): Value {
    if result.Map? && |result.entries| == 1 then
      var key := result.entries[0].0;
      var value := result.entries[0].1;
      if key == "root" || value.List? || IsScalar(value) then value else result
    else result
  }

  /** `any(line.strip() for line in data_lines)`. */
  predicate HasContent(data: seq<string>) {
    exists j :: 0 <= j < |data| && !IsBlank(data[j])
  }

  /** `decode`: the text split at line breaks, the header lines read, and
      the data lines parsed from the first; None when no data line has
      content. */
  function DecodeResult(text: string, initial: HeaderState): Value {
    var lines := SplitOn(text, '\n');
    var start := DataStart(lines, 0);
    var d := Settings(lines, start, initial).delimiter;
    var data := lines[start..];
    if !HasContent(data) then Null
    else Unwrap(LinesResult(data, d).value)
  }

  /** Once the data lines are known to have content, `decode` is the
      unwrapped result of `_parse_lines` on them. */
  lemma DecodeData(text: string, initial: HeaderState, start: nat, result: Value)
    requires var lines := SplitOn(text, '\n');
      start == DataStart(lines, 0) && HasContent(lines[start..])
      && result == LinesResult(lines[start..], Settings(lines, start, initial).delimiter).value
    ensures DecodeResult(text, initial) == Unwrap(result)
  {
  }

  // One step of each loop, as the functions above take it

  lemma MixedStop(lines: seq<string>, ind: nat, d: char, i: nat, acc: seq<Value>)
    requires 1 <= i <= |lines| && (i == |lines| || EndsBlock(lines[i], ind))
    ensures MixedFrom(lines, ind, d, i, acc) == Parsed(List(acc), i)
  {
  }

  lemma MixedBlank(lines: seq<string>, ind: nat, d: char, i: nat, acc: seq<Value>)
    requires 1 <= i < |lines| && IsBlank(lines[i])
    ensures MixedFrom(lines, ind, d, i, acc) == MixedFrom(lines, ind, d, i + 1, acc)
  {
  }

  lemma MixedElement(lines: seq<string>, d: char, i: nat, acc: seq<Value>, sub: Parsed)
    requires 1 <= i < |lines| && sub == LinesResult(lines[i..], d)
    ensures var r := MixedStep(lines, d, i, acc);
      r.next == i + sub.consumed && r.items == acc + [sub.value]
  {
  }

  lemma MixedLine(lines: seq<string>, ind: nat, d: char, i: nat, acc: seq<Value>, next: nat, acc': seq<Value>)
    requires 1 <= i < |lines| && !IsBlank(lines[i]) && !EndsBlock(lines[i], ind)
    requires var step := MixedStep(lines, d, i, acc);
      next == step.next && acc' == step.items
    ensures MixedFrom(lines, ind, d, i, acc) == MixedFrom(lines, ind, d, next, acc')
  {
  }

  lemma ObjectStop(lines: seq<string>, ind: nat, d: char, i: nat, acc: seq<(string, Value)>)
    requires 1 <= i <= |lines| && (i == |lines| || EndsBlock(lines[i], ind))
    ensures ObjectFrom(lines, ind, d, i, acc) == Parsed(Map(acc), i)
  {
  }

  lemma ObjectBlank(lines: seq<string>, ind: nat, d: char, i: nat, acc: seq<(string, Value)>)
    requires 1 <= i < |lines| && IsBlank(lines[i])
    ensures ObjectFrom(lines, ind, d, i, acc) == ObjectFrom(lines, ind, d, i + 1, acc)
  {
  }

  lemma ObjectLine(lines: seq<string>, ind: nat, d: char, i: nat, acc: seq<(string, Value)>, next: nat, acc': seq<(string, Value)>)
    requires 1 <= i < |lines| && !IsBlank(lines[i]) && !EndsBlock(lines[i], ind)
    requires var step := ObjectStep(lines, d, i, acc, HeaderOf(Strip(lines[i])));
      next == step.next && acc' == step.entries
    ensures ObjectFrom(lines, ind, d, i, acc) == ObjectFrom(lines, ind, d, next, acc')
  {
  }

  lemma ObjectBlock(lines: seq<string>, d: char, i: nat, acc: seq<(string, Value)>, h: HeaderInfo, sub: Parsed)
    requires 1 <= i < |lines| && sub == BlockResult(lines[i..], h, d)
    ensures var r := ObjectStep(lines, d, i, acc, Some(h));
      r.next == i + sub.consumed && r.entries == Put(acc, h.key, sub.value)
  {
  }

  lemma LinesHeader(lines: seq<string>, d: char, h: HeaderInfo, b: Parsed)
    requires lines != [] && HeaderOf(Strip(lines[0])) == Some(h) && b == BlockResult(lines, h, d)
    ensures LinesResult(lines, d) == if IsIndexKey(h.key) then b else Parsed(Map([(h.key, b.value)]), b.consumed)
  {
  }

  lemma LinesPair(lines: seq<string>, d: char)
    requires lines != [] && HeaderOf(Strip(lines[0])).None?
    ensures var kv := ParseKeyValue(Strip(lines[0]));
      LinesResult(lines, d) == Parsed(if kv.Some? then Map([(kv.value.0, kv.value.1)]) else Null, 1)
  {
  }

  lemma ObjectPair(lines: seq<string>, d: char, i: nat, acc: seq<(string, Value)>)
    requires 1 <= i < |lines|
    ensures var kv := ParseKeyValue(Strip(lines[i]));
      var r := ObjectStep(lines, d, i, acc, None);
      r.next == i + 1 && r.entries == (if kv.Some? then Put(acc, kv.value.0, kv.value.1) else acc)
  {
  }

  // ---------------------------------------------------------------------
  // The decoder object

  /** TONLDecoder: the version and the delimiter that the header pass
      sets, and the parser that reads the data lines with that
      delimiter. */
  class TONLDecoder {
    var version: string
    var delimiter: char

    constructor()
      ensures version == "1.0" && delimiter == ','
    {
      version := "1.0";
      delimiter := ',';
    }

    /** The settings as they stand. */
    function State(): HeaderState
      reads this
    {
      HeaderState(delimiter, version)
    }

    /** `decode`. */
    method Decode(text: string) returns (r: Value)
      modifies this
      ensures var lines := SplitOn(text, '\n');
        State() == Settings(lines, DataStart(lines, 0), old(State()))
      ensures r == DecodeResult(text, old(State()))
    {
      var lines := SplitOn(text, '\n');
      var dataStart := ParseHeaders(lines);
      var dataLines := lines[dataStart..];
      if !HasContent(dataLines) {
        r := Null;
      } else {
        var result, _ := ParseLines(dataLines);
        r := result;
        if result.Map? && |result.entries| == 1 {
          var key := result.entries[0].0;
          var value := result.entries[0].1;
          if key == "root" || value.List? || IsScalar(value) {
            r := value;
          }
        }
        DecodeData(text, old(State()), dataStart, result);
      }
    }

    /** `_parse_headers`: passes over blank, `@` and `#` lines, applying
        the `#version` and `#delimiter` directives, and returns the index
        of the first other line. */
    method ParseHeaders(lines: seq<string>) returns (dataStart: nat)
      modifies this
      ensures dataStart == DataStart(lines, 0)
      ensures State() == Settings(lines, dataStart, old(State()))
    {
      var i := 0;
      while i < |lines| && IsHeaderLine(lines[i])
        invariant i <= |lines|
        invariant DataStart(lines, i) == DataStart(lines, 0)
        invariant State() == Settings(lines, i, old(State()))
      {
        ApplyHeaderLine(lines[i]);
        i := i + 1;
      }
      dataStart := i;
    }

    /** The body of the `_parse_headers` loop for a blank, `@` or `#`
        line: a `#version` or `#delimiter` directive updates the setting. */
    method ApplyHeaderLine(line: string)
      modifies this
      ensures State() == ApplyDirective(line, old(State()))
    {
      var stripped := Strip(line);
      if stripped != [] && stripped[0] == '#' {
        var m := MatchDirective(stripped);
        if m.Some? {
          var key := m.value.0;
          var value := m.value.1;
          if key == "version" {
            version := value;
          } else if key == "delimiter" {
            if value == "\\t" {
              delimiter := '\t';
            } else if value == "," || value == "|" || value == ";" {
              delimiter := value[0];
            }
          }
        }
      }
    }

    /** `_parse_lines`. */
    method ParseLines(lines: seq<string>) returns (result: Value, consumed: nat)
      ensures Parsed(result, consumed) == LinesResult(lines, delimiter)
      decreases |lines|, 3
    {
      if lines == [] {
        return Null, 0;
      }
      var stripped := Strip(lines[0]);
      var headerInfo := ParseHeader(stripped);
      if headerInfo.Some? {
        var blockResult, blockConsumed := ParseBlock(lines, headerInfo.value);
        var key := headerInfo.value.key;
        result, consumed := blockResult, blockConsumed;
        if !IsIndexKey(key) {
          result := Map([(key, result)]);
        }
        LinesHeader(lines, delimiter, headerInfo.value, Parsed(blockResult, blockConsumed));
      } else {
        var kv := ParseKeyValue(stripped);
        result := if kv.Some? then Map([(kv.value.0, kv.value.1)]) else Null;
        consumed := 1;
        LinesPair(lines, delimiter);
      }
    }

    /** `_parse_header`, with the loop over the column definitions. */
    method ParseHeader(line: string) returns (r: Option<HeaderInfo>)
      ensures r == HeaderOf(line)
    {
      var m := MatchHeader(line);
      if m.None? {
        return None;
      }
      if m.value.bracket.None? && m.value.braces.None? {
        return None;
      }
      MatchHeaderSound(line);
      var arrayLength := if m.value.bracket.Some? then Some(DigitsValue(m.value.bracket.value)) else None;
      var columns: seq<ColumnDef> := [];
      if m.value.braces.Some? && m.value.braces.value != [] {
        columns := ParseColumns(SplitOn(m.value.braces.value, ','));
      }
      return Some(HeaderInfo(m.value.key, arrayLength, columns, Strip(m.value.tail)));
    }

    /** The column loop of `_parse_header`: `name:type` splits at the first
        colon, a bare name has no type. */
    method ParseColumns(parts: seq<string>) returns (columns: seq<ColumnDef>)
      ensures columns == ColumnsOf(parts, |parts|)
    {
      columns := [];
      for i := 0 to |parts|
        invariant columns == ColumnsOf(parts, i)
      {
        var column := ParseColumnPart(parts[i]);
        columns := columns + [column];
      }
    }

    /** The body of the column loop for one comma-separated part. */
    method ParseColumnPart(part: string) returns (column: ColumnDef)
      ensures column == ParseColumn(part)
    {
      var colPart := Strip(part);
      if ':' in colPart {
        var j := IndexOf(colPart, ':');
        var name := colPart[..j];
        var typeHint := colPart[j + 1..];
        column := ColumnDef(Strip(name), TypeFromName(Strip(typeHint)));
      } else {
        column := ColumnDef(colPart, None);
      }
    }

    /** `_parse_block`: the one-line forms, then the tabular, mixed-array
        and object loops. */
    method ParseBlock(lines: seq<string>, h: HeaderInfo) returns (result: Value, consumed: nat)
      requires lines != []
      ensures Parsed(result, consumed) == BlockResult(lines, h, delimiter)
      decreases |lines|, 2
    {
      if h.rest != [] {
        if h.IsArray() && h.columns == [] {
          var values := ParseArrayValues(h.rest);
          return List(values), 1;
        } else if h.columns != [] {
          var obj := ParseSingleLineObject(h.rest, h.columns);
          return Map(obj), 1;
        }
      }
      var firstLineIndent := IndentOf(lines[0]);
      if h.IsArray() && h.columns != [] {
        result, consumed := ParseTabular(lines, h.columns, firstLineIndent);
      } else if h.IsArray() {
        result, consumed := ParseMixed(lines, firstLineIndent);
      } else {
        result, consumed := ParseObject(lines, firstLineIndent);
      }
    }

    /** The tabular loop of `_parse_block`: one dict per non-blank row
        until the block ends. */
    method ParseTabular(lines: seq<string>, columns: seq<ColumnDef>, firstLineIndent: nat) returns (result: Value, consumed: nat)
      requires lines != []
      ensures consumed == BlockEnd(lines, firstLineIndent, 1)
      ensures result == List(TabularRows(lines, consumed, columns, delimiter))
    {
      var rows: seq<Value> := [];
      consumed := 1;
      var i := 1;
      while i < |lines| && !EndsBlock(lines[i], firstLineIndent)
        invariant 1 <= i <= |lines| && consumed == i
        invariant BlockEnd(lines, firstLineIndent, i) == BlockEnd(lines, firstLineIndent, 1)
        invariant rows == TabularRows(lines, i, columns, delimiter)
      {
        var line := lines[i];
        if !IsBlank(line) {
          var rowValues := SplitLineByDelimiter(Strip(line), delimiter);
          var obj := BuildRow(rowValues, columns);
          rows := rows + [Map(obj)];
        }
        i := i + 1;
        consumed := consumed + 1;
      }
      result := List(rows);
    }

    /** The dict of one tabular row. */
    method BuildRow(rowValues: seq<string>, columns: seq<ColumnDef>) returns (obj: seq<(string, Value)>)
      ensures obj == RowEntries(ParseFields(rowValues), columns, |columns|)
    {
      ghost var values := ParseFields(rowValues);
      obj := [];
      for j := 0 to |columns|
        invariant obj == RowEntries(values, columns, j)
      {
        if j < |rowValues| {
          var value := ParsePrimitiveValue(rowValues[j]);
          assert value == values[j];
          obj := Put(obj, columns[j].name, value);
        }
      }
    }

    /** The mixed-array loop of `_parse_block`: each non-blank line starts
        an element parsed by `_parse_lines`, which says how many lines it
        took. */
    method ParseMixed(lines: seq<string>, firstLineIndent: nat) returns (result: Value, consumed: nat)
      requires lines != []
      ensures Parsed(result, consumed) == MixedFrom(lines, firstLineIndent, delimiter, 1, [])
      decreases |lines|, 1
    {
      var items: seq<Value> := [];
      var i := 1;
      consumed := 1;
      while i < |lines| && !EndsBlock(lines[i], firstLineIndent)
        invariant 1 <= i <= |lines| && consumed == i
        invariant MixedFrom(lines, firstLineIndent, delimiter, i, items) == MixedFrom(lines, firstLineIndent, delimiter, 1, [])
        decreases |lines| - i
      {
        var line := lines[i];
        if !IsBlank(line) {
          var next;
          items, next := ParseMixedElement(lines, firstLineIndent, i, items);
          consumed := consumed + (next - i);
          i := next;
        } else {
          MixedBlank(lines, firstLineIndent, delimiter, i, items);
          i := i + 1;
          consumed := consumed + 1;
        }
      }
      MixedStop(lines, firstLineIndent, delimiter, i, items);
      result := List(items);
    }

    /** The mixed-array loop's work on the non-blank line i: the element
        `_parse_lines` reads from there is appended; next is the line after
        it. */
    method ParseMixedElement(lines: seq<string>, firstLineIndent: nat, i: nat, items: seq<Value>) returns (items': seq<Value>, next: nat)
      requires 1 <= i < |lines| && !IsBlank(lines[i]) && !EndsBlock(lines[i], firstLineIndent)
      ensures var step := MixedStep(lines, delimiter, i, items);
        next == step.next && items' == step.items
      ensures i < next <= |lines|
      ensures MixedFrom(lines, firstLineIndent, delimiter, i, items) == MixedFrom(lines, firstLineIndent, delimiter, next, items')
      decreases |lines|, 0
    {
      var subResult, subConsumed := ParseLines(lines[i..]);
      items' := items + [subResult];
      next := i + subConsumed;
      MixedElement(lines, delimiter, i, items, Parsed(subResult, subConsumed));
      MixedLine(lines, firstLineIndent, delimiter, i, items, next, items');
    }

    /** The object loop of `_parse_block`: a header line starts a nested
        block stored under its key, a `key: value` line stores its value. */
    method ParseObject(lines: seq<string>, firstLineIndent: nat) returns (result: Value, consumed: nat)
      requires lines != []
      ensures Parsed(result, consumed) == ObjectFrom(lines, firstLineIndent, delimiter, 1, [])
      decreases |lines|, 1
    {
      var obj: seq<(string, Value)> := [];
      var i := 1;
      consumed := 1;
      while i < |lines| && !EndsBlock(lines[i], firstLineIndent)
        invariant 1 <= i <= |lines| && consumed == i
        invariant ObjectFrom(lines, firstLineIndent, delimiter, i, obj) == ObjectFrom(lines, firstLineIndent, delimiter, 1, [])
        decreases |lines| - i
      {
        if !IsBlank(lines[i]) {
          var next;
          obj, next := ParseObjectLine(lines, firstLineIndent, i, obj);
          consumed := consumed + (next - i);
          i := next;
        } else {
          ObjectBlank(lines, firstLineIndent, delimiter, i, obj);
          i := i + 1;
          consumed := consumed + 1;
        }
      }
      ObjectStop(lines, firstLineIndent, delimiter, i, obj);
      result := Map(obj);
    }

    /** The object loop's work on the non-blank line i: a header line
        starts a nested block stored under its key, a `key: value` line
        stores its value; next is the line after what it read. */
    method ParseObjectLine(lines: seq<string>, firstLineIndent: nat, i: nat, obj: seq<(string, Value)>) returns (obj': seq<(string, Value)>, next: nat)
      requires 1 <= i < |lines| && !IsBlank(lines[i]) && !EndsBlock(lines[i], firstLineIndent)
      ensures var step := ObjectStep(lines, delimiter, i, obj, HeaderOf(Strip(lines[i])));
        next == step.next && obj' == step.entries
      ensures i < next <= |lines|
      ensures ObjectFrom(lines, firstLineIndent, delimiter, i, obj) == ObjectFrom(lines, firstLineIndent, delimiter, next, obj')
      decreases |lines|, 0
    {
      var line := lines[i];
      var subHeader := ParseHeader(Strip(line));
      if subHeader.Some? {
        var subResult, subConsumed := ParseBlock(lines[i..], subHeader.value);
        obj' := Put(obj, subHeader.value.key, subResult);
        next := i + subConsumed;
        ObjectBlock(lines, delimiter, i, obj, subHeader.value, Parsed(subResult, subConsumed));
        ObjectLine(lines, firstLineIndent, delimiter, i, obj, next, obj');
      } else {
        var kvResult := ParseKeyValue(Strip(line));
        if kvResult.Some? {
          obj' := Put(obj, kvResult.value.0, kvResult.value.1);
        } else {
          obj' := obj;
        }
        next := i + 1;
        ObjectPair(lines, delimiter, i, obj);
        ObjectLine(lines, firstLineIndent, delimiter, i, obj, next, obj');
      }
    }

    /** `_parse_array_values`. */
    method ParseArrayValues(line: string) returns (values: seq<Value>)
      ensures values == ArrayValues(line, delimiter)
    {
      var fields := SplitLineByDelimiter(line, delimiter);
      values := seq(|fields|, j requires 0 <= j < |fields| => ParsePrimitiveValue(fields[j]));
    }

    /** `_parse_single_line_object`: the pairs the pattern finds, in
        order; the columns are not consulted. */
    method ParseSingleLineObject(line: string, columns: seq<ColumnDef>) returns (obj: seq<(string, Value)>)
      ensures obj == SingleLineObject(line)
    {
      var pairs := FindPairs(line, 0);
      obj := [];
      for i := 0 to |pairs|
        invariant obj == PairsDict(pairs, i)
      {
        obj := Put(obj, Strip(pairs[i].0), ParsePrimitiveValue(Strip(pairs[i].1)));
      }
    }
  }
}

=== FILE: decoder_props.dfy ===
/** What the decoder of pytonl/decoder.py promises about the blocks it reads:
    how many lines a block consumes, the dicts it builds and the header
    lines it passes over. */
module DecoderProperties {
  import opened Types
  import opened Text
  import opened Utils
  import opened Decoder

  // ---------------------------------------------------------------------
  // Consumed lines

  /** The one-line forms of `_parse_block`: a primitive array or an object
      written after the header's colon. */
  predicate OneLineBlock(h: HeaderInfo) {
    h.rest != [] && ((h.IsArray() && h.columns == []) || h.columns != [])
  }

  /** Lines that do not end the block leave its end where it is. */
  lemma {:induction false} BlockEndSkip(lines: seq<string>, ind: nat, i: nat, k: nat)
    requires i <= k <= |lines|
    requires forall j :: i <= j < k ==> !EndsBlock(lines[j], ind)
    ensures BlockEnd(lines, ind, i) == BlockEnd(lines, ind, k)
    decreases k - i
  {
    if i < k {
      BlockEndSkip(lines, ind, i + 1, k);
    }
  }

  /** A nested block starts on a line indented deeper than ind, and every
      line it consumes after that one is blank or deeper still, so none of
      them ends the enclosing block. */
  lemma NestedSkip(lines: seq<string>, ind: nat, i: nat, c: nat)
    requires 1 <= i < |lines| && !IsBlank(lines[i]) && !EndsBlock(lines[i], ind)
    requires 1 <= c <= |lines| - i
    requires c == 1 || c == BlockEnd(lines[i..], IndentOf(lines[i]), 1)
    ensures BlockEnd(lines, ind, i) == BlockEnd(lines, ind, i + c)
  {
    var sub := lines[i..];
    forall j | i <= j < i + c
      ensures !EndsBlock(lines[j], ind)
    {
      if j > i {
        assert sub[j - i] == lines[j];
        assert !EndsBlock(sub[j - i], IndentOf(lines[i]));
      }
    }
    BlockEndSkip(lines, ind, i, i + c);
  }

  /** `_parse_block` consumes its header line alone for the one-line forms;
      otherwise it reads down to the first non-blank line indented no
      deeper than the header, or to the end. */
  lemma {:induction false} BlockConsumed(lines: seq<string>, h: HeaderInfo, d: char)
    requires lines != []
    ensures BlockResult(lines, h, d).consumed ==
      if OneLineBlock(h) then 1 else BlockEnd(lines, IndentOf(lines[0]), 1)
    decreases |lines|, 1
  {
    if !OneLineBlock(h) {
      var ind := IndentOf(lines[0]);
      if h.IsArray() && h.columns != [] {
      } else if h.IsArray() {
        MixedConsumed(lines, ind, d, 1, []);
      } else {
        ObjectConsumed(lines, ind, d, 1, []);
      }
    }
  }

  /** `_parse_lines` consumes one line, or a whole block. */
  lemma {:induction false} LinesConsumed(lines: seq<string>, d: char)
    requires lines != []
    ensures var c := LinesResult(lines, d).consumed;
      c == 1 || c == BlockEnd(lines, IndentOf(lines[0]), 1)
    decreases |lines|, 2
  {
    match HeaderOf(Strip(lines[0]))
    case Some(h) =>
      BlockConsumed(lines, h, d);
      LinesHeader(lines, d, h, BlockResult(lines, h, d));
    case None =>
      LinesPair(lines, d);
  }

  /** The mixed-array loop stops at the first line that ends the block. */
  lemma {:induction false} MixedConsumed(lines: seq<string>, ind: nat, d: char, i: nat, acc: seq<Value>)
    requires 1 <= i <= |lines|
    ensures MixedFrom(lines, ind, d, i, acc).consumed == BlockEnd(lines, ind, i)
    decreases |lines|, 0, |lines| - i, 1
  {
    if i == |lines| || EndsBlock(lines[i], ind) {
      MixedStop(lines, ind, d, i, acc);
    } else if IsBlank(lines[i]) {
      MixedBlank(lines, ind, d, i, acc);
      MixedConsumed(lines, ind, d, i + 1, acc);
    } else {
      var next, items := MixedElementSkips(lines, ind, d, i, acc);
      MixedConsumed(lines, ind, d, next, items);
    }
  }

  /** An element of a mixed array ends inside the array's block. */
  lemma {:induction false} MixedElementSkips(lines: seq<string>, ind: nat, d: char, i: nat, acc: seq<Value>)
    returns (next: nat, items: seq<Value>)
    requires 1 <= i < |lines| && !IsBlank(lines[i]) && !EndsBlock(lines[i], ind)
    ensures i < next <= |lines|
    ensures MixedFrom(lines, ind, d, i, acc) == MixedFrom(lines, ind, d, next, items)
    ensures BlockEnd(lines, ind, i) == BlockEnd(lines, ind, next)
    decreases |lines|, 0, |lines| - i, 0
  {
    var sub := LinesResult(lines[i..], d);
    next, items := i + sub.consumed, acc + [sub.value];
    MixedElement(lines, d, i, acc, sub);
    MixedLine(lines, ind, d, i, acc, next, items);
    LinesConsumed(lines[i..], d);
    assert lines[i..][0] == lines[i];
    NestedSkip(lines, ind, i, sub.consumed);
  }

  /** The object loop stops at the first line that ends the block. */
  lemma {:induction false} ObjectConsumed(lines: seq<string>, ind: nat, d: char, i: nat, acc: seq<(string, Value)>)
    requires 1 <= i <= |lines|
    ensures ObjectFrom(lines, ind, d, i, acc).consumed == BlockEnd(lines, ind, i)
    decreases |lines|, 0, |lines| - i, 3
  {
    if i == |lines| || EndsBlock(lines[i], ind) {
      ObjectStop(lines, ind, d, i, acc);
    } else {
      var next, entries := ObjectAdvance(lines, ind, d, i, acc);
      ObjectConsumed(lines, ind, d, next, entries);
    }
  }

  /** A blank line, or a line with what it reads, inside an object block. */
  lemma {:induction false} ObjectAdvance(lines: seq<string>, ind: nat, d: char, i: nat, acc: seq<(string, Value)>)
    returns (next: nat, entries: seq<(string, Value)>)
    requires 1 <= i < |lines| && !EndsBlock(lines[i], ind)
    ensures i < next <= |lines|
    ensures ObjectFrom(lines, ind, d, i, acc) == ObjectFrom(lines, ind, d, next, entries)
    ensures BlockEnd(lines, ind, i) == BlockEnd(lines, ind, next)
    decreases |lines|, 0, |lines| - i, 2
  {
    if IsBlank(lines[i]) {
      ObjectBlank(lines, ind, d, i, acc);
      next, entries := i + 1, acc;
    } else {
      next, entries := ObjectLineSkips(lines, ind, d, i, acc);
    }
  }

  /** A line of an object block, with the nested block it starts, ends
      inside the object's block. */
  lemma {:induction false} ObjectLineSkips(lines: seq<string>, ind: nat, d: char, i: nat, acc: seq<(string, Value)>)
    returns (next: nat, entries: seq<(string, Value)>)
    requires 1 <= i < |lines| && !IsBlank(lines[i]) && !EndsBlock(lines[i], ind)
    ensures i < next <= |lines|
    ensures ObjectFrom(lines, ind, d, i, acc) == ObjectFrom(lines, ind, d, next, entries)
    ensures BlockEnd(lines, ind, i) == BlockEnd(lines, ind, next)
    decreases |lines|, 0, |lines| - i, 1
  {
    match HeaderOf(Strip(lines[i]))
    case Some(h) =>
      next, entries := ObjectBlockSkips(lines, ind, d, i, acc, h);
    case None =>
      next, entries := ObjectPairSkips(lines, ind, d, i, acc);
  }

  lemma {:induction false} ObjectBlockSkips(lines: seq<string>, ind: nat, d: char, i: nat, acc: seq<(string, Value)>, h: HeaderInfo)
    returns (next: nat, entries: seq<(string, Value)>)
    requires 1 <= i < |lines| && !IsBlank(lines[i]) && !EndsBlock(lines[i], ind)
    requires HeaderOf(Strip(lines[i])) == Some(h)
    ensures i < next <= |lines|
    ensures ObjectFrom(lines, ind, d, i, acc) == ObjectFrom(lines, ind, d, next, entries)
    ensures BlockEnd(lines, ind, i) == BlockEnd(lines, ind, next)
    decreases |lines|, 0, |lines| - i, 0
  {
    var sub := BlockResult(lines[i..], h, d);
    next, entries := i + sub.consumed, Put(acc, h.key, sub.value);
    ObjectBlock(lines, d, i, acc, h, sub);
    ObjectLine(lines, ind, d, i, acc, next, entries);
    BlockConsumed(lines[i..], h, d);
    assert lines[i..][0] == lines[i];
    NestedSkip(lines, ind, i, sub.consumed);
  }

  lemma ObjectPairSkips(lines: seq<string>, ind: nat, d: char, i: nat, acc: seq<(string, Value)>)
    returns (next: nat, entries: seq<(string, Value)>)
    requires 1 <= i < |lines| && !IsBlank(lines[i]) && !EndsBlock(lines[i], ind)
    requires HeaderOf(Strip(lines[i])).None?
    ensures i < next <= |lines|
    ensures ObjectFrom(lines, ind, d, i, acc) == ObjectFrom(lines, ind, d, next, entries)
    ensures BlockEnd(lines, ind, i) == BlockEnd(lines, ind, next)
  {
    var kv := ParseKeyValue(Strip(lines[i]));
    next, entries := i + 1, if kv.Some? then Put(acc, kv.value.0, kv.value.1) else acc;
    ObjectPair(lines, d, i, acc);
    ObjectLine(lines, ind, d, i, acc, next, entries);
    NestedSkip(lines, ind, i, 1);
  }

  // ---------------------------------------------------------------------
  // What the blocks build

  /** A line of an object block that opens a nested block stores what the
      block reads under the header's key, leaves every other key as it
      was, and moves past the nested block's lines. */
  lemma ObjectBlockStored(lines: seq<string>, d: char, i: nat, acc: seq<(string, Value)>, h: HeaderInfo, other: string)
    requires 1 <= i < |lines|
    ensures var r := ObjectStep(lines, d, i, acc, Some(h));
      var sub := BlockResult(lines[i..], h, d);
      Get(r.entries, h.key) == Some(sub.value) &&
      (other != h.key ==> Get(r.entries, other) == Get(acc, other)) &&
      r.next == i + (if OneLineBlock(h) then 1 else BlockEnd(lines[i..], IndentOf(lines[i]), 1))
  {
    var sub := BlockResult(lines[i..], h, d);
    GetAfterPut(acc, h.key, sub.value, other);
    BlockConsumed(lines[i..], h, d);
  }

  /** Any other line of an object block is read as `key: value`: a pair
      stores its value under its key and leaves every other key as it was,
      a line that is not a pair changes nothing, and either way the next
      line is read. */
  lemma ObjectPairStored(lines: seq<string>, d: char, i: nat, acc: seq<(string, Value)>, other: string)
    requires 1 <= i < |lines|
    ensures var r := ObjectStep(lines, d, i, acc, None);
      var kv := ParseKeyValue(Strip(lines[i]));
      r.next == i + 1 &&
      match kv
      case Some((k, v)) => Get(r.entries, k) == Some(v) && (other != k ==> Get(r.entries, other) == Get(acc, other))
      case None => r.entries == acc
  {
    var kv := ParseKeyValue(Strip(lines[i]));
    if kv.Some? {
      GetAfterPut(acc, kv.value.0, kv.value.1, other);
    }
  }

  /** An object block gives a dict. A key stays where it was first stored
      when a later line repeats it (the later value overwrites), so keys
      that were distinct stay distinct. */
  lemma {:induction false} ObjectKeysKept(lines: seq<string>, ind: nat, d: char, i: nat, acc: seq<(string, Value)>)
    requires 1 <= i <= |lines| && UniqueKeys(acc)
    ensures var r := ObjectFrom(lines, ind, d, i, acc).value;
      r.Map? && KeptKeys(acc, r.entries)
    decreases |lines| - i
  {
    if i == |lines| || EndsBlock(lines[i], ind) {
      ObjectStop(lines, ind, d, i, acc);
    } else {
      var p := ObjectAdvanceOf(lines, d, i, acc);
      ObjectAdvanceFrom(lines, ind, d, i, acc);
      ObjectAdvanceKeys(lines, d, i, acc);
      ObjectKeysKept(lines, ind, d, p.next, p.entries);
      KeptKeysTrans(acc, p.entries, ObjectFrom(lines, ind, d, p.next, p.entries).value.entries);
    }
  }

  /** What the object loop does with line i: skip it when blank, read it
      otherwise. */
  function ObjectAdvanceOf(lines: seq<string>, d: char, i: nat, acc: seq<(string, Value)>): ObjectProgress
    requires 1 <= i < |lines|
  {
    if IsBlank(lines[i]) then ObjectProgress(i + 1, acc)
    else ObjectStep(lines, d, i, acc, HeaderOf(Strip(lines[i])))
  }

  lemma ObjectAdvanceFrom(lines: seq<string>, ind: nat, d: char, i: nat, acc: seq<(string, Value)>)
    requires 1 <= i < |lines| && !EndsBlock(lines[i], ind)
    ensures var p := ObjectAdvanceOf(lines, d, i, acc);
      i < p.next <= |lines| && ObjectFrom(lines, ind, d, i, acc) == ObjectFrom(lines, ind, d, p.next, p.entries)
  {
    var p := ObjectAdvanceOf(lines, d, i, acc);
    if IsBlank(lines[i]) {
      ObjectBlank(lines, ind, d, i, acc);
    } else {
      ObjectLine(lines, ind, d, i, acc, p.next, p.entries);
    }
  }

  lemma ObjectAdvanceKeys(lines: seq<string>, d: char, i: nat, acc: seq<(string, Value)>)
    requires 1 <= i < |lines| && UniqueKeys(acc)
    ensures KeptKeys(acc, ObjectAdvanceOf(lines, d, i, acc).entries)
  {
    if !IsBlank(lines[i]) {
      ObjectStepKeys(lines, d, i, acc);
    }
  }

  lemma KeptKeysTrans(a: seq<(string, Value)>, b: seq<(string, Value)>, c: seq<(string, Value)>)
    requires KeptKeys(a, b) && KeptKeys(b, c)
    ensures KeptKeys(a, c)
  {
    forall j | 0 <= j < |a| ensures c[j].0 == a[j].0 {
      assert c[j].0 == b[j].0;
    }
  }

  /** One line of an object block stores at most one key, in place when
      the key is already there and at the end otherwise. */
  lemma ObjectStepKeys(lines: seq<string>, d: char, i: nat, acc: seq<(string, Value)>)
    requires 1 <= i < |lines| && UniqueKeys(acc)
    ensures var r := ObjectStep(lines, d, i, acc, HeaderOf(Strip(lines[i]))).entries;
      KeptKeys(acc, r)
  {
    match HeaderOf(Strip(lines[i]))
    case Some(h) =>
      var sub := BlockResult(lines[i..], h, d);
      ObjectBlock(lines, d, i, acc, h, sub);
      PutKeepsKeys(acc, h.key, sub.value);
    case None =>
      ObjectPair(lines, d, i, acc);
      var kv := ParseKeyValue(Strip(lines[i]));
      if kv.Some? {
        PutKeepsKeys(acc, kv.value.0, kv.value.1);
      }
  }

  /** r has distinct keys and starts with the keys of acc, in order. */
  predicate KeptKeys(acc: seq<(string, Value)>, r: seq<(string, Value)>) {
    UniqueKeys(r) && |acc| <= |r| && forall j :: 0 <= j < |acc| ==> r[j].0 == acc[j].0
  }

  lemma PutKeepsKeys(acc: seq<(string, Value)>, k: string, v: Value)
    requires UniqueKeys(acc)
    ensures KeptKeys(acc, Put(acc, k, v))
  {
    PutInPlace(acc, k, v);
  }

  /** A mixed array gives a list, and the elements read so far stay in
      front, in line order. */
  lemma {:induction false} MixedItemsInOrder(lines: seq<string>, ind: nat, d: char, i: nat, acc: seq<Value>)
    requires 1 <= i <= |lines|
    ensures var r := MixedFrom(lines, ind, d, i, acc).value;
      r.List? && acc <= r.items
    decreases |lines| - i
  {
    if i == |lines| || EndsBlock(lines[i], ind) {
      MixedStop(lines, ind, d, i, acc);
    } else {
      var next, items := MixedItemsStep(lines, ind, d, i, acc);
      MixedItemsInOrder(lines, ind, d, next, items);
      PrefixTrans(acc, items, MixedFrom(lines, ind, d, next, items).value.items);
    }
  }

  /** A blank line, or an element, inside a mixed array: the elements so
      far stay in front. */
  lemma MixedItemsStep(lines: seq<string>, ind: nat, d: char, i: nat, acc: seq<Value>)
    returns (next: nat, items: seq<Value>)
    requires 1 <= i < |lines| && !EndsBlock(lines[i], ind)
    ensures i < next <= |lines| && acc <= items
    ensures MixedFrom(lines, ind, d, i, acc) == MixedFrom(lines, ind, d, next, items)
  {
    if IsBlank(lines[i]) {
      MixedBlank(lines, ind, d, i, acc);
      next, items := i + 1, acc;
    } else {
      var sub := LinesResult(lines[i..], d);
      MixedElement(lines, d, i, acc, sub);
      next, items := i + sub.consumed, acc + [sub.value];
      MixedLine(lines, ind, d, i, acc, next, items);
    }
  }

  lemma PrefixTrans<T>(a: seq<T>, b: seq<T>, c: seq<T>)
    requires a <= b && b <= c
    ensures a <= c
  {
    assert c[..|b|][..|a|] == c[..|a|];
  }

  /** Column names that are pairwise distinct. */
  predicate DistinctNames(columns: seq<ColumnDef>) {
    forall j, k :: 0 <= j < k < |columns| ==> columns[j].name != columns[k].name
  }

  /** A tabular row maps column j to the parsed field j, for as many
      columns as the row has fields; the columns past the last field are
      left out. */
  lemma {:induction false} RowEntriesSpec(values: seq<Value>, columns: seq<ColumnDef>, n: nat)
    requires n <= |columns| && DistinctNames(columns)
    ensures var r := RowEntries(values, columns, n);
      |r| == (if n < |values| then n else |values|)
      && forall j :: 0 <= j < |r| ==> r[j] == (columns[j].name, values[j])
  {
    if n > 0 {
      var prev := RowEntries(values, columns, n - 1);
      RowEntriesSpec(values, columns, n - 1);
      if n - 1 < |values| {
        var name := columns[n - 1].name;
        forall j | 0 <= j < |prev| ensures KeysOf(prev)[j] != name {
          assert prev[j].0 == columns[j].name;
        }
        RowAppend(values, columns, n, prev);
        var r := RowEntries(values, columns, n);
        forall j | 0 <= j < |r| ensures r[j] == (columns[j].name, values[j]) {
          if j < |prev| {
            assert r[j] == prev[j];
          }
        }
      } else {
        RowSkip(values, columns, n);
      }
    }
  }

  lemma RowAppend(values: seq<Value>, columns: seq<ColumnDef>, n: nat, prev: seq<(string, Value)>)
    requires 0 < n <= |columns| && n - 1 < |values| && prev == RowEntries(values, columns, n - 1)
    requires forall j :: 0 <= j < |prev| ==> KeysOf(prev)[j] != columns[n - 1].name
    ensures RowEntries(values, columns, n) == prev + [(columns[n - 1].name, values[n - 1])]
  {
    assert columns[n - 1].name !in KeysOf(prev);
  }

  lemma RowSkip(values: seq<Value>, columns: seq<ColumnDef>, n: nat)
    requires 0 < n <= |columns| && n - 1 >= |values|
    ensures RowEntries(values, columns, n) == RowEntries(values, columns, n - 1)
  {
  }

  /** Whatever the column names, a column with a value and no later
      column of the same name with a value holds its own value: where
      names repeat, the last column wins, as `obj[col.name] = …` does. */
  lemma {:induction false} RowEntriesGet(values: seq<Value>, columns: seq<ColumnDef>, n: nat, j: nat)
    requires n <= |columns| && j < n && j < |values|
    requires forall m :: j < m < n && m < |values| ==> columns[m].name != columns[j].name
    ensures Get(RowEntries(values, columns, n), columns[j].name) == Some(values[j])
  {
    var prev := RowEntries(values, columns, n - 1);
    var name := columns[j].name;
    if n - 1 == j {
      RowStep(values, columns, n);
      GetAfterPut(prev, name, values[j], name);
    } else {
      RowEntriesGet(values, columns, n - 1, j);
      RowStep(values, columns, n);
      if n - 1 < |values| {
        GetAfterPut(prev, columns[n - 1].name, values[n - 1], name);
      }
    }
  }

  /** A name that no column with a value carries is not in the row. */
  lemma {:induction false} RowEntriesAbsent(values: seq<Value>, columns: seq<ColumnDef>, n: nat, k: string)
    requires n <= |columns|
    requires forall m :: 0 <= m < n && m < |values| ==> columns[m].name != k
    ensures Get(RowEntries(values, columns, n), k).None?
  {
    if n > 0 {
      var prev := RowEntries(values, columns, n - 1);
      RowEntriesAbsent(values, columns, n - 1, k);
      RowStep(values, columns, n);
      if n - 1 < |values| {
        GetAfterPut(prev, columns[n - 1].name, values[n - 1], k);
      }
    }
  }

  lemma RowStep(values: seq<Value>, columns: seq<ColumnDef>, n: nat)
    requires 0 < n <= |columns|
    ensures RowEntries(values, columns, n) ==
      if n - 1 < |values| then Put(RowEntries(values, columns, n - 1), columns[n - 1].name, values[n - 1])
      else RowEntries(values, columns, n - 1)
  {
  }

  /** The non-blank lines of ls, in order. */
  function NonBlank(ls: seq<string>): (r: seq<string>)
    ensures |r| <= |ls|
  {
    if ls == [] then [] else (if IsBlank(ls[0]) then [] else [ls[0]]) + NonBlank(ls[1..])
  }

  lemma {:induction false} NonBlankSnoc(ls: seq<string>, x: string)
    ensures NonBlank(ls + [x]) == NonBlank(ls) + (if IsBlank(x) then [] else [x])
  {
    if ls != [] {
      assert (ls + [x])[1..] == ls[1..] + [x];
      NonBlankSnoc(ls[1..], x);
    } else {
      assert NonBlank([x][1..]) == [];
    }
  }

  /** The dict of each line of ls, in order. */
  function RowsOf(ls: seq<string>, columns: seq<ColumnDef>, d: char): (r: seq<Value>)
    ensures |r| == |ls|
  {
    seq(|ls|, k requires 0 <= k < |ls| => RowOf(ls[k], columns, d))
  }

  lemma RowsOfSnoc(ls: seq<string>, x: string, columns: seq<ColumnDef>, d: char)
    ensures RowsOf(ls + [x], columns, d) == RowsOf(ls, columns, d) + [RowOf(x, columns, d)]
  {
    var a := RowsOf(ls + [x], columns, d);
    var b := RowsOf(ls, columns, d) + [RowOf(x, columns, d)];
    forall k | 0 <= k < |a| ensures a[k] == b[k] {
      var line := (ls + [x])[k];
      assert a[k] == RowOf(line, columns, d);
      if k < |ls| {
        assert line == ls[k];
        assert b[k] == RowsOf(ls, columns, d)[k] == RowOf(ls[k], columns, d);
      } else {
        assert line == x && b[k] == RowOf(x, columns, d);
      }
    }
    assert |a| == |b|;
  }

  /** A tabular block has one row per non-blank line after its header, in
      the order of those lines. */
  lemma {:induction false} TabularRowsAre(lines: seq<string>, hi: nat, columns: seq<ColumnDef>, d: char)
    requires 1 <= hi <= |lines|
    ensures TabularRows(lines, hi, columns, d) == RowsOf(NonBlank(lines[1..hi]), columns, d)
  {
    if hi > 1 {
      TabularRowsAre(lines, hi - 1, columns, d);
      if IsBlank(lines[hi - 1]) {
        BlankLineSkipped(lines, hi, columns, d);
      } else {
        RowLineAdded(lines, hi, columns, d);
      }
    } else {
      assert lines[1..hi] == [];
    }
  }

  lemma BlankLineSkipped(lines: seq<string>, hi: nat, columns: seq<ColumnDef>, d: char)
    requires 1 < hi <= |lines| && IsBlank(lines[hi - 1])
    ensures TabularRows(lines, hi, columns, d) == TabularRows(lines, hi - 1, columns, d)
    ensures NonBlank(lines[1..hi]) == NonBlank(lines[1..hi - 1])
  {
    var before := lines[1..hi - 1];
    assert lines[1..hi] == before + [lines[hi - 1]];
    NonBlankSnoc(before, lines[hi - 1]);
    assert NonBlank(before) + [] == NonBlank(before);
  }

  lemma RowLineAdded(lines: seq<string>, hi: nat, columns: seq<ColumnDef>, d: char)
    requires 1 < hi <= |lines| && !IsBlank(lines[hi - 1])
    ensures TabularRows(lines, hi, columns, d) == TabularRows(lines, hi - 1, columns, d) + [RowOf(lines[hi - 1], columns, d)]
    ensures RowsOf(NonBlank(lines[1..hi]), columns, d) == RowsOf(NonBlank(lines[1..hi - 1]), columns, d) + [RowOf(lines[hi - 1], columns, d)]
  {
    var before := lines[1..hi - 1];
    assert lines[1..hi] == before + [lines[hi - 1]];
    NonBlankSnoc(before, lines[hi - 1]);
    RowsOfSnoc(NonBlank(before), lines[hi - 1], columns, d);
  }

  /** So the table has as many rows as non-blank lines, row k being the
      dict of the k-th such line. */
  lemma TabularRowsSpec(lines: seq<string>, hi: nat, columns: seq<ColumnDef>, d: char)
    requires 1 <= hi <= |lines|
    ensures var r := TabularRows(lines, hi, columns, d);
      var rows := NonBlank(lines[1..hi]);
      |r| == |rows| && forall k :: 0 <= k < |r| ==> r[k] == RowOf(rows[k], columns, d)
  {
    TabularRowsAre(lines, hi, columns, d);
  }


  /** The dict of a row line: the first columns, each with the field of
      the same position parsed by `parse_primitive_value`. */
  lemma RowOfSpec(line: string, columns: seq<ColumnDef>, d: char)
    requires DistinctNames(columns)
    ensures var fields := SplitFields(Strip(line), d);
      var r := RowOf(line, columns, d).entries;
      |r| == (if |columns| < |fields| then |columns| else |fields|)
      && forall j :: 0 <= j < |r| ==> r[j] == (columns[j].name, ParsePrimitiveValue(fields[j]))
  {
    RowEntriesSpec(ArrayValues(Strip(line), d), columns, |columns|);
  }

  // ---------------------------------------------------------------------
  // Key-value lines

  /** The first index from i on that is not a digit is n when the digits
      run from i up to n. */
  lemma {:induction false} SkipDigitsOver(line: string, i: nat, n: nat)
    requires i <= n <= |line| && (n == |line| || !IsDigit(line[n]))
    requires forall j :: i <= j < n ==> IsDigit(line[j])
    ensures SkipDigits(line, i) == n
    decreases n - i
  {
    if i < n {
      SkipDigitsOver(line, i + 1, n);
    }
  }

  /** The key group of a line that starts with a key followed by a
      character outside `\w` (`[`, `{` or `:`) is that key. */
  lemma KeyEndAt(line: string, key: string)
    requires IsHeaderKey(key) && |key| < |line| && line[..|key|] == key && !IsWordChar(line[|key|])
    ensures KeyEnd(line) == Some(|key|)
  {
    assert line[0] == key[0];
    if IsIdentStart(key[0]) {
      forall j | 1 <= j < |key| ensures IsWordChar(line[j]) {
        assert key[1..][j - 1] == key[j];
      }
      SkipWordOver(line, 1, |key|);
    } else {
      forall j | 1 <= j < |key| - 1 ensures IsDigit(line[j]) {
        assert key[1..|key| - 1][j - 1] == key[j];
      }
      assert line[|key| - 1] == ']';
      SkipDigitsOver(line, 1, |key| - 1);
    }
  }

  /** The first `}` from i on is at j when none comes before it. */
  lemma {:induction false} CloseBraceOver(line: string, i: nat, j: nat)
    requires i <= j < |line| && line[j] == '}'
    requires forall m :: i <= m < j ==> line[m] != '}'
    ensures CloseBrace(line, i) == Some(j)
    decreases j - i
  {
    if i < j {
      CloseBraceOver(line, i + 1, j);
    }
  }

  /** The optional `[N]` group at k is read exactly: it ends where its
      text ends, and holds its digits. */
  lemma BracketAt(line: string, k: nat, bracket: Option<string>)
    requires bracket.Some? ==> bracket.value != [] && AllDigits(bracket.value)
    requires k + |BracketText(bracket)| < |line| && line[k..k + |BracketText(bracket)|] == BracketText(bracket)
    requires line[k + |BracketText(bracket)|] != '['
    ensures BracketStop(line, k) == k + |BracketText(bracket)| && BracketGroup(line, k) == bracket
  {
    if bracket.Some? {
      var g := bracket.value;
      var e := k + 1 + |g|;
      var t := line[k..e + 1];
      assert t == "[" + g + "]";
      assert t[0] == '[' && t[e - k] == ']';
      assert line[k] == t[0] && line[e] == t[e - k];
      forall j | k + 1 <= j < e ensures IsDigit(line[j]) {
        assert line[j] == t[j - k] == g[j - k - 1];
      }
      SkipDigitsOver(line, k + 1, e);
      assert BracketEnd(line, k) == Some(e + 1);
      forall j | 0 <= j < |g| ensures line[k + 1..e][j] == g[j] {
        assert line[k + 1..e][j] == t[j + 1];
      }
      assert line[k + 1..e] == g;
    }
  }

  /** The optional `{...}` group at b is read exactly: its closing brace
      is the first `}`, and it holds the text between. */
  lemma BraceAt(line: string, b: nat, braces: Option<string>)
    requires braces.Some? ==> '}' !in braces.value
    requires b + |BraceText(braces)| < |line| && line[b..b + |BraceText(braces)|] == BraceText(braces)
    requires line[b + |BraceText(braces)|] != '{'
    ensures BraceClose(line, b) == (if braces.Some? then Some(b + |BraceText(braces)| - 1) else None)
    ensures BraceGroup(line, b) == braces
  {
    if braces.Some? {
      var g := braces.value;
      var c := b + 1 + |g|;
      var t := line[b..c + 1];
      assert t == "{" + g + "}";
      assert t[0] == '{' && t[c - b] == '}';
      assert line[b] == t[0] && line[c] == t[c - b];
      forall j | b + 1 <= j < c ensures line[j] != '}' {
        assert line[j] == t[j - b] == g[j - b - 1];
      }
      CloseBraceOver(line, b + 1, c);
      forall j | 0 <= j < |g| ensures line[b + 1..c][j] == g[j] {
        assert line[b + 1..c][j] == t[j + 1];
      }
      assert line[b + 1..c] == g;
    }
  }

  /** The pieces of a line put together from five parts. */
  lemma Pieces<T>(a: seq<T>, x: seq<T>, y: seq<T>, z: T, t: seq<T>)
    ensures var s := a + x + y + [z] + t; var b := |a| + |x|; var c := b + |y|;
      s[..|a|] == a && s[|a|..b] == x && s[b..c] == y && s[c] == z && s[c + 1..] == t
  {
  }

  /** The header pattern gives back every well-formed match from the text
      it describes: the groups of a header line are determined by the
      line (the converse of `MatchHeaderSound`). */
  lemma MatchHeaderComplete(m: HeaderMatch)
    requires WellFormedMatch(m)
    ensures MatchHeader(HeaderText(m)) == Some(m)
  {
    var line := HeaderText(m);
    var k := |m.key|;
    var b := k + |BracketText(m.bracket)|;
    var c := b + |BraceText(m.braces)|;
    Pieces(m.key, BracketText(m.bracket), BraceText(m.braces), ':', m.tail);
    MatchPieces(line, m, k, b, c);
  }

  /** A line whose pieces are the groups of a well-formed match matches
      with exactly those groups. */
  lemma MatchPieces(line: string, m: HeaderMatch, k: nat, b: nat, c: nat)
    requires WellFormedMatch(m)
    requires k == |m.key| && b == k + |BracketText(m.bracket)| && c == b + |BraceText(m.braces)| && c < |line|
    requires line[..k] == m.key && line[k..b] == BracketText(m.bracket) && line[b..c] == BraceText(m.braces)
    requires line[c] == ':' && line[c + 1..] == m.tail
    ensures MatchHeader(line) == Some(m)
  {
    assert line[b] == (if m.braces.Some? then '{' else ':') by {
      if m.braces.Some? { assert line[b..c][0] == '{'; }
    }
    assert line[k] in "[{:" by {
      if m.bracket.Some? { assert line[k..b][0] == '['; }
    }
    KeyEndAt(line, m.key);
    BracketAt(line, k, m.bracket);
    BraceAt(line, b, m.braces);
    AfterKeyIs(line, k, c, m);
  }

  /** The match after the key, once each group is known. */
  lemma AfterKeyIs(line: string, k: nat, c: nat, m: HeaderMatch)
    requires k <= c < |line| && ColonPos(line, k) == c && line[c] == ':'
    requires line[..k] == m.key && line[c + 1..] == m.tail && '\n' !in m.tail
    requires BracketGroup(line, k) == m.bracket && BraceGroup(line, BracketStop(line, k)) == m.braces
    requires KeyEnd(line) == Some(k)
    ensures MatchHeader(line) == Some(m)
  {
  }

  /** A `key: value` line is never a block header: it has neither `[N]`
      nor braces between the key and the colon. */
  lemma PairNotHeader(key: string, rest: string)
    requires IsHeaderKey(key)
    ensures HeaderOf(key + ":" + rest).None?
  {
    var line := key + ":" + rest;
    assert line[..|key|] == key && line[|key|] == ':';
    KeyEndAt(line, key);
    assert BracketStop(line, |key|) == |key|;
    assert BraceClose(line, |key|).None?;
  }

  /** A `key: value` line, with the key a name or an index, comes back from
      `_parse_lines` as the one-entry dict of the key and the parsed value:
      a scalar element `[i]: v` of a mixed array reads back as `{"[i]": v}`. */
  lemma PairLine(lines: seq<string>, d: char, key: string, rest: string)
    requires lines != [] && Strip(lines[0]) == key + ":" + rest
    requires IsHeaderKey(key) && '\n' !in rest
    ensures LinesResult(lines, d) == Parsed(Map([(key, ParsePrimitiveValue(LStrip(rest)))]), 1)
  {
    PairNotHeader(key, rest);
    LinesPair(lines, d);
    PairParsed(key, rest);
  }

  /** `_parse_key_value` on `key:rest`: the key, and the value text with
      its leading whitespace dropped, parsed. */
  lemma PairParsed(key: string, rest: string)
    requires IsHeaderKey(key) && '\n' !in rest
    ensures ParseKeyValue(key + ":" + rest) == Some((key, ParsePrimitiveValue(LStrip(rest))))
  {
    var line := key + ":" + rest;
    assert line[..|key|] == key && line[|key|] == ':';
    KeyEndAt(line, key);
    assert line[|key| + 1..] == rest;
    LStripNoNewline(rest);
    assert MatchKeyValue(line) == Some((key, LStrip(rest)));
  }

  lemma LStripNoNewline(rest: string)
    requires '\n' !in rest
    ensures '\n' !in LStrip(rest)
  {
    var v := LStrip(rest);
    forall j | 0 <= j < |v| ensures v[j] != '\n' {
      assert v[j] == rest[|rest| - |v| + j];
    }
  }

  // ---------------------------------------------------------------------
  // The header pass

  /** Header lines leave the delimiter as it was or set it to one of the
      four TONL delimiters. */
  lemma {:induction false} SettingsDelimiter(lines: seq<string>, n: nat, initial: HeaderState)
    requires n <= |lines|
    ensures var dl := Settings(lines, n, initial).delimiter;
      dl == initial.delimiter || IsDelimiter(dl)
  {
    if n > 0 {
      var prev := Settings(lines, n - 1, initial);
      SettingsDelimiter(lines, n - 1, initial);
      DirectiveDelimiter(lines[n - 1], prev);
      assert Settings(lines, n, initial) == ApplyDirective(lines[n - 1], prev);
    }
  }

  /** One header line leaves the delimiter as it was or sets one of the
      four. */
  lemma DirectiveDelimiter(line: string, st: HeaderState)
    ensures var dl := ApplyDirective(line, st).delimiter;
      dl == st.delimiter || IsDelimiter(dl)
  {
  }

  /** A text whose every line is blank, `@...` or `#...` decodes to None. */
  lemma DecodeNoData(text: string, initial: HeaderState)
    requires forall j :: 0 <= j < |SplitOn(text, '\n')| ==> IsHeaderLine(SplitOn(text, '\n')[j])
    ensures DecodeResult(text, initial) == Null
  {
    var lines := SplitOn(text, '\n');
    DataStartStops(lines, 0);
    assert DataStart(lines, 0) == |lines|;
  }
}

=== FILE: encoder.dfy ===
/** The TONL encoder of pytonl/encoder.py: a walk over the value that keeps
    an indentation counter and picks, for every list, one of four layouts
    (empty, tabular, primitive, mixed) and, for every dict, a single-line
    or a multi-line form, with keys sorted. */
module Encoder {
  import opened Types
  import opened Text
  import opened Utils

  /** EncodeOptions (pytonl/types.py). The delimiter is one character and
      the indent width is not negative. */
  datatype EncodeOptions = EncodeOptions(
    delimiter: char,
    includeTypes: bool,
    indent: nat,
    version: string,
    singleLineThreshold: int)

  const DefaultOptions: EncodeOptions := EncodeOptions(',', false, 2, "1.0", 80)

  // ---------------------------------------------------------------------
  // What the encoder writes, as functions of the options, the indentation
  // level, the value and its key

  /** `_indent()` at a given level. */
  function Pad(o: EncodeOptions, level: nat): string {
    Spaces(level * o.indent)
  }

  /** `[n]`, the length marker of an array header. */
  function LengthMark(n: nat): string {
    "[" + NatToString(n) + "]"
  }

  /** The two header lines: `#version`, then `#delimiter` unless the
      delimiter is a comma (a tab written as the two characters `\t`). */
  function HeaderLines(o: EncodeOptions): seq<string> {
    ["#version " + o.version]
    + (if o.delimiter == ',' then [] else ["#delimiter " + DelimiterText(o.delimiter)])
  }

  /** How the `#delimiter` line writes a delimiter: a tab as `\t`, any
      other character as itself. */
  function DelimiterText(c: char): string {
    if c == '\t' then "\\t" else [c]
  }

  /** One column of a header: `name:type` with `include_types`, unless the
      inferred type is obj or list. */
  function ColumnText(o: EncodeOptions, entries: seq<(string, Value)>, col: string): string
    requires col in KeysOf(entries)
  {
    var t := InferType(entries[IndexOfKey(entries, col)].1);
    if o.includeTypes && t != ObjType && t != ListType then col + ":" + TypeName(t) else col
  }

  function ColumnDefs(o: EncodeOptions, entries: seq<(string, Value)>, cols: seq<string>): (r: seq<string>)
    requires forall c :: c in cols ==> c in KeysOf(entries)
    ensures |r| == |cols|
  {
    if cols == [] then []
    else ColumnDefs(o, entries, cols[..|cols| - 1]) + [ColumnText(o, entries, cols[|cols| - 1])]
  }

  /** The `{...}` part of a header. */
  function ColumnBraces(o: EncodeOptions, entries: seq<(string, Value)>, cols: seq<string>): string
    requires forall c :: c in cols ==> c in KeysOf(entries)
  {
    "{" + Join(ColumnDefs(o, entries, cols), ",") + "}"
  }

  /** A value that forces the multi-line object form. */
  predicate NeedsOwnLines(v: Value) {
    v.Map? || v.List? || (v.Str? && '\n' in v.s)
  }

  /** `_should_use_multiline`. */
  predicate Multiline(entries: seq<(string, Value)>) {
    exists j :: 0 <= j < |entries| && NeedsOwnLines(entries[j].1)
  }

  /** `_is_uniform_object_array`: a non-empty list of dicts with the key set
      of the first and no dict or list value. */
  predicate Uniform(items: seq<Value>) {
    |items| > 0
    && (forall j :: 0 <= j < |items| ==> items[j].Map?)
    && (forall j :: 0 <= j < |items| ==> KeySet(items[j].entries) == KeySet(items[0].entries))
    && (forall j, m :: 0 <= j < |items| && 0 <= m < |items[j].entries| ==> IsScalar(items[j].entries[m].1))
  }

  predicate AllScalar(items: seq<Value>) {
    forall j :: 0 <= j < |items| ==> IsScalar(items[j])
  }

  function FormatAll(items: seq<Value>, d: char): (r: seq<string>)
    requires AllScalar(items)
    ensures |r| == |items|
  {
    if items == [] then [] else FormatAll(items[..|items| - 1], d) + [FormatScalar(items[|items| - 1], d)]
  }

  /** The fields of one tabular row: the row's value under each column. */
  function RowFields(o: EncodeOptions, entries: seq<(string, Value)>, cols: seq<string>): (r: seq<string>)
    requires forall m :: 0 <= m < |entries| ==> IsScalar(entries[m].1)
    ensures |r| == |cols|
  {
    if cols == [] then []
    else
      var v := Get(entries, cols[|cols| - 1]);
      RowFields(o, entries, cols[..|cols| - 1]) + [if v.Some? then FormatScalar(v.value, o.delimiter) else "null"]
  }

  function RowLines(o: EncodeOptions, level: nat, items: seq<Value>, cols: seq<string>): (r: seq<string>)
    requires forall j :: 0 <= j < |items| ==> items[j].Map?
    requires forall j, m :: 0 <= j < |items| && 0 <= m < |items[j].entries| ==> IsScalar(items[j].entries[m].1)
    ensures |r| == |items|
  {
    if items == [] then []
    else
      var row := RowFields(o, items[|items| - 1].entries, cols);
      RowLines(o, level, items[..|items| - 1], cols) + [Pad(o, level) + "  " + Join(row, FieldSeparator(o.delimiter))]
  }

  /** `_encode_tabular_array`. */
  function TabularLines(o: EncodeOptions, level: nat, items: seq<Value>, key: string): seq<string>
    requires Uniform(items)
  {
    var cols := SortedKeys(items[0].entries);
    [Pad(o, level) + key + LengthMark(|items|) + ColumnBraces(o, items[0].entries, cols) + ":"]
    + RowLines(o, level, items, cols)
  }

  /** `_encode_primitive_array`: one line while the joined values are
      shorter than the threshold, two lines otherwise. */
  function PrimitiveArrayLines(o: EncodeOptions, level: nat, items: seq<Value>, key: string): seq<string>
    requires AllScalar(items)
  {
    var joined := Join(FormatAll(items, o.delimiter), FieldSeparator(o.delimiter));
    if |joined| < o.singleLineThreshold then [Pad(o, level) + key + LengthMark(|items|) + ": " + joined]
    else [Pad(o, level) + key + LengthMark(|items|) + ":", Pad(o, level) + "  " + joined]
  }

  /** `_encode_value`. */
  function ValueLines(o: EncodeOptions, level: nat, v: Value, key: string): seq<string>
    decreases v, 2
  {
    match v
    case List(items) => ArrayLines(o, level, v, key)
    case Map(entries) => ObjectLines(o, level, v, key)
    case _ => [Pad(o, level) + key + ": " + FormatScalar(v, o.delimiter)]
  }

  /** `_encode_array`: empty, tabular, primitive or mixed. */
  function ArrayLines(o: EncodeOptions, level: nat, v: Value, key: string): seq<string>
    requires v.List?
    decreases v, 1
  {
    var items := v.items;
    if items == [] then [Pad(o, level) + key + "[0]:"]
    else if Uniform(items) then TabularLines(o, level, items, key)
    else if AllScalar(items) then PrimitiveArrayLines(o, level, items, key)
    else [Pad(o, level) + key + LengthMark(|items|) + ":"] + MixedLines(o, level + 1, v, |items|)
  }

  /** The first n elements of a mixed array, under the keys `[0]`, `[1]`, ... */
  function MixedLines(o: EncodeOptions, level: nat, parent: Value, n: nat): seq<string>
    requires parent.List? && n <= |parent.items|
    decreases parent, 0, n
  {
    if n == 0 then []
    else MixedLines(o, level, parent, n - 1) + ValueLines(o, level, parent.items[n - 1], LengthMark(n - 1))
  }

  /** `_encode_object`. */
  function ObjectLines(o: EncodeOptions, level: nat, v: Value, key: string): seq<string>
    requires v.Map?
    decreases v, 1
  {
    var keys := SortedKeys(v.entries);
    if keys == [] then [Pad(o, level) + key + "{}:"]
    else
      var header := Pad(o, level) + key + ColumnBraces(o, v.entries, keys) + ":";
      if Multiline(v.entries) then [header] + FieldLines(o, level + 1, v, keys, |keys|)
      else [header + " " + Join(PairTexts(o, v.entries, keys), " ")]
  }

  /** `sorted(obj.keys())`. */
  function SortedKeys(entries: seq<(string, Value)>): (keys: seq<string>)
    ensures SortedStrings(keys) && multiset(keys) == multiset(KeysOf(entries))
    ensures forall k :: k in keys ==> k in KeysOf(entries)
  {
    var keys := SortStrings(KeysOf(entries));
    assert forall k :: k in keys ==> k in KeysOf(entries) by {
      forall k | k in keys ensures k in KeysOf(entries) {
        assert k in multiset(keys);
      }
    }
    keys
  }

  /** The fields of a multi-line object, the first n sorted keys. */
  function FieldLines(o: EncodeOptions, level: nat, parent: Value, keys: seq<string>, n: nat): seq<string>
    requires parent.Map? && n <= |keys|
    requires forall k :: k in keys ==> k in KeysOf(parent.entries)
    decreases parent, 0, n
  {
    if n == 0 then []
    else
      var k := keys[n - 1];
      var j := IndexOfKey(parent.entries, k);
      assert parent.entries[j] in parent.entries;
      FieldLines(o, level, parent, keys, n - 1) + ValueLines(o, level, parent.entries[j].1, k)
  }

  lemma FieldLinesStep(o: EncodeOptions, level: nat, entries: seq<(string, Value)>, keys: seq<string>, i: nat, j: nat, lines: seq<string>)
    requires i < |keys| && forall k :: k in keys ==> k in KeysOf(entries)
    requires keys[i] in KeysOf(entries) && j == IndexOfKey(entries, keys[i])
    requires lines == ValueLines(o, level, entries[j].1, keys[i])
    ensures FieldLines(o, level, Map(entries), keys, i + 1) == FieldLines(o, level, Map(entries), keys, i) + lines
  {
  }

  /** The `k: v` texts of a single-line object. */
  function PairTexts(o: EncodeOptions, entries: seq<(string, Value)>, keys: seq<string>): (r: seq<string>)
    requires !Multiline(entries)
    requires forall k :: k in keys ==> k in KeysOf(entries)
    ensures |r| == |keys|
  {
    if keys == [] then []
    else
      var k := keys[|keys| - 1];
      var v := entries[IndexOfKey(entries, k)].1;
      PairTexts(o, entries, keys[..|keys| - 1]) + [k + ": " + FormatScalar(v, o.delimiter)]
  }

  /** `encode` from a given indentation level, as lines before the final
      `"\n".join`. */
  function DocumentLines(o: EncodeOptions, level: nat, data: Value): seq<string> {
    HeaderLines(o) + ValueLines(o, level, data, "root")
  }

  // ---------------------------------------------------------------------
  // The encoder object

  /** TONLEncoder: the options and the `indent_level` counter that the
      mixed-array and multi-line object encoders raise around their
      children and lower again. */
  class TONLEncoder {
    const options: EncodeOptions
    var indentLevel: nat

    constructor(options: EncodeOptions)
      ensures this.options == options && indentLevel == 0
    {
      this.options := options;
      indentLevel := 0;
    }

    /** `_indent()`: `indent_level * options.indent` spaces. */
    function Indent(): (r: string)
      reads this
      ensures |r| == indentLevel * options.indent && AllSpace(r)
    {
      Pad(options, indentLevel)
    }

    /** `encode`: the header lines, then the data under the key `root`,
        joined by newlines. */
    method Encode(data: Value) returns (text: string)
      modifies this
      ensures indentLevel == old(indentLevel)
      ensures text == Join(DocumentLines(options, old(indentLevel), data), "\n")
    {
      var lines := ["#version " + options.version];
      if options.delimiter != ',' {
        var delimiterRepr := if options.delimiter == '\t' then "\\t" else [options.delimiter];
        lines := lines + ["#delimiter " + delimiterRepr];
      }
      var rootLines := EncodeValue(data, "root");
      lines := lines + rootLines;
      text := Join(lines, "\n");
    }

    /** `_encode_value`. */
    method EncodeValue(value: Value, key: string) returns (lines: seq<string>)
      modifies this
      ensures indentLevel == old(indentLevel)
      ensures lines == ValueLines(options, indentLevel, value, key)
      decreases value, 3
    {
      match value {
        case Null =>
          lines := [Indent() + key + ": null"];
          assert Indent() + key + ": null" == Indent() + key + ": " + FormatScalar(Null, options.delimiter);
        case List(items) =>
          lines := EncodeArray(items, key);
        case Map(entries) =>
          lines := EncodeObject(entries, key);
        case _ =>
          lines := EncodePrimitive(value, key);
      }
    }

    /** `_encode_primitive`: anything that is not a bool, number or string
        is written as `null`. */
    method EncodePrimitive(value: Value, key: string) returns (lines: seq<string>)
      ensures lines == [Indent() + key + ": " + (if IsScalar(value) then FormatScalar(value, options.delimiter) else "null")]
    {
      var indent := Indent();
      var formatted: string;
      match value {
        case Bool(b) =>
          formatted := if b then "true" else "false";
        case Int(i) =>
          formatted := IntToString(i);
        case Float(token) =>
          formatted := token;
        case Str(s) =>
          if NeedsQuoting(s, options.delimiter, false) {
            formatted := QuoteString(s);
          } else {
            formatted := s;
          }
        case _ =>
          formatted := "null";
      }
      lines := [indent + key + ": " + formatted];
    }

    /** `_encode_array`: the dispatch on the list's shape. */
    method EncodeArray(arr: seq<Value>, key: string) returns (lines: seq<string>)
      modifies this
      ensures indentLevel == old(indentLevel)
      ensures lines == ArrayLines(options, indentLevel, List(arr), key)
      decreases List(arr), 2
    {
      if arr == [] {
        lines := [Indent() + key + "[0]:"];
        return;
      }
      var uniform := IsUniformObjectArray(arr);
      if uniform {
        lines := EncodeTabularArray(arr, key);
        return;
      }
      var allPrimitive := true;
      for i := 0 to |arr|
        invariant allPrimitive <==> AllScalar(arr[..i])
      {
        if !IsScalar(arr[i]) {
          allPrimitive := false;
        }
      }
      assert arr[..|arr|] == arr;
      if allPrimitive {
        lines := EncodePrimitiveArray(arr, key);
      } else {
        lines := EncodeMixedArray(arr, key);
      }
    }

    /** `_encode_primitive_array`. */
    method EncodePrimitiveArray(arr: seq<Value>, key: string) returns (lines: seq<string>)
      requires AllScalar(arr)
      ensures lines == PrimitiveArrayLines(options, indentLevel, arr, key)
    {
      var indent := Indent();
      var formattedValues := [];
      for i := 0 to |arr|
        invariant formattedValues == FormatAll(arr[..i], options.delimiter)
      {
        assert arr[..i + 1][..i] == arr[..i];
        formattedValues := formattedValues + [FormatScalar(arr[i], options.delimiter)];
      }
      assert arr[..|arr|] == arr;
      var delimiterSep := FieldSeparator(options.delimiter);
      var joined := Join(formattedValues, delimiterSep);
      if |joined| < options.singleLineThreshold {
        lines := [indent + key + LengthMark(|arr|) + ": " + joined];
      } else {
        lines := [indent + key + LengthMark(|arr|) + ":", indent + "  " + joined];
      }
    }

    /** The column definitions of a header, `name` or `name:type`. */
    method BuildColumnDefs(entries: seq<(string, Value)>, columns: seq<string>) returns (colDefs: seq<string>)
      requires forall c :: c in columns ==> c in KeysOf(entries)
      ensures colDefs == ColumnDefs(options, entries, columns)
    {
      colDefs := [];
      for i := 0 to |columns|
        invariant colDefs == ColumnDefs(options, entries, columns[..i])
      {
        assert columns[..i + 1][..i] == columns[..i];
        var col := columns[i];
        if options.includeTypes {
          var typeHint := InferType(entries[IndexOfKey(entries, col)].1);
          if typeHint != ObjType && typeHint != ListType {
            colDefs := colDefs + [col + ":" + TypeName(typeHint)];
          } else {
            colDefs := colDefs + [col];
          }
        } else {
          colDefs := colDefs + [col];
        }
      }
      assert columns[..|columns|] == columns;
    }

    /** `_encode_tabular_array`: the header with the sorted columns of the
        first row, then one line per row, two spaces deeper. */
    method EncodeTabularArray(arr: seq<Value>, key: string) returns (lines: seq<string>)
      requires Uniform(arr)
      ensures lines == TabularLines(options, indentLevel, arr, key)
    {
      var indent := Indent();
      var columns := SortedKeys(arr[0].entries);
      var colDefs := BuildColumnDefs(arr[0].entries, columns);
      var braces := "{" + Join(colDefs, ",") + "}";
      var header := indent + key + LengthMark(|arr|) + braces + ":";
      var rows := TabularRows(arr, columns);
      lines := [header] + rows;
    }

    /** The row lines of a tabular array, two spaces deeper than its
        header. */
    method TabularRows(arr: seq<Value>, columns: seq<string>) returns (rows: seq<string>)
      requires forall j :: 0 <= j < |arr| ==> arr[j].Map?
      requires forall j, m :: 0 <= j < |arr| && 0 <= m < |arr[j].entries| ==> IsScalar(arr[j].entries[m].1)
      ensures rows == RowLines(options, indentLevel, arr, columns)
    {
      var indent := Indent();
      rows := [];
      for i := 0 to |arr|
        invariant rows == RowLines(options, indentLevel, arr[..i], columns)
      {
        assert arr[..i + 1][..i] == arr[..i];
        var rowValues := FormatRow(arr[i].entries, columns);
        var delimiterSep := FieldSeparator(options.delimiter);
        rows := rows + [indent + "  " + Join(rowValues, delimiterSep)];
      }
      assert arr[..|arr|] == arr;
    }

    /** The fields of one tabular row, `item.get(col)` for each column. */
    method FormatRow(item: seq<(string, Value)>, columns: seq<string>) returns (rowValues: seq<string>)
      requires forall m :: 0 <= m < |item| ==> IsScalar(item[m].1)
      ensures rowValues == RowFields(options, item, columns)
    {
      rowValues := [];
      for c := 0 to |columns|
        invariant rowValues == RowFields(options, item, columns[..c])
      {
        assert columns[..c + 1][..c] == columns[..c];
        var val := Get(item, columns[c]);
        if val.Some? {
          rowValues := rowValues + [FormatScalar(val.value, options.delimiter)];
        } else {
          rowValues := rowValues + ["null"];
        }
      }
      assert columns[..|columns|] == columns;
    }

    /** `_encode_mixed_array`: the header, then every element under the key
        `[i]`, one level deeper. */
    method EncodeMixedArray(arr: seq<Value>, key: string) returns (lines: seq<string>)
      modifies this
      ensures indentLevel == old(indentLevel)
      ensures lines == [Pad(options, indentLevel) + key + LengthMark(|arr|) + ":"]
        + MixedLines(options, indentLevel + 1, List(arr), |arr|)
      decreases List(arr), 1
    {
      var indent := Indent();
      var header := indent + key + LengthMark(|arr|) + ":";
      indentLevel := indentLevel + 1;
      var children := [];
      for i := 0 to |arr|
        invariant indentLevel == old(indentLevel) + 1
        invariant children == MixedLines(options, indentLevel, List(arr), i)
      {
        var itemLines := EncodeValue(arr[i], LengthMark(i));
        children := children + itemLines;
      }
      indentLevel := indentLevel - 1;
      lines := [header] + children;
    }

    /** `_encode_object`: `key{}:` for an empty dict; otherwise the header
        with the sorted keys, then the fields one level deeper or the
        `k: v` pairs on the header line. */
    method EncodeObject(entries: seq<(string, Value)>, key: string) returns (lines: seq<string>)
      modifies this
      ensures indentLevel == old(indentLevel)
      ensures lines == ObjectLines(options, indentLevel, Map(entries), key)
      decreases Map(entries), 2
    {
      var indent := Indent();
      var keys := SortedKeys(entries);
      if keys == [] {
        lines := [indent + key + "{}:"];
        return;
      }
      var colDefs := BuildColumnDefs(entries, keys);
      var braces := "{" + Join(colDefs, ",") + "}";
      var header := indent + key + braces + ":";
      var multiline := ShouldUseMultiline(entries);
      if multiline {
        indentLevel := indentLevel + 1;
        var fields := EncodeFields(entries, keys);
        indentLevel := indentLevel - 1;
        lines := [header] + fields;
      } else {
        var pairs := FormatPairs(entries, keys);
        lines := [header + " " + Join(pairs, " ")];
      }
    }

    /** The fields of a multi-line object, in the order of the sorted
        keys, at the current level. */
    method EncodeFields(entries: seq<(string, Value)>, keys: seq<string>) returns (fields: seq<string>)
      requires forall k :: k in keys ==> k in KeysOf(entries)
      modifies this
      ensures indentLevel == old(indentLevel)
      ensures fields == FieldLines(options, indentLevel, Map(entries), keys, |keys|)
      decreases Map(entries), 1
    {
      fields := [];
      for i := 0 to |keys|
        invariant indentLevel == old(indentLevel)
        invariant fields == FieldLines(options, indentLevel, Map(entries), keys, i)
      {
        assert keys[i] in KeysOf(entries);
        var j := IndexOfKey(entries, keys[i]);
        assert entries[j] in entries;
        var valueLines := EncodeValue(entries[j].1, keys[i]);
        FieldLinesStep(options, indentLevel, entries, keys, i, j, valueLines);
        fields := fields + valueLines;
      }
    }

    /** The `k: v` pairs of a single-line object. */
    method FormatPairs(entries: seq<(string, Value)>, keys: seq<string>) returns (pairs: seq<string>)
      requires !Multiline(entries)
      requires forall k :: k in keys ==> k in KeysOf(entries)
      ensures pairs == PairTexts(options, entries, keys)
    {
      pairs := [];
      for i := 0 to |keys|
        invariant pairs == PairTexts(options, entries, keys[..i])
      {
        assert keys[..i + 1][..i] == keys[..i];
        var val := entries[IndexOfKey(entries, keys[i])].1;
        pairs := pairs + [keys[i] + ": " + FormatScalar(val, options.delimiter)];
      }
      assert keys[..|keys|] == keys;
    }

    /** `_should_use_multiline`. */
    method ShouldUseMultiline(entries: seq<(string, Value)>) returns (b: bool)
      ensures b <==> Multiline(entries)
    {
      for j := 0 to |entries|
        invariant forall m :: 0 <= m < j ==> !NeedsOwnLines(entries[m].1)
      {
        var value := entries[j].1;
        if value.Map? || value.List? {
          return true;
        }
        if value.Str? && '\n' in value.s {
          return true;
        }
      }
      return false;
    }

    /** `_is_uniform_object_array`. */
    method IsUniformObjectArray(arr: seq<Value>) returns (b: bool)
      ensures b <==> Uniform(arr)
    {
      if arr == [] {
        return false;
      }
      for j := 0 to |arr|
        invariant forall m :: 0 <= m < j ==> arr[m].Map?
      {
        if !arr[j].Map? {
          return false;
        }
      }
      var firstKeys := KeySet(arr[0].entries);
      for j := 0 to |arr|
        invariant forall m :: 0 <= m < j ==> KeySet(arr[m].entries) == firstKeys
      {
        if KeySet(arr[j].entries) != firstKeys {
          return false;
        }
      }
      for j := 0 to |arr|
        invariant forall m, n :: 0 <= m < j && 0 <= n < |arr[m].entries| ==> IsScalar(arr[m].entries[n].1)
      {
        var item := arr[j].entries;
        for n := 0 to |item|
          invariant forall p :: 0 <= p < n ==> IsScalar(item[p].1)
        {
          if item[n].1.Map? || item[n].1.List? {
            return false;
          }
        }
      }
      return true;
    }
  }
}

=== FILE: encoder_props.dfy ===
/** What the layouts of pytonl/encoder.py promise: line counts, the text a
    row or a primitive array holds and what the splitter and
    `parse_primitive_value` read back from it, the quoting of strings, the
    single-line or multi-line choice for objects, and the indentation of
    nested lines. */
module EncoderProperties {
  import opened Types
  import opened Text
  import opened Utils
  import opened Encoder

  // ---------------------------------------------------------------------
  // Scalars written bare

  /** A scalar the encoder writes as a bare token: not a float, and a
      string that `needs_quoting` lets through. */
  predicate PlainScalar(v: Value, d: char) {
    IsScalar(v) && !v.Float? && (v.Str? ==> !NeedsQuoting(v.s, d, false))
  }

  lemma IntField(i: int, d: char)
    requires IsDelimiter(d)
    ensures IntToString(i) != [] && IsSimpleField(IntToString(i), d)
  {
    var s := IntToString(i);
    IntLiteralChars(i);
    assert forall j :: 0 <= j < |s| ==> s[j] != d && s[j] != '"' && s[j] != '\\';
  }

  /** `null`, `true` and `false` are fields the splitter keeps whole. */
  lemma WordField(s: string, d: char)
    requires IsDelimiter(d) && s != []
    requires forall j :: 0 <= j < |s| ==> IsAlpha(s[j])
    ensures IsSimpleField(s, d)
  {
  }

  lemma StrField(s: string, d: char)
    requires !NeedsQuoting(s, d, false)
    ensures FormatScalar(Str(s), d) == s && s != [] && IsSimpleField(s, d)
  {
    PlainStringFacts(s, d, false);
  }

  /** A bare token is a field the splitter keeps whole, and it parses back
      to the scalar. */
  lemma PlainScalarField(v: Value, d: char)
    requires IsDelimiter(d) && PlainScalar(v, d)
    ensures FormatScalar(v, d) != [] && IsSimpleField(FormatScalar(v, d), d)
    ensures ParsePrimitiveValue(FormatScalar(v, d)) == v
  {
    match v
    case Null => WordField("null", d); NullReadsBack();
    case Bool(b) =>
      if b { WordField("true", d); TrueReadsBack(); } else { WordField("false", d); FalseReadsBack(); }
    case Int(i) => IntField(i, d); IntReadsBack(i);
    case Str(s) => StrField(s, d); PlainStringReadsBack(s, d, false);
  }

  /** A string is written as itself exactly when `needs_quoting` (called
      without the tabular flag, so also in rows) says it need not be
      quoted; a string with a colon is therefore always quoted. */
  lemma StringWrittenRawIff(s: string, d: char)
    ensures FormatScalar(Str(s), d) == s <==> !NeedsQuoting(s, d, false)
    ensures ':' in s ==> FormatScalar(Str(s), d) == QuoteString(s)
  {
    if NeedsQuoting(s, d, false) {
      var x := Replace(s, "\\", "\\\\");
      ReplaceNotShorter(s, "\\", "\\\\");
      QuoteStringForms(s);
      if '\n' in s || ContainsSub(s, Quote3) {
        ReplaceNotShorter(x, Quote3, EscapedQuote3);
      } else {
        ReplaceNotShorter(x, "\"", "\"\"");
      }
      assert |QuoteString(s)| > |s|;
    }
  }

  lemma {:induction false} FormatAllAt(items: seq<Value>, d: char, j: nat)
    requires AllScalar(items) && j < |items|
    ensures FormatAll(items, d)[j] == FormatScalar(items[j], d)
  {
    if j < |items| - 1 {
      FormatAllAt(items[..|items| - 1], d, j);
    }
  }

  /** Bare tokens joined as the encoder joins them: the text is stripped,
      splits back into the tokens, and every token parses back to its
      value. */
  lemma PlainFieldsReadBack(items: seq<Value>, d: char)
    requires IsDelimiter(d) && items != []
    requires forall j :: 0 <= j < |items| ==> PlainScalar(items[j], d)
    ensures AllScalar(items)
    ensures var fs := FormatAll(items, d); var joined := Join(fs, FieldSeparator(d));
      joined != [] && IsStripped(joined) && SplitFields(joined, d) == fs &&
      forall j :: 0 <= j < |items| ==> ParsePrimitiveValue(fs[j]) == items[j]
  {
    var fs := FormatAll(items, d);
    forall j | 0 <= j < |items|
      ensures fs[j] != [] && IsSimpleField(fs[j], d) && ParsePrimitiveValue(fs[j]) == items[j]
    {
      FormatAllAt(items, d, j);
      PlainScalarField(items[j], d);
    }
    JoinStripped(fs, FieldSeparator(d));
    SplitJoinRoundTrip(fs, d);
  }

  // ---------------------------------------------------------------------
  // Primitive arrays

  function Last(lines: seq<string>): string
    requires lines != []
  {
    lines[|lines| - 1]
  }

  /** `_encode_primitive_array`: one line exactly when the joined values
      are shorter than the threshold, exactly two otherwise; the last line
      starts with the current indentation and ends with the joined values
      (which `PlainFieldsReadBack` reads back). */
  lemma PrimitiveLayout(o: EncodeOptions, level: nat, items: seq<Value>, key: string)
    requires AllScalar(items)
    ensures 1 <= |PrimitiveArrayLines(o, level, items, key)| <= 2
    ensures |PrimitiveArrayLines(o, level, items, key)| == 1 <==>
      |Join(FormatAll(items, o.delimiter), FieldSeparator(o.delimiter))| < o.singleLineThreshold
    ensures EndsWith(Last(PrimitiveArrayLines(o, level, items, key)),
                     Join(FormatAll(items, o.delimiter), FieldSeparator(o.delimiter)))
    ensures StartsWith(Last(PrimitiveArrayLines(o, level, items, key)), Pad(o, level))
  {
  }

  // ---------------------------------------------------------------------
  // Tabular arrays

  lemma {:induction false} RowFieldsAt(o: EncodeOptions, entries: seq<(string, Value)>, cols: seq<string>, j: nat)
    requires forall m :: 0 <= m < |entries| ==> IsScalar(entries[m].1)
    requires j < |cols|
    ensures var v := Get(entries, cols[j]);
      RowFields(o, entries, cols)[j] == if v.Some? then FormatScalar(v.value, o.delimiter) else "null"
  {
    if j < |cols| - 1 {
      RowFieldsAt(o, entries, cols[..|cols| - 1], j);
    }
  }

  lemma {:induction false} RowLinesAt(o: EncodeOptions, level: nat, items: seq<Value>, cols: seq<string>, i: nat)
    requires forall j :: 0 <= j < |items| ==> items[j].Map?
    requires forall j, m :: 0 <= j < |items| && 0 <= m < |items[j].entries| ==> IsScalar(items[j].entries[m].1)
    requires i < |items|
    ensures RowLines(o, level, items, cols)[i] ==
      Pad(o, level) + "  " + Join(RowFields(o, items[i].entries, cols), FieldSeparator(o.delimiter))
  {
    if i < |items| - 1 {
      RowLinesAt(o, level, items[..|items| - 1], cols, i);
    }
  }

  /** One row of a dict whose values are all written bare: the row text is
      stripped, splits into one field per column, and field j parses back
      to the dict's value under column j. */
  lemma RowReadBack(o: EncodeOptions, entries: seq<(string, Value)>, cols: seq<string>)
    requires IsDelimiter(o.delimiter) && cols != []
    requires forall c :: c in cols ==> c in KeysOf(entries)
    requires forall m :: 0 <= m < |entries| ==> PlainScalar(entries[m].1, o.delimiter)
    ensures forall m :: 0 <= m < |entries| ==> IsScalar(entries[m].1)
    ensures var fs := RowFields(o, entries, cols); var joined := Join(fs, FieldSeparator(o.delimiter));
      IsStripped(joined) && SplitFields(joined, o.delimiter) == fs &&
      forall j :: 0 <= j < |cols| ==> Get(entries, cols[j]) == Some(ParsePrimitiveValue(fs[j]))
  {
    var d := o.delimiter;
    var fs := RowFields(o, entries, cols);
    forall j | 0 <= j < |cols|
      ensures fs[j] != [] && IsSimpleField(fs[j], d) && Get(entries, cols[j]) == Some(ParsePrimitiveValue(fs[j]))
    {
      RowFieldsAt(o, entries, cols, j);
      var v := Get(entries, cols[j]);
      var m :| 0 <= m < |entries| && entries[m] == (cols[j], v.value);
      PlainScalarField(v.value, d);
    }
    JoinStripped(fs, FieldSeparator(d));
    SplitJoinRoundTrip(fs, d);
  }

  /** A row line that reads back as a dict: stripped and split, it has one
      field per column, and field j parses to the dict's value under
      column j. */
  predicate RowReadsBackAs(line: string, d: char, entries: seq<(string, Value)>, cols: seq<string>) {
    var fields := SplitFields(Strip(line), d);
    |fields| == |cols| &&
    forall j :: 0 <= j < |cols| ==> Get(entries, cols[j]) == Some(ParsePrimitiveValue(fields[j]))
  }

  /** Stripping a row line leaves the row text. */
  lemma StripRowLine(o: EncodeOptions, level: nat, joined: string)
    requires IsStripped(joined)
    ensures var line := Pad(o, level) + "  " + joined;
      StartsWith(line, Pad(o, level) + "  ") && Strip(line) == joined
  {
    var pad := Pad(o, level) + "  ";
    AllSpaceAppend(Pad(o, level), "  ");
    StripPadded(pad, joined, []);
    assert pad + joined + [] == pad + joined;
  }

  /** Every column is a key of the dict. */
  predicate HasColumns(e: seq<(string, Value)>, cols: seq<string>) {
    forall c :: c in cols ==> c in KeysOf(e)
  }

  /** Row i of a table reads back as element i. */
  lemma TableRowReadBack(o: EncodeOptions, level: nat, items: seq<Value>, cols: seq<string>, i: nat)
    requires IsDelimiter(o.delimiter) && cols != [] && i < |items|
    requires forall j :: 0 <= j < |items| ==> items[j].Map?
    requires forall j, m :: 0 <= j < |items| && 0 <= m < |items[j].entries| ==> IsScalar(items[j].entries[m].1)
    requires HasColumns(items[i].entries, cols)
    requires forall m :: 0 <= m < |items[i].entries| ==> PlainScalar(items[i].entries[m].1, o.delimiter)
    ensures StartsWith(RowLines(o, level, items, cols)[i], Pad(o, level) + "  ")
    ensures RowReadsBackAs(RowLines(o, level, items, cols)[i], o.delimiter, items[i].entries, cols)
  {
    var e := items[i].entries;
    RowLinesAt(o, level, items, cols, i);
    RowReadBack(o, e, cols);
    StripRowLine(o, level, Join(RowFields(o, e, cols), FieldSeparator(o.delimiter)));
  }

  lemma TabularLinesAt(o: EncodeOptions, level: nat, items: seq<Value>, key: string, i: nat)
    requires Uniform(items) && i < |items|
    ensures |TabularLines(o, level, items, key)| == |items| + 1
    ensures TabularLines(o, level, items, key)[i + 1] == RowLines(o, level, items, SortedKeys(items[0].entries))[i]
  {
    var cols := SortedKeys(items[0].entries);
    var header := Pad(o, level) + key + LengthMark(|items|) + ColumnBraces(o, items[0].entries, cols) + ":";
    assert TabularLines(o, level, items, key) == [header] + RowLines(o, level, items, cols);
    ConsAt(header, RowLines(o, level, items, cols), i);
  }

  /** In a uniform list every element has the sorted keys of the first. */
  lemma ColumnsInRow(items: seq<Value>, i: nat)
    requires Uniform(items) && i < |items|
    ensures HasColumns(items[i].entries, SortedKeys(items[0].entries))
  {
    forall c | c in SortedKeys(items[0].entries) ensures c in KeysOf(items[i].entries) {
      assert c in KeySet(items[0].entries);
    }
  }

  /** `_encode_tabular_array`: a header and exactly one row per element,
      one column per key of the first element. */
  lemma TabularLineCount(o: EncodeOptions, level: nat, items: seq<Value>, key: string)
    requires Uniform(items)
    ensures |TabularLines(o, level, items, key)| == |items| + 1
    ensures |SortedKeys(items[0].entries)| == |items[0].entries|
  {
    TabularLinesAt(o, level, items, key, 0);
    var cols := SortedKeys(items[0].entries);
    assert |multiset(cols)| == |multiset(KeysOf(items[0].entries))|;
  }

  /** Row i of `_encode_tabular_array`: indented by the current
      indentation plus exactly two spaces, and, when every value of the
      list is written bare, reading it back as the decoder does (strip,
      split) gives one field per sorted column, field j parsing back to
      element i's value under column j. */
  lemma TabularRowReadsBack(o: EncodeOptions, level: nat, items: seq<Value>, key: string, i: nat)
    requires IsDelimiter(o.delimiter) && Uniform(items) && items[0].entries != [] && i < |items|
    requires forall j, m :: 0 <= j < |items| && 0 <= m < |items[j].entries| ==>
      PlainScalar(items[j].entries[m].1, o.delimiter)
    ensures StartsWith(TabularLines(o, level, items, key)[i + 1], Pad(o, level) + "  ")
    ensures RowReadsBackAs(TabularLines(o, level, items, key)[i + 1], o.delimiter,
                           items[i].entries, SortedKeys(items[0].entries))
  {
    TabularLineCount(o, level, items, key);
    ColumnsInRow(items, i);
    TabularLinesAt(o, level, items, key, i);
    TableRowReadBack(o, level, items, SortedKeys(items[0].entries), i);
  }

  // ---------------------------------------------------------------------
  // Objects

  lemma SortedKeysEmpty(entries: seq<(string, Value)>)
    ensures SortedKeys(entries) == [] <==> entries == []
  {
    var keys := SortedKeys(entries);
    assert |multiset(keys)| == |multiset(KeysOf(entries))|;
  }

  lemma ValueLinesNonEmpty(o: EncodeOptions, level: nat, v: Value, key: string)
    ensures |ValueLines(o, level, v, key)| >= 1
  {
  }

  lemma FieldLinesNonEmpty(o: EncodeOptions, level: nat, parent: Value, keys: seq<string>, n: nat)
    requires parent.Map? && 0 < n <= |keys|
    requires forall k :: k in keys ==> k in KeysOf(parent.entries)
    ensures |FieldLines(o, level, parent, keys, n)| >= 1
  {
    var j := IndexOfKey(parent.entries, keys[n - 1]);
    ValueLinesNonEmpty(o, level, parent.entries[j].1, keys[n - 1]);
  }

  /** `_encode_object`: an empty dict gives the single line `key{}:`; any
      other dict takes more than one line exactly when one of its values
      is a dict, a list or a string with a newline. */
  lemma ObjectLayout(o: EncodeOptions, level: nat, entries: seq<(string, Value)>, key: string)
    ensures var r := ObjectLines(o, level, Map(entries), key);
      (entries == [] ==> r == [Pad(o, level) + key + "{}:"]) &&
      (entries != [] ==> (|r| > 1 <==> Multiline(entries)))
  {
    SortedKeysEmpty(entries);
    var keys := SortedKeys(entries);
    if keys != [] && Multiline(entries) {
      FieldLinesNonEmpty(o, level + 1, Map(entries), keys, |keys|);
    }
  }

  /** Without type hints the header of a dict or a table lists exactly the
      columns, in the given (sorted) order. */
  lemma ColumnDefsWithoutTypes(o: EncodeOptions, entries: seq<(string, Value)>, cols: seq<string>)
    requires !o.includeTypes
    requires forall c :: c in cols ==> c in KeysOf(entries)
    ensures ColumnDefs(o, entries, cols) == cols
  {
    forall j | 0 <= j < |cols| ensures ColumnDefs(o, entries, cols)[j] == cols[j] {
      ColumnDefsWithTypes(o, entries, cols, j);
    }
  }

  /** With type hints, column j is written `name:type` with the type
      inferred from the value, unless that type is obj or list. */
  lemma {:induction false} ColumnDefsWithTypes(o: EncodeOptions, entries: seq<(string, Value)>, cols: seq<string>, j: nat)
    requires forall c :: c in cols ==> c in KeysOf(entries)
    requires j < |cols|
    ensures var t := InferType(Get(entries, cols[j]).value);
      ColumnDefs(o, entries, cols)[j] ==
        if o.includeTypes && t != ObjType && t != ListType then cols[j] + ":" + TypeName(t) else cols[j]
  {
    if j < |cols| - 1 {
      ColumnDefsWithTypes(o, entries, cols[..|cols| - 1], j);
    }
  }

  // ---------------------------------------------------------------------
  // Indentation

  /** Every line starts with p. */
  predicate Indented(lines: seq<string>, p: string) {
    forall m :: 0 <= m < |lines| ==> StartsWith(lines[m], p)
  }

  lemma IndentedConcat(a: seq<string>, b: seq<string>, p: string)
    requires Indented(a, p) && Indented(b, p)
    ensures Indented(a + b, p)
  {
    forall m | 0 <= m < |a + b| ensures StartsWith((a + b)[m], p) {
      if m >= |a| {
        assert (a + b)[m] == b[m - |a|];
      }
    }
  }

  lemma StartsWithConcat(x: string, y: string)
    ensures StartsWith(x + y, x)
  {
    assert (x + y)[..|x|] == x;
  }

  lemma StartsWithShorter(s: string, p: string, q: string)
    requires StartsWith(s, p + q)
    ensures StartsWith(s, p)
  {
    assert s[..|p|] == (p + q)[..|p|];
    assert (p + q)[..|p|] == p;
  }

  /** One level deeper starts with the current indentation and a space. */
  lemma PadDeeper(o: EncodeOptions, level: nat)
    requires o.indent >= 1
    ensures StartsWith(Pad(o, level + 1), Pad(o, level) + " ")
  {
    var a, b := Pad(o, level + 1), Pad(o, level) + " ";
    assert (level + 1) * o.indent == level * o.indent + o.indent;
    assert |b| <= |a|;
    assert forall j :: 0 <= j < |b| ==> a[j] == ' ' && b[j] == ' ';
    assert a[..|b|] == b;
  }

  /** A line that starts with p + " " followed by anything. */
  lemma StartsWithPadSpace(pad: string, rest: string)
    requires rest != [] && rest[0] == ' '
    ensures StartsWith(pad + rest, pad + " ")
  {
    assert (pad + rest)[..|pad| + 1] == pad + " ";
  }

  /** A child's lines, one level deeper, all start with the current
      indentation and a space. */
  lemma ChildIndented(o: EncodeOptions, level: nat, v: Value, key: string)
    requires o.indent >= 1
    ensures Indented(ValueLines(o, level + 1, v, key), Pad(o, level) + " ")
    decreases v, 4
  {
    var r := ValueLines(o, level + 1, v, key);
    var p := Pad(o, level) + " ";
    ValueLinesIndented(o, level + 1, v, key);
    PadDeeper(o, level);
    forall m | 0 <= m < |r| ensures StartsWith(r[m], p) {
      if m == 0 {
        StartsWithShorter(r[0], Pad(o, level + 1), key);
      } else {
        assert r[1..][m - 1] == r[m];
        StartsWithShorter(r[m], Pad(o, level + 1), " ");
      }
      assert StartsWith(r[m], Pad(o, level + 1));
    }
  }

  /** `_encode_value` with `indent_level` raised around every child: the
      first line is the current indentation and the key, and every later
      line (a row, the second line of a long primitive array, a child of a
      mixed array or of a multi-line object) is indented further, provided
      the indent width is at least one. */
  lemma {:induction false} ValueLinesIndented(o: EncodeOptions, level: nat, v: Value, key: string)
    requires o.indent >= 1
    ensures |ValueLines(o, level, v, key)| >= 1
    ensures StartsWith(ValueLines(o, level, v, key)[0], Pad(o, level) + key)
    ensures Indented(ValueLines(o, level, v, key)[1..], Pad(o, level) + " ")
    decreases v, 3
  {
    if v.List? {
      assert ValueLines(o, level, v, key) == ArrayLines(o, level, v, key);
      ArrayLinesIndented(o, level, v, key);
    } else if v.Map? {
      assert ValueLines(o, level, v, key) == ObjectLines(o, level, v, key);
      ObjectLinesIndented(o, level, v, key);
    } else {
      ScalarLineIndented(o, level, v, key);
    }
  }

  lemma ScalarLineIndented(o: EncodeOptions, level: nat, v: Value, key: string)
    requires IsScalar(v)
    ensures |ValueLines(o, level, v, key)| == 1
    ensures StartsWith(ValueLines(o, level, v, key)[0], Pad(o, level) + key)
  {
    var p := Pad(o, level) + key;
    var line := p + ": " + FormatScalar(v, o.delimiter);
    assert ValueLines(o, level, v, key) == [line];
    StartsWithConcat(p + ": ", FormatScalar(v, o.delimiter));
    StartsWithShorter(line, p, ": ");
  }

  lemma TabularIndented(o: EncodeOptions, level: nat, items: seq<Value>, key: string)
    requires o.indent >= 1 && Uniform(items)
    ensures |TabularLines(o, level, items, key)| >= 1
    ensures StartsWith(TabularLines(o, level, items, key)[0], Pad(o, level) + key)
    ensures Indented(TabularLines(o, level, items, key)[1..], Pad(o, level) + " ")
  {
    var r := TabularLines(o, level, items, key);
    var cols := SortedKeys(items[0].entries);
    StartsWithConcat(Pad(o, level) + key, LengthMark(|items|) + ColumnBraces(o, items[0].entries, cols) + ":");
    TabularLineCount(o, level, items, key);
    forall m | 0 <= m < |r[1..]| ensures StartsWith(r[1..][m], Pad(o, level) + " ") {
      TabularLinesAt(o, level, items, key, m);
      RowLinesAt(o, level, items, cols, m);
      StartsWithPadSpace(Pad(o, level), "  " + Join(RowFields(o, items[m].entries, cols), FieldSeparator(o.delimiter)));
    }
  }

  lemma PrimitiveIndented(o: EncodeOptions, level: nat, items: seq<Value>, key: string)
    requires o.indent >= 1 && AllScalar(items)
    ensures |PrimitiveArrayLines(o, level, items, key)| >= 1
    ensures StartsWith(PrimitiveArrayLines(o, level, items, key)[0], Pad(o, level) + key)
    ensures Indented(PrimitiveArrayLines(o, level, items, key)[1..], Pad(o, level) + " ")
  {
    var pk := Pad(o, level) + key;
    var joined := Join(FormatAll(items, o.delimiter), FieldSeparator(o.delimiter));
    if |joined| < o.singleLineThreshold {
      StartsWithConcat(pk, LengthMark(|items|) + ": " + joined);
    } else {
      StartsWithConcat(pk, LengthMark(|items|) + ":");
      StartsWithPadSpace(Pad(o, level), "  " + joined);
    }
  }

  lemma {:induction false} ArrayLinesIndented(o: EncodeOptions, level: nat, v: Value, key: string)
    requires o.indent >= 1 && v.List?
    ensures |ArrayLines(o, level, v, key)| >= 1
    ensures StartsWith(ArrayLines(o, level, v, key)[0], Pad(o, level) + key)
    ensures Indented(ArrayLines(o, level, v, key)[1..], Pad(o, level) + " ")
    decreases v, 2
  {
    var items := v.items;
    if items == [] {
      StartsWithConcat(Pad(o, level) + key, "[0]:");
    } else if Uniform(items) {
      TabularIndented(o, level, items, key);
    } else if AllScalar(items) {
      PrimitiveIndented(o, level, items, key);
    } else {
      var head := Pad(o, level) + key + LengthMark(|items|) + ":";
      StartsWithConcat(Pad(o, level) + key, LengthMark(|items|) + ":");
      MixedIndented(o, level, v, |items|);
      assert ([head] + MixedLines(o, level + 1, v, |items|))[1..] == MixedLines(o, level + 1, v, |items|);
    }
  }

  lemma {:induction false} MixedIndented(o: EncodeOptions, level: nat, parent: Value, n: nat)
    requires o.indent >= 1 && parent.List? && n <= |parent.items|
    ensures Indented(MixedLines(o, level + 1, parent, n), Pad(o, level) + " ")
    decreases parent, 1, n
  {
    if n > 0 {
      MixedIndented(o, level, parent, n - 1);
      assert parent.items[n - 1] in parent.items;
      ChildIndented(o, level, parent.items[n - 1], LengthMark(n - 1));
      IndentedConcat(MixedLines(o, level + 1, parent, n - 1),
                     ValueLines(o, level + 1, parent.items[n - 1], LengthMark(n - 1)), Pad(o, level) + " ");
    }
  }

  lemma {:induction false} ObjectLinesIndented(o: EncodeOptions, level: nat, v: Value, key: string)
    requires o.indent >= 1 && v.Map?
    ensures |ObjectLines(o, level, v, key)| >= 1
    ensures StartsWith(ObjectLines(o, level, v, key)[0], Pad(o, level) + key)
    ensures Indented(ObjectLines(o, level, v, key)[1..], Pad(o, level) + " ")
    decreases v, 2
  {
    var keys := SortedKeys(v.entries);
    var pk := Pad(o, level) + key;
    var lines := ObjectLines(o, level, v, key);
    if keys == [] {
      assert lines == [pk + "{}:"];
      StartsWithConcat(pk, "{}:");
    } else {
      var braces := ColumnBraces(o, v.entries, keys);
      var head := pk + braces + ":";
      if Multiline(v.entries) {
        var fields := FieldLines(o, level + 1, v, keys, |keys|);
        assert lines == [head] + fields;
        StartsWithConcat(pk, braces + ":");
        FieldsIndented(o, level, v, keys, |keys|);
        TailOfCons(head, fields);
      } else {
        var pairs := Join(PairTexts(o, v.entries, keys), " ");
        assert lines == [head + " " + pairs];
        StartsWithConcat(pk, braces + ":" + " " + pairs);
      }
    }
  }

  lemma TailOfCons<T>(h: T, s: seq<T>)
    ensures ([h] + s)[1..] == s
  {
  }

  lemma {:induction false} FieldsIndented(o: EncodeOptions, level: nat, parent: Value, keys: seq<string>, n: nat)
    requires o.indent >= 1 && parent.Map? && n <= |keys|
    requires forall k :: k in keys ==> k in KeysOf(parent.entries)
    ensures Indented(FieldLines(o, level + 1, parent, keys, n), Pad(o, level) + " ")
    decreases parent, 1, n
  {
    if n > 0 {
      FieldsIndented(o, level, parent, keys, n - 1);
      var j := IndexOfKey(parent.entries, keys[n - 1]);
      assert parent.entries[j] in parent.entries;
      ChildIndented(o, level, parent.entries[j].1, keys[n - 1]);
      IndentedConcat(FieldLines(o, level + 1, parent, keys, n - 1),
                     ValueLines(o, level + 1, parent.entries[j].1, keys[n - 1]), Pad(o, level) + " ");
    }
  }
}

=== FILE: roundtrip.dfy ===
/** What the decoder of pytonl/decoder.py makes of what the encoder of
    pytonl/encoder.py writes: the header lines set the decoder's settings,
    a scalar document and a one-line primitive array read back, and a
    primitive array long enough for the two-line layout does not (it reads
    back as `[None]`); a reader corrected to take the indented line as the
    array's values reads both layouts back. */
module RoundTrip {
  import opened Types
  import opened Text
  import opened Utils
  import opened Encoder
  import opened Decoder
  import opened EncoderProperties
  import opened DecoderProperties

  // ---------------------------------------------------------------------
  // Text helpers

  /** A string that starts with a non-space character keeps it first once
      stripped. */
  lemma StripKeepsHead(s: string)
    requires s != [] && !IsSpace(s[0])
    ensures Strip(s) != [] && Strip(s)[0] == s[0]
  {
    assert AllSpace(s[0..0]);
    LStripStartUnique(s, 0, 0);
    assert LStrip(s) == s;
  }

  /** A character that is in none of the parts nor the separator is not
      in the joined text. */
  lemma {:induction false} JoinAvoids(parts: seq<string>, sep: string, c: char)
    requires forall j :: 0 <= j < |parts| ==> c !in parts[j]
    requires c !in sep
    ensures c !in Join(parts, sep)
  {
    if |parts| > 1 {
      JoinAvoids(parts[1..], sep, c);
    }
  }

  /** Replacing never brings in a character that neither the text nor
      the replacement has. */
  lemma {:induction false} ReplaceAvoids(s: string, pat: string, sub: string, c: char)
    requires |pat| > 0 && c !in s && c !in sub
    ensures c !in Replace(s, pat, sub)
    decreases |s|
  {
    if s != [] {
      if StartsWith(s, pat) {
        ReplaceAvoids(s[|pat|..], pat, sub, c);
      } else {
        ReplaceAvoids(s[1..], pat, sub, c);
      }
    }
  }

  // ---------------------------------------------------------------------
  // Header lines

  /** `#name `, the text the encoder writes before a directive's value. */
  predicate IsDirectiveHead(head: string, name: string) {
    name != [] && AllWord(name) && |head| == |name| + 2
    && head[0] == '#' && head[1..|head| - 1] == name && head[|head| - 1] == ' '
  }

  lemma DirectiveHeads()
    ensures IsDirectiveHead("#version ", "version")
    ensures IsDirectiveHead("#delimiter ", "delimiter")
  {
  }

  /** A directive `#name value` as the encoder writes it matches with its
      name and its value. */
  lemma DirectiveMatch(head: string, name: string, v: string)
    requires IsDirectiveHead(head, name)
    requires v != [] && IsStripped(v) && '\n' !in v
    ensures (head + v)[0] == '#' && Strip(head + v) == head + v
    ensures MatchDirective(head + v) == Some((name, v))
  {
    var s := head + v;
    var k := |head| - 1;
    assert s[|s| - 1] == v[|v| - 1];
    StrippedFixed(s);
    forall j | 1 <= j < k ensures IsWordChar(s[j]) {
      assert s[j] == head[1..k][j - 1];
    }
    assert s[k] == ' ';
    SkipWordOver(s, 1, k);
    assert s[k + 1] == v[0];
    assert SkipSpaces(s, k) == k + 1;
    assert s[1..k] == name && s[k + 1..] == v;
  }

  /** `#version v` stores v, for a version with no surrounding whitespace
      and no line break. */
  lemma VersionDirective(v: string, st: HeaderState)
    requires v != [] && IsStripped(v) && '\n' !in v
    ensures ApplyDirective("#version " + v, st) == st.(version := v)
  {
    DirectiveHeads();
    DirectiveMatch("#version ", "version", v);
  }

  /** `#delimiter` followed by a whitespace character other than a tab is
      stripped to a bare `#delimiter`, which is no directive. */
  lemma DelimiterSpace(c: char, st: HeaderState)
    requires c != '\t' && IsSpace(c)
    ensures ApplyDirective("#delimiter " + [c], st) == st
  {
    var line := "#delimiter " + [c];
    var word := "#delimiter";
    assert line == word + [' ', c];
    RStripSpaceSuffix(word, [' ', c]);
    assert RStrip(word) == word;
    assert AllSpace(line[0..0]);
    LStripStartUnique(line, 0, 0);
    assert LStrip(line) == line;
    SkipWordOver(word, 1, 10);
    assert MatchDirective(word).None?;
  }

  /** `#delimiter` as the encoder writes it sets exactly the four
      delimiters the decoder knows, and leaves any other character as it
      was. */
  lemma DelimiterDirective(c: char, st: HeaderState)
    ensures ApplyDirective("#delimiter " + DelimiterText(c), st) ==
      if IsDelimiter(c) then st.(delimiter := c) else st
  {
    if c != '\t' && IsSpace(c) {
      DelimiterSpace(c, st);
    } else {
      var t := DelimiterText(c);
      var line := "#delimiter " + t;
      DirectiveHeads();
      DirectiveMatch("#delimiter ", "delimiter", t);
      assert ApplyDirective(line, st) ==
        if t == "\\t" then st.(delimiter := '\t')
        else if t == "," || t == "|" || t == ";" then st.(delimiter := t[0])
        else st;
      DelimiterTextCases(c);
    }
  }

  /** Only a tab is written as `\t`, and a one-character delimiter text
      is the character itself. */
  lemma DelimiterTextCases(c: char)
    ensures DelimiterText(c) == "\\t" <==> c == '\t'
    ensures var t := DelimiterText(c);
      (t == "," || t == "|" || t == ";") <==> (c == ',' || c == '|' || c == ';')
    ensures c != '\t' ==> DelimiterText(c) == [c]
  {
  }

  /** The settings after the encoder's header lines: the version is
      stored, and the delimiter is the encoder's when it is one of the
      four the decoder knows other than the comma (for which no line is
      written), and the decoder's own otherwise. */
  lemma HeaderLinesRead(o: EncodeOptions, lines: seq<string>, initial: HeaderState)
    requires o.version != [] && IsStripped(o.version) && '\n' !in o.version
    requires |HeaderLines(o)| <= |lines| && lines[..|HeaderLines(o)|] == HeaderLines(o)
    ensures Settings(lines, |HeaderLines(o)|, initial) ==
      HeaderState(if o.delimiter != ',' && IsDelimiter(o.delimiter) then o.delimiter else initial.delimiter, o.version)
  {
    var h := HeaderLines(o);
    assert lines[0] == h[0] == "#version " + o.version;
    VersionDirective(o.version, initial);
    assert Settings(lines, 1, initial) == initial.(version := o.version);
    if o.delimiter != ',' {
      assert lines[1] == h[1] == "#delimiter " + DelimiterText(o.delimiter);
      DelimiterDirective(o.delimiter, initial.(version := o.version));
    }
  }

  /** Every line the encoder writes before the data is one the decoder's
      header pass passes over. */
  lemma HeaderLinesSkipped(o: EncodeOptions)
    ensures forall j :: 0 <= j < |HeaderLines(o)| ==> IsHeaderLine(HeaderLines(o)[j])
  {
    var h := HeaderLines(o);
    forall j | 0 <= j < |h| ensures IsHeaderLine(h[j]) {
      assert h[j][0] == '#';
      StripKeepsHead(h[j]);
    }
  }

  /** Neither header line holds a line break, for a version without one
      and a delimiter other than the line break. */
  lemma HeaderLinesOneLine(o: EncodeOptions)
    requires '\n' !in o.version && o.delimiter != '\n'
    ensures forall j :: 0 <= j < |HeaderLines(o)| ==> '\n' !in HeaderLines(o)[j]
  {
  }

  /** The header pass stops at the first data line when that line starts
      with neither whitespace, `@` nor `#`. */
  lemma DataStartAfterHeaders(o: EncodeOptions, rest: seq<string>)
    requires rest != [] && rest[0] != [] && !IsSpace(rest[0][0]) && rest[0][0] != '@' && rest[0][0] != '#'
    ensures DataStart(HeaderLines(o) + rest, 0) == |HeaderLines(o)|
  {
    var h := HeaderLines(o);
    var lines := h + rest;
    HeaderLinesSkipped(o);
    StripKeepsHead(rest[0]);
    assert lines[|h|] == rest[0];
    assert !IsHeaderLine(lines[|h|]);
    assert lines[0] == h[0];
    if |h| == 2 {
      assert lines[1] == h[1];
      assert DataStart(lines, 1) == DataStart(lines, 2);
    }
  }

  /** Two runs of lines without the character c put together have none
      with it. */
  lemma LinesAvoid(a: seq<string>, b: seq<string>, c: char)
    requires forall j :: 0 <= j < |a| ==> c !in a[j]
    requires forall j :: 0 <= j < |b| ==> c !in b[j]
    ensures forall j :: 0 <= j < |a + b| ==> c !in (a + b)[j]
  {
  }

  /** The delimiter the decoder ends up with after the header lines. */
  function DocumentDelimiter(o: EncodeOptions, initial: HeaderState): char {
    if o.delimiter != ',' && IsDelimiter(o.delimiter) then o.delimiter else initial.delimiter
  }

  /** What `decode` finds in an encoded document whose data lines start
      with the `root` line: exactly those data lines, with content, and
      the delimiter the header lines set. */
  lemma DocumentData(o: EncodeOptions, rest: seq<string>, initial: HeaderState)
    requires o.version != [] && IsStripped(o.version) && '\n' !in o.version && o.delimiter != '\n'
    requires rest != [] && rest[0] != [] && !IsSpace(rest[0][0]) && rest[0][0] != '@' && rest[0][0] != '#'
    requires forall j :: 0 <= j < |rest| ==> '\n' !in rest[j]
    ensures var lines := SplitOn(Join(HeaderLines(o) + rest, "\n"), '\n'); var start := DataStart(lines, 0);
      lines[start..] == rest && HasContent(rest) &&
      Settings(lines, start, initial).delimiter == DocumentDelimiter(o, initial)
  {
    var h := HeaderLines(o);
    var lines := h + rest;
    HeaderLinesOneLine(o);
    LinesAvoid(h, rest, '\n');
    SplitJoin(lines, '\n');
    assert SplitOn(Join(lines, "\n"), '\n') == lines;
    DataStartAfterHeaders(o, rest);
    assert lines[..|h|] == h;
    HeaderLinesRead(o, lines, initial);
    assert lines[|h|..] == rest;
    assert rest[0][0] in rest[0];
    assert HasContent(rest);
  }

  /** `decode` of an encoded document whose data lines start with the
      `root` line: the unwrapped result of reading the data lines with
      the delimiter the header lines set. */
  lemma DecodeDocument(o: EncodeOptions, rest: seq<string>, initial: HeaderState)
    requires o.version != [] && IsStripped(o.version) && '\n' !in o.version && o.delimiter != '\n'
    requires rest != [] && rest[0] != [] && !IsSpace(rest[0][0]) && rest[0][0] != '@' && rest[0][0] != '#'
    requires forall j :: 0 <= j < |rest| ==> '\n' !in rest[j]
    ensures DecodeResult(Join(HeaderLines(o) + rest, "\n"), initial) ==
      Unwrap(LinesResult(rest, DocumentDelimiter(o, initial)).value)
  {
    DocumentData(o, rest, initial);
  }

  // ---------------------------------------------------------------------
  // Scalar documents

  /** `quote_string` brings in no line break. */
  lemma QuotedOneLine(s: string)
    requires '\n' !in s
    ensures '\n' !in QuoteString(s)
  {
    QuoteStringForms(s);
    var x := Replace(s, "\\", "\\\\");
    ReplaceAvoids(s, "\\", "\\\\", '\n');
    if ContainsSub(s, Quote3) {
      ReplaceAvoids(x, Quote3, EscapedQuote3, '\n');
    } else {
      ReplaceAvoids(x, "\"", "\"\"", '\n');
    }
  }

  /** The token the encoder writes for a scalar other than a float is
      non-empty, stripped and on one line, for a string without a line
      break. */
  lemma ScalarText(v: Value, d: char)
    requires IsScalar(v) && !v.Float? && (v.Str? ==> '\n' !in v.s)
    ensures var t := FormatScalar(v, d); t != [] && IsStripped(t) && '\n' !in t
  {
    match v
    case Int(i) => IntLiteralChars(i);
    case Str(s) =>
      if NeedsQuoting(s, d, false) {
        QuotedShape(s);
        QuotedOneLine(s);
      } else {
        PlainStringFacts(s, d, false);
      }
    case _ =>
  }

  /** `root` is a name key. */
  lemma RootIsKey()
    ensures IsHeaderKey("root") && !IsIndexKey("root")
  {
    assert "root"[1..] == "oot";
  }

  /** An encoded scalar reads back: `decode(encode(v)) == v` for null, a
      bool, an int, and a string without a line break that does not both
      begin and end with a double quote, whatever the options (with a
      version on one line and no surrounding whitespace, and a delimiter
      other than the line break). */
  lemma ScalarDocument(o: EncodeOptions, v: Value, initial: HeaderState)
    requires o.version != [] && IsStripped(o.version) && '\n' !in o.version && o.delimiter != '\n'
    requires IsScalar(v) && !v.Float?
    requires v.Str? ==> '\n' !in v.s && !(|v.s| >= 1 && v.s[0] == '"' && v.s[|v.s| - 1] == '"')
    ensures DecodeResult(Join(DocumentLines(o, 0, v), "\n"), initial) == v
  {
    var t := FormatScalar(v, o.delimiter);
    ScalarText(v, o.delimiter);
    ScalarRoundTrip(v, o.delimiter);
    ScalarRootLine(o, v);
    RootLineDocument(o, t, initial);
  }

  /** A document of the header lines and the one line `root: t` reads
      back as the parsed token. */
  lemma RootLineDocument(o: EncodeOptions, t: string, initial: HeaderState)
    requires o.version != [] && IsStripped(o.version) && '\n' !in o.version && o.delimiter != '\n'
    requires t != [] && IsStripped(t) && '\n' !in t
    ensures DecodeResult(Join(HeaderLines(o) + ["root" + ":" + (" " + t)], "\n"), initial) == ParsePrimitiveValue(t)
  {
    var line := "root" + ":" + (" " + t);
    assert line[0] == 'r';
    DecodeDocument(o, [line], initial);
    var d := DocumentDelimiter(o, initial);
    RootIsKey();
    KeyPairLine("root", t, d);
  }

  /** The encoder writes a scalar at the top as the one line `root: t`. */
  lemma ScalarRootLine(o: EncodeOptions, v: Value)
    requires IsScalar(v)
    ensures ValueLines(o, 0, v, "root") == ["root" + ":" + (" " + FormatScalar(v, o.delimiter))]
  {
    var t := FormatScalar(v, o.delimiter);
    assert Pad(o, 0) == [];
    assert ValueLines(o, 0, v, "root") == [Pad(o, 0) + "root" + ": " + t];
    assert Pad(o, 0) + "root" + ": " + t == "root" + ":" + (" " + t);
  }

  /** One space before a token that starts with no whitespace is what
      `lstrip` removes. */
  lemma LStripOneSpace(t: string)
    requires t != [] && !IsSpace(t[0])
    ensures LStrip(" " + t) == t
  {
    assert AllSpace(" ");
    LStripSpacePrefix(" ", t);
    assert AllSpace(t[0..0]);
    LStripStartUnique(t, 0, 0);
  }

  /** The line `key: t` reads back as the one-entry dict of the key and
      the parsed token. */
  lemma KeyPairLine(key: string, t: string, d: char)
    requires IsHeaderKey(key) && t != [] && IsStripped(t) && '\n' !in t
    ensures LinesResult([key + ":" + (" " + t)], d) == Parsed(Map([(key, ParsePrimitiveValue(t))]), 1)
  {
    var line := key + ":" + (" " + t);
    assert line[0] == key[0] && line[|line| - 1] == t[|t| - 1];
    assert !IsSpace(key[0]);
    StrippedFixed(line);
    LStripOneSpace(t);
    PairLine([line], d, key, " " + t);
  }

  // ---------------------------------------------------------------------
  // Primitive arrays

  /** A bare token holds neither a colon nor a line break. */
  lemma PlainTokenChars(v: Value, d: char)
    requires PlainScalar(v, d)
    ensures ':' !in FormatScalar(v, d) && '\n' !in FormatScalar(v, d)
  {
    match v
    case Int(i) =>
      var t := IntToString(i);
      IntLiteralChars(i);
      assert forall j :: 0 <= j < |t| ==> t[j] != ':' && t[j] != '\n';
    case _ =>
  }

  /** No bare token holds a colon or a line break. */
  lemma TokensAvoid(items: seq<Value>, d: char)
    requires forall j :: 0 <= j < |items| ==> PlainScalar(items[j], d)
    ensures AllScalar(items)
    ensures var fs := FormatAll(items, d); forall j :: 0 <= j < |fs| ==> ':' !in fs[j] && '\n' !in fs[j]
  {
    var fs := FormatAll(items, d);
    forall j | 0 <= j < |fs| ensures ':' !in fs[j] && '\n' !in fs[j] {
      FormatAllAt(items, d, j);
      PlainTokenChars(items[j], d);
    }
  }

  /** Fields without a colon or a line break joined by the separator of a
      delimiter have neither. */
  lemma JoinedAvoid(fs: seq<string>, d: char)
    requires IsDelimiter(d)
    requires forall j :: 0 <= j < |fs| ==> ':' !in fs[j] && '\n' !in fs[j]
    ensures var joined := Join(fs, FieldSeparator(d)); ':' !in joined && '\n' !in joined
  {
    var sep := FieldSeparator(d);
    assert ':' !in sep && '\n' !in sep;
    JoinAvoids(fs, sep, ':');
    JoinAvoids(fs, sep, '\n');
  }

  /** Bare tokens joined as `_encode_primitive_array` joins them: a
      non-empty stripped text on one line, without a colon, that
      `_parse_array_values` reads back as the values. */
  lemma PlainJoined(items: seq<Value>, d: char)
    requires IsDelimiter(d) && items != []
    requires forall j :: 0 <= j < |items| ==> PlainScalar(items[j], d)
    ensures AllScalar(items)
    ensures var joined := Join(FormatAll(items, d), FieldSeparator(d));
      joined != [] && IsStripped(joined) && ':' !in joined && '\n' !in joined &&
      ArrayValues(joined, d) == items
  {
    PlainFieldsReadBack(items, d);
    TokensAvoid(items, d);
    var fs := FormatAll(items, d);
    JoinedAvoid(fs, d);
    FieldsRead(Join(fs, FieldSeparator(d)), d, items);
  }

  /** Fields that read as the items make the array's values. */
  lemma FieldsRead(line: string, d: char, items: seq<Value>)
    requires ParseFields(SplitFields(line, d)) == items
    ensures ArrayValues(line, d) == items
  {
  }

  /** A list of scalars that is not empty takes the primitive layout. */
  lemma PrimitiveChosen(o: EncodeOptions, level: nat, items: seq<Value>, key: string)
    requires items != [] && AllScalar(items)
    ensures ValueLines(o, level, List(items), key) == PrimitiveArrayLines(o, level, items, key)
  {
    assert !items[0].Map?;
    assert !Uniform(items);
  }

  /** The lines of the primitive layout without indentation. */
  lemma UnindentedLines(pad: string, key: string, mark: string, joined: string)
    requires pad == []
    ensures pad + key + mark + ": " + joined == key + mark + ":" + (" " + joined)
    ensures pad + key + mark + ":" == key + mark + ":"
    ensures pad + "  " + joined == "  " + joined
  {
  }

  /** The encoder writes a list of scalars that is not empty at the top as
      `root[n]: joined`, or as `root[n]:` over `  joined`. */
  lemma PrimitiveRootLines(o: EncodeOptions, items: seq<Value>)
    requires items != [] && AllScalar(items)
    ensures var joined := Join(FormatAll(items, o.delimiter), FieldSeparator(o.delimiter));
      var head := "root" + LengthMark(|items|) + ":";
      ValueLines(o, 0, List(items), "root") ==
        if |joined| < o.singleLineThreshold then [head + (" " + joined)] else [head, "  " + joined]
  {
    PrimitiveChosen(o, 0, items, "root");
    assert Pad(o, 0) == [];
    UnindentedLines(Pad(o, 0), "root", LengthMark(|items|), Join(FormatAll(items, o.delimiter), FieldSeparator(o.delimiter)));
  }

  /** `root[n]:` followed by text on one line is an array header whose
      rest is the stripped text. */
  lemma ArrayHeader(n: nat, tail: string)
    requires '\n' !in tail
    ensures HeaderOf("root" + LengthMark(n) + ":" + tail) == Some(HeaderInfo("root", Some(n), [], Strip(tail)))
  {
    var m := HeaderMatch("root", Some(NatToString(n)), None, tail);
    RootIsKey();
    MatchHeaderComplete(m);
    assert HeaderText(m) == "root" + LengthMark(n) + ":" + tail;
    DigitsValueOfNat(n);
  }

  /** A `root[n]:` line is its own strip when what follows the colon
      ends in a non-space character. */
  lemma RootLineStripped(n: nat, tail: string)
    requires tail != [] && !IsSpace(tail[|tail| - 1])
    ensures var line := "root" + LengthMark(n) + ":" + tail; Strip(line) == line
  {
    var line := "root" + LengthMark(n) + ":" + tail;
    assert line[0] == 'r' && line[|line| - 1] == tail[|tail| - 1];
    StrippedFixed(line);
  }

  /** A space before a stripped token on one line keeps it on one line,
      and stripping removes the space again. */
  lemma SpaceBefore(t: string)
    requires t != [] && IsStripped(t) && '\n' !in t
    ensures var tail := " " + t;
      '\n' !in tail && !IsSpace(tail[|tail| - 1]) && Strip(tail) == t
  {
    assert AllSpace(" ");
    StripPadded(" ", t, []);
    assert " " + t + [] == " " + t;
  }

  /** `root[n]: t` is a stripped array header line whose rest is `t`. */
  lemma OneLineHeader(n: nat, t: string)
    requires t != [] && IsStripped(t) && '\n' !in t
    ensures var line := "root" + LengthMark(n) + ":" + (" " + t);
      Strip(line) == line && HeaderOf(line) == Some(HeaderInfo("root", Some(n), [], t))
  {
    SpaceBefore(t);
    RootLineStripped(n, " " + t);
    ArrayHeader(n, " " + t);
  }

  /** `root[n]: t` reads back as the `root` entry holding the values of
      `t`. */
  lemma OneLineRoot(n: nat, t: string, d: char)
    requires t != [] && IsStripped(t) && '\n' !in t
    ensures LinesResult(["root" + LengthMark(n) + ":" + (" " + t)], d) == Parsed(Map([("root", List(ArrayValues(t, d)))]), 1)
  {
    var line := "root" + LengthMark(n) + ":" + (" " + t);
    OneLineHeader(n, t);
    var h := HeaderInfo("root", Some(n), [], t);
    LinesHeader([line], d, h, BlockResult([line], h, d));
  }

  /** The one-line layout reads back as the `root` entry holding the
      values. */
  lemma OneLineArray(items: seq<Value>, d: char)
    requires IsDelimiter(d) && items != [] && AllScalar(items)
    requires forall j :: 0 <= j < |items| ==> PlainScalar(items[j], d)
    ensures var joined := Join(FormatAll(items, d), FieldSeparator(d));
      LinesResult(["root" + LengthMark(|items|) + ":" + (" " + joined)], d) == Parsed(Map([("root", List(items))]), 1)
  {
    PlainJoined(items, d);
    OneLineRoot(|items|, Join(FormatAll(items, d), FieldSeparator(d)), d);
  }

  /** A document of the header lines and the one line `root[n]: t`
      reads back as the values of `t`, split at the delimiter the header
      lines leave the decoder with. */
  lemma OneLineDocument(o: EncodeOptions, n: nat, t: string, initial: HeaderState)
    requires o.version != [] && IsStripped(o.version) && '\n' !in o.version && o.delimiter != '\n'
    requires t != [] && IsStripped(t) && '\n' !in t
    ensures DecodeResult(Join(HeaderLines(o) + ["root" + LengthMark(n) + ":" + (" " + t)], "\n"), initial) ==
      List(ArrayValues(t, DocumentDelimiter(o, initial)))
  {
    var line := "root" + LengthMark(n) + ":" + (" " + t);
    SpaceBefore(t);
    assert line[0] == 'r' && '\n' !in line;
    DecodeDocument(o, [line], initial);
    OneLineRoot(n, t, DocumentDelimiter(o, initial));
  }

  /** A list of bare scalars short enough for the one-line layout reads
      back: `decode(encode(items)) == items`, when the decoder starts from
      the comma (as a new decoder does) or the options set another
      delimiter. */
  lemma PrimitiveArrayDocument(o: EncodeOptions, items: seq<Value>, initial: HeaderState)
    requires o.version != [] && IsStripped(o.version) && '\n' !in o.version
    requires IsDelimiter(o.delimiter) && (o.delimiter == ',' ==> initial.delimiter == ',')
    requires items != [] && forall j :: 0 <= j < |items| ==> PlainScalar(items[j], o.delimiter)
    requires AllScalar(items) && |Join(FormatAll(items, o.delimiter), FieldSeparator(o.delimiter))| < o.singleLineThreshold
    ensures DecodeResult(Join(DocumentLines(o, 0, List(items)), "\n"), initial) == List(items)
  {
    PlainJoined(items, o.delimiter);
    PrimitiveRootLines(o, items);
    OneLineDocument(o, |items|, Join(FormatAll(items, o.delimiter), FieldSeparator(o.delimiter)), initial);
  }

  // ---------------------------------------------------------------------
  // The two-line layout

  /** A line without a colon is neither a block header nor a `key: value`
      line. */
  lemma NoColonNoMatch(line: string)
    requires ':' !in line
    ensures HeaderOf(line).None? && ParseKeyValue(line).None?
  {
    MatchHeaderSound(line);
    match KeyEnd(line)
    case None =>
    case Some(k) =>
      if k < |line| {
        assert line[k] in line;
      }
  }

  /** `  t`, for a stripped token without a colon, is a line indented by
      two whose stripped text `t` is neither a block header nor a `key:
      value` line. */
  lemma ContinuationText(t: string)
    requires t != [] && IsStripped(t) && ':' !in t
    ensures var line := "  " + t;
      !IsBlank(line) && IndentOf(line) == 2 && Strip(line) == t &&
      HeaderOf(t).None? && ParseKeyValue(t).None?
  {
    TwoSpaceIndent(t);
    NoColonNoMatch(t);
  }

  /** Two spaces before a stripped token that is not empty: a line
      indented by two whose strip is the token. */
  lemma TwoSpaceIndent(t: string)
    requires t != [] && IsStripped(t)
    ensures var line := "  " + t; !IsBlank(line) && IndentOf(line) == 2 && Strip(line) == t
  {
    var line := "  " + t;
    assert AllSpace("  ");
    assert IndentOf(line) == 2 by {
      LStripSpacePrefix("  ", t);
      assert AllSpace(t[0..0]);
      LStripStartUnique(t, 0, 0);
    }
    assert !IsBlank(line) by {
      assert line[2] == t[0];
    }
    assert Strip(line) == t by {
      StripPadded("  ", t, []);
      assert "  " + t + [] == line;
    }
  }

  /** `_parse_lines` reads such a line as None. */
  lemma ContinuationLine(t: string, d: char)
    requires t != [] && IsStripped(t) && ':' !in t
    ensures var line := "  " + t;
      !IsBlank(line) && IndentOf(line) == 2 && LinesResult([line], d) == Parsed(Null, 1)
  {
    ContinuationText(t);
    LinesPair(["  " + t], d);
  }

  /** `root[n]:` is its own strip and is indented by nothing. */
  lemma BareHeadStripped(n: nat)
    ensures var head := "root" + LengthMark(n) + ":"; Strip(head) == head && IndentOf(head) == 0
  {
    var head := "root" + LengthMark(n) + ":";
    assert head[0] == 'r' && head[|head| - 1] == ':';
    StrippedFixed(head);
    assert AllSpace(head[0..0]);
    LStripStartUnique(head, 0, 0);
  }

  /** `root[n]:` is an array header with nothing after its colon. */
  lemma BareArrayHeader(n: nat)
    ensures HeaderOf("root" + LengthMark(n) + ":") == Some(HeaderInfo("root", Some(n), [], []))
  {
    var m := HeaderMatch("root", Some(NatToString(n)), None, []);
    RootIsKey();
    MatchHeaderComplete(m);
    assert HeaderText(m) == "root" + LengthMark(n) + ":";
    DigitsValueOfNat(n);
    StrippedFixed([]);
  }

  /** A mixed array whose one element line reads as None is a list of
      one None. */
  lemma OneNullElement(lines: seq<string>, d: char)
    requires |lines| == 2 && !IsBlank(lines[1]) && IndentOf(lines[1]) > 0
    requires LinesResult(lines[1..], d) == Parsed(Null, 1)
    ensures MixedFrom(lines, 0, d, 1, []) == Parsed(List([Null]), 2)
  {
    MixedElement(lines, d, 1, [], Parsed(Null, 1));
    MixedLine(lines, 0, d, 1, [], 2, [Null]);
    MixedStop(lines, 0, d, 2, [Null]);
  }

  /** `root[n]:` over `  t` reads back as the `root` entry holding a list
      of one None: the header starts a mixed array, whose one element
      line matches neither pattern. */
  lemma TwoLineRoot(n: nat, t: string, d: char)
    requires t != [] && IsStripped(t) && ':' !in t
    ensures LinesResult(["root" + LengthMark(n) + ":", "  " + t], d) == Parsed(Map([("root", List([Null]))]), 2)
  {
    var head := "root" + LengthMark(n) + ":";
    var lines := [head, "  " + t];
    BareHeadStripped(n);
    BareArrayHeader(n);
    ContinuationLine(t, d);
    assert lines[1..] == ["  " + t];
    OneNullElement(lines, d);
    var h := HeaderInfo("root", Some(n), [], []);
    assert BlockResult(lines, h, d) == Parsed(List([Null]), 2);
    LinesHeader(lines, d, h, BlockResult(lines, h, d));
  }

  /** A document of the header lines, `root[n]:` and `  t` reads back as
      a list of one None. */
  lemma TwoLineDocument(o: EncodeOptions, n: nat, t: string, initial: HeaderState)
    requires o.version != [] && IsStripped(o.version) && '\n' !in o.version && o.delimiter != '\n'
    requires t != [] && IsStripped(t) && '\n' !in t && ':' !in t
    ensures DecodeResult(Join(HeaderLines(o) + ["root" + LengthMark(n) + ":", "  " + t], "\n"), initial) == List([Null])
  {
    var head := "root" + LengthMark(n) + ":";
    var rest := [head, "  " + t];
    assert head[0] == 'r' && '\n' !in head && '\n' !in "  " + t;
    DecodeDocument(o, rest, initial);
    TwoLineRoot(n, t, DocumentDelimiter(o, initial));
  }

  /** The same list of bare scalars, once its joined values reach the
      threshold, does not read back: `_encode_primitive_array` puts the
      values on a line of their own, and `decode` gives a list of one
      None. */
  lemma PrimitiveArrayTwoLines(o: EncodeOptions, items: seq<Value>, initial: HeaderState)
    requires o.version != [] && IsStripped(o.version) && '\n' !in o.version
    requires IsDelimiter(o.delimiter) && items != []
    requires forall j :: 0 <= j < |items| ==> PlainScalar(items[j], o.delimiter)
    requires AllScalar(items) && |Join(FormatAll(items, o.delimiter), FieldSeparator(o.delimiter))| >= o.singleLineThreshold
    ensures DecodeResult(Join(DocumentLines(o, 0, List(items)), "\n"), initial) == List([Null])
  {
    PlainJoined(items, o.delimiter);
    PrimitiveRootLines(o, items);
    TwoLineDocument(o, |items|, Join(FormatAll(items, o.delimiter), FieldSeparator(o.delimiter)), initial);
  }

  // ---------------------------------------------------------------------
  // The two-line layout read back

  /** `_parse_block` as the two-line layout of `_encode_primitive_array`
      needs it: after an array header with nothing after its colon and no
      columns, a next line indented deeper that is neither a block header
      nor a `key: value` line holds the values. Every other block is read
      as before. */
  function BlockResultFixed(lines: seq<string>, h: HeaderInfo, d: char): (r: Parsed)
    requires lines != []
    ensures 1 <= r.consumed <= |lines|
  {
    if h.rest == [] && h.IsArray() && h.columns == [] && |lines| >= 2 && !IsBlank(lines[1])
       && IndentOf(lines[1]) > IndentOf(lines[0])
       && HeaderOf(Strip(lines[1])).None? && ParseKeyValue(Strip(lines[1])).None?
    then Parsed(List(ArrayValues(Strip(lines[1]), d)), 2)
    else BlockResult(lines, h, d)
  }

  /** `_parse_lines` with the corrected block reader for the block it
      starts. */
  function LinesResultFixed(lines: seq<string>, d: char): (r: Parsed)
    ensures lines != [] ==> 1 <= r.consumed <= |lines|
  {
    if lines == [] then Parsed(Null, 0)
    else
      match HeaderOf(Strip(lines[0]))
      case Some(h) =>
        var b := BlockResultFixed(lines, h, d);
        if IsIndexKey(h.key) then b else Parsed(Map([(h.key, b.value)]), b.consumed)
      case None => LinesResult(lines, d)
  }

  /** `decode` with the corrected reader of the top-level block. */
  function DecodeFixed(text: string, initial: HeaderState): Value {
    var lines := SplitOn(text, '\n');
    var start := DataStart(lines, 0);
    var d := Settings(lines, start, initial).delimiter;
    var data := lines[start..];
    if !HasContent(data) then Null
    else Unwrap(LinesResultFixed(data, d).value)
  }

  /** The corrected reader reads a one-line document as `decode` does. */
  lemma FixedOneLine(line: string, d: char)
    ensures LinesResultFixed([line], d) == LinesResult([line], d)
  {
  }

  /** The corrected reader reads `root[n]:` over `  t` as the `root`
      entry holding the values of `t`. */
  lemma TwoLineRootFixed(n: nat, t: string, d: char)
    requires t != [] && IsStripped(t) && ':' !in t
    ensures LinesResultFixed(["root" + LengthMark(n) + ":", "  " + t], d) == Parsed(Map([("root", List(ArrayValues(t, d)))]), 2)
  {
    var head := "root" + LengthMark(n) + ":";
    var lines := [head, "  " + t];
    BareHeadStripped(n);
    BareArrayHeader(n);
    ContinuationText(t);
    var h := HeaderInfo("root", Some(n), [], []);
    assert BlockResultFixed(lines, h, d) == Parsed(List(ArrayValues(t, d)), 2);
  }

  /** With the corrected reader every list of bare scalars reads back,
      in either layout: `decode(encode(items)) == items`. */
  lemma PrimitiveArrayDocumentFixed(o: EncodeOptions, items: seq<Value>, initial: HeaderState)
    requires o.version != [] && IsStripped(o.version) && '\n' !in o.version
    requires IsDelimiter(o.delimiter) && (o.delimiter == ',' ==> initial.delimiter == ',')
    requires items != [] && forall j :: 0 <= j < |items| ==> PlainScalar(items[j], o.delimiter)
    ensures DecodeFixed(Join(DocumentLines(o, 0, List(items)), "\n"), initial) == List(items)
  {
    PlainJoined(items, o.delimiter);
    PrimitiveRootLines(o, items);
    var t := Join(FormatAll(items, o.delimiter), FieldSeparator(o.delimiter));
    if |t| < o.singleLineThreshold {
      OneLineFixedDocument(o, |items|, t, initial);
    } else {
      TwoLineFixedDocument(o, |items|, t, initial);
    }
  }

  /** The corrected `decode` of the one-line layout. */
  lemma OneLineFixedDocument(o: EncodeOptions, n: nat, t: string, initial: HeaderState)
    requires o.version != [] && IsStripped(o.version) && '\n' !in o.version && o.delimiter != '\n'
    requires t != [] && IsStripped(t) && '\n' !in t
    ensures DecodeFixed(Join(HeaderLines(o) + ["root" + LengthMark(n) + ":" + (" " + t)], "\n"), initial) ==
      List(ArrayValues(t, DocumentDelimiter(o, initial)))
  {
    var line := "root" + LengthMark(n) + ":" + (" " + t);
    SpaceBefore(t);
    assert line[0] == 'r' && '\n' !in line;
    DocumentData(o, [line], initial);
    FixedOneLine(line, DocumentDelimiter(o, initial));
    OneLineRoot(n, t, DocumentDelimiter(o, initial));
  }

  /** The corrected `decode` of the two-line layout. */
  lemma TwoLineFixedDocument(o: EncodeOptions, n: nat, t: string, initial: HeaderState)
    requires o.version != [] && IsStripped(o.version) && '\n' !in o.version && o.delimiter != '\n'
    requires t != [] && IsStripped(t) && '\n' !in t && ':' !in t
    ensures DecodeFixed(Join(HeaderLines(o) + ["root" + LengthMark(n) + ":", "  " + t], "\n"), initial) ==
      List(ArrayValues(t, DocumentDelimiter(o, initial)))
  {
    var head := "root" + LengthMark(n) + ":";
    assert head[0] == 'r' && '\n' !in head && '\n' !in "  " + t;
    DocumentData(o, [head, "  " + t], initial);
    TwoLineRootFixed(n, t, DocumentDelimiter(o, initial));
  }
}

=== FILE: single_line.dfy ===
/** What `_parse_single_line_object` of pytonl/decoder.py reads from the
    text after an object header's colon: every pair `re.findall` finds has
    an identifier key and a value without a colon; a line of `key: value`
    pairs with identifier keys and bare values reads back as those pairs,
    in order; a dict of identifier keys and bare scalars that
    `_encode_object` of pytonl/encoder.py writes on one line reads back as
    the same dict; a string with a colon does not; and the header's
    declared columns are ignored. */
module SingleLineObjects {
  import opened Types
  import opened Text
  import opened Utils
  import opened Decoder
  import opened Encoder
  import opened EncoderProperties
  import opened RoundTrip

  // ---------------------------------------------------------------------
  // Where the scans stop

  /** The whitespace run from i ends at the latest at a non-space m. */
  lemma {:induction false} SkipSpacesBound(line: string, i: nat, m: nat)
    requires i <= m < |line| && !IsSpace(line[m])
    ensures SkipSpaces(line, i) <= m
    decreases m - i
  {
    if i < m && IsSpace(line[i]) {
      SkipSpacesBound(line, i + 1, m);
    }
  }

  /** The word run from i ends at the latest at a non-word m. */
  lemma {:induction false} SkipWordBound(line: string, i: nat, m: nat)
    requires i <= m <= |line| && (m == |line| || !IsWordChar(line[m]))
    ensures SkipWord(line, i) <= m
    decreases m - i
  {
    if i < m && IsWordChar(line[i]) {
      SkipWordBound(line, i + 1, m);
    }
  }

  // ---------------------------------------------------------------------
  // The pairs found

  /** A match of the pair pattern has an identifier key and a value that
      is not empty and holds no colon. */
  lemma PairMatchShape(line: string, p: nat)
    requires p <= |line| && PairMatchAt(line, p).Some?
    ensures var m := PairMatchAt(line, p).value;
      IsValidIdentifier(m.0) && m.1 != [] && ':' !in m.1
  {
    var k := SkipWord(line, p + 1);
    KeyIdentifier(line, p);
    var span := ValueSpan(line, k + 1, SkipSpaces(line, k + 1)).value;
    NoColonSlice(line, span.0, span.1);
  }

  /** The word run of a key that starts at p is an identifier. */
  lemma KeyIdentifier(line: string, p: nat)
    requires p <= |line| && KeyColonAt(line, p)
    ensures IsValidIdentifier(line[p..SkipWord(line, p + 1)])
  {
    var k := SkipWord(line, p + 1);
    SkipWordRun(line, p + 1);
    assert line[p..k][1..] == line[p + 1..k];
  }

  /** A stretch of the line with no colon gives a slice with no colon. */
  lemma NoColonSlice(line: string, a: nat, b: nat)
    requires a <= b <= |line| && forall m :: a <= m < b ==> line[m] != ':'
    ensures ':' !in line[a..b]
  {
    forall m | 0 <= m < b - a ensures line[a..b][m] != ':' {
      assert line[a..b][m] == line[a + m];
    }
  }

  /** Pairs with an identifier key and a value that is not empty and
      holds no colon. */
  predicate ShapedPairs(pairs: seq<(string, string)>) {
    forall j :: 0 <= j < |pairs| ==> IsValidIdentifier(pairs[j].0) && pairs[j].1 != [] && ':' !in pairs[j].1
  }

  /** Every pair `re.findall` finds has an identifier key and a value that
      is not empty and holds no colon. */
  lemma {:induction false} FindPairsShape(line: string, p: nat)
    requires p <= |line|
    ensures ShapedPairs(FindPairs(line, p))
    decreases |line| - p
  {
    if p < |line| {
      match PairMatchAt(line, p)
      case Some(m) =>
        PairMatchShape(line, p);
        FindPairsShape(line, m.2);
        FindPairsTake(line, p, m);
        ShapedCons((m.0, m.1), FindPairs(line, m.2));
      case None =>
        FindPairsShape(line, p + 1);
        FindPairsNoMatch(line, p);
    }
  }

  lemma ShapedCons(pair: (string, string), rest: seq<(string, string)>)
    requires IsValidIdentifier(pair.0) && pair.1 != [] && ':' !in pair.1
    requires ShapedPairs(rest)
    ensures ShapedPairs([pair] + rest)
  {
    forall j | 0 <= j < |[pair] + rest|
      ensures IsValidIdentifier(([pair] + rest)[j].0)
    {
      if j > 0 {
        assert ([pair] + rest)[j] == rest[j - 1];
      }
    }
  }

  /** A quoted token with a colon is never a value `re.findall` finds, so
      a string that `needs_quoting` quotes for its colon is not read back
      from a single-line object. */
  lemma QuotedColonNotFound(line: string, key: string, s: string)
    requires ':' in s
    ensures (key, QuoteString(s)) !in FindPairs(line, 0)
  {
    QuotedKeepsColon(s);
    FindPairsShape(line, 0);
  }

  /** Quoting keeps every character of the string, a colon among them. */
  lemma QuotedKeepsColon(s: string)
    requires ':' in s
    ensures ':' in QuoteString(s)
  {
    QuoteStringForms(s);
    var x := Replace(s, "\\", "\\\\");
    ReplaceKeeps(s, "\\", "\\\\", ':');
    if '\n' in s || ContainsSub(s, Quote3) {
      ReplaceKeeps(x, Quote3, EscapedQuote3, ':');
      InMiddle(Quote3, Replace(x, Quote3, EscapedQuote3), Quote3, ':');
    } else {
      ReplaceKeeps(x, "\"", "\"\"", ':');
      InMiddle("\"", Replace(x, "\"", "\"\""), "\"", ':');
    }
  }

  /** A character of the middle part is in the whole. */
  lemma InMiddle<T>(a: seq<T>, r: seq<T>, b: seq<T>, c: T)
    requires c in r
    ensures c in a + r + b
  {
    var j :| 0 <= j < |r| && r[j] == c;
    assert (a + r + b)[|a| + j] == c;
  }

  /** Replacing a pattern without the character c keeps c. */
  lemma {:induction false} ReplaceKeeps(s: string, pat: string, sub: string, c: char)
    requires |pat| > 0 && c in s && c !in pat
    ensures c in Replace(s, pat, sub)
    decreases |s|
  {
    if StartsWith(s, pat) {
      assert c !in s[..|pat|];
      assert c in s[|pat|..] by {
        var j :| 0 <= j < |s| && s[j] == c;
        assert s[j] in s[..|pat|] || s[j] == s[|pat|..][j - |pat|];
      }
      ReplaceKeeps(s[|pat|..], pat, sub, c);
    } else if s[0] == c {
      assert Replace(s, pat, sub) == [s[0]] + Replace(s[1..], pat, sub);
    } else {
      assert c in s[1..] by {
        var j :| 0 <= j < |s| && s[j] == c;
        assert s[j] == s[1..][j - 1];
      }
      ReplaceKeeps(s[1..], pat, sub, c);
    }
  }

  // ---------------------------------------------------------------------
  // Pairs that read back

  /** A pair the encoder writes that `re.findall` can give back: an
      identifier key and a bare value, stripped and without a colon. */
  predicate ReadablePair(pair: (string, string)) {
    IsValidIdentifier(pair.0) && pair.1 != [] && IsStripped(pair.1) && ':' !in pair.1
  }

  /** `key: value` pairs joined by single spaces, as `_encode_object`
      writes them on one line. */
  function PairsLine(pairs: seq<(string, string)>): string
    decreases |pairs|, 0
  {
    if pairs == [] then [] else pairs[0].0 + ": " + pairs[0].1 + PairsTail(pairs[1..])
  }

  /** What follows a pair: nothing after the last, a space and the next
      pairs otherwise. */
  function PairsTail(rest: seq<(string, string)>): string
    decreases |rest|, 1
  {
    if rest == [] then [] else " " + PairsLine(rest)
  }

  /** The pieces of `k: t` followed by more text. */
  lemma PairPieces(s: string, p: nat, k: string, t: string, after: string)
    requires p <= |s| && s[p..] == k + ": " + t + after
    ensures var e := p + |k| + 2 + |t|;
      e <= |s| && s[p..p + |k|] == k && s[p + |k|] == ':' && s[p + |k| + 1] == ' ' &&
      s[p + |k| + 2..e] == t && s[e..] == after
  {
    var r := s[p..];
    assert r[..|k|] == k;
    assert r[|k| + 2..|k| + 2 + |t|] == t;
    assert r[|k| + 2 + |t|..] == after;
  }

  /** The first element and the rest of a slice that starts with it. */
  lemma ConsSlice<T>(s: seq<T>, e: nat, x: T, r: seq<T>)
    requires e <= |s| && s[e..] == [x] + r
    ensures e < |s| && s[e] == x && s[e + 1..] == r
  {
    assert s[e..][0] == x;
    assert s[e + 1..] == s[e..][1..];
  }

  /** `[a-zA-Z_]\w*:` matches where an identifier followed by a colon
      starts, and its word run ends at the colon. */
  lemma KeyColonOf(line: string, q: nat, k: string)
    requires q + |k| < |line| && line[q..q + |k|] == k && line[q + |k|] == ':' && IsValidIdentifier(k)
    ensures KeyColonAt(line, q) && SkipWord(line, q + 1) == q + |k|
  {
    assert line[q] == k[0];
    forall j | q + 1 <= j < q + |k| ensures IsWordChar(line[j]) {
      assert line[j] == k[j - q];
    }
    SkipWordOver(line, q + 1, q + |k|);
  }

  /** The lookahead fails at every i inside a bare value that runs from v
      up to e and is followed by a space or the end of the line. */
  lemma NoEndInside(line: string, v: nat, e: nat, i: nat)
    requires v < i < e <= |line|
    requires forall m :: v <= m < e ==> line[m] != ':'
    requires !IsSpace(line[e - 1])
    requires e == |line| || (!IsWordChar(line[e]) && line[e] != ':')
    ensures !PairEndsAt(line, i)
  {
    if IsSpace(line[i]) {
      var q := SkipSpaces(line, i);
      SkipSpacesBound(line, i, e - 1);
      if IsIdentStart(line[q]) {
        SkipWordBound(line, q + 1, e);
        var w := SkipWord(line, q + 1);
        if w < e {
          assert line[w] != ':';
        }
      }
    }
  }

  /** The lazy value that starts at v ends at e, the first place from i
      on where the lookahead holds. */
  lemma {:induction false} LazyEndAt(line: string, v: nat, e: nat, i: nat)
    requires v < i <= e <= |line|
    requires forall m :: v <= m < e ==> line[m] != ':'
    requires !IsSpace(line[e - 1])
    requires e == |line| || (!IsWordChar(line[e]) && line[e] != ':')
    requires PairEndsAt(line, e)
    ensures LazyValueEnd(line, i) == Some(e)
    decreases e - i
  {
    if i < e {
      NoEndInside(line, v, e, i);
      LazyEndAt(line, v, e, i + 1);
    }
  }

  /** The pair pattern matches `k: t` at p, when the line ends after `t`
      at e or goes on with a space and another `key:`. */
  lemma PairAt(line: string, p: nat, k: string, t: string, e: nat)
    requires ReadablePair((k, t)) && e == p + |k| + 2 + |t| <= |line|
    requires line[p..p + |k|] == k && line[p + |k|] == ':' && line[p + |k| + 1] == ' ' && line[p + |k| + 2..e] == t
    requires e == |line| || (line[e] == ' ' && KeyColonAt(line, e + 1))
    ensures PairMatchAt(line, p) == Some((k, t, e))
  {
    var kk := p + |k|;
    var v := kk + 2;
    KeyColonOf(line, p, k);
    ValueStart(line, p, k, t, e);
    ValueEnd(line, p, k, t, e);
    SpanFrom(line, kk + 1, v, e);
    MatchOf(line, p, kk, v, e);
  }

  /** The pair pattern's match, from where its key, value start and value
      end were found. */
  lemma MatchOf(line: string, p: nat, kk: nat, v: nat, e: nat)
    requires p < kk < v <= e <= |line|
    requires KeyColonAt(line, p) && SkipWord(line, p + 1) == kk
    requires SkipSpaces(line, kk + 1) == v && ValueSpan(line, kk + 1, v) == Some((v, e))
    ensures PairMatchAt(line, p) == Some((line[p..kk], line[v..e], e))
  {
  }

  /** Where the lazy value from v ends at e, the value span tried first,
      from v, is the match. */
  lemma SpanFrom(line: string, s0: nat, v: nat, e: nat)
    requires s0 <= v < |line| && LazyValueEnd(line, v + 1) == Some(e)
    ensures ValueSpan(line, s0, v) == Some((v, e))
  {
  }

  /** The single space after the colon is skipped up to the value's first
      character. */
  lemma ValueStart(line: string, p: nat, k: string, t: string, e: nat)
    requires ReadablePair((k, t)) && e == p + |k| + 2 + |t| <= |line|
    requires line[p + |k| + 1] == ' ' && line[p + |k| + 2..e] == t
    ensures SkipSpaces(line, p + |k| + 1) == p + |k| + 2
  {
    var v := p + |k| + 2;
    assert line[v] == t[0];
    assert SkipSpaces(line, v - 1) == SkipSpaces(line, v);
  }

  /** The lazy value that starts at the value's first character ends
      just after its last one. */
  lemma ValueEnd(line: string, p: nat, k: string, t: string, e: nat)
    requires ReadablePair((k, t)) && e == p + |k| + 2 + |t| <= |line|
    requires line[p + |k| + 2..e] == t
    requires e == |line| || (line[e] == ' ' && KeyColonAt(line, e + 1))
    ensures LazyValueEnd(line, p + |k| + 3) == Some(e)
  {
    var v := p + |k| + 2;
    forall m | v <= m < e ensures line[m] != ':' {
      assert line[m] == t[m - v];
    }
    assert line[e - 1] == t[|t| - 1];
    if e < |line| {
      assert SkipSpaces(line, e) == e + 1 by {
        assert SkipSpaces(line, e) == SkipSpaces(line, e + 1);
      }
    }
    LazyEndAt(line, v, e, v + 1);
  }

  lemma FindPairsTake(line: string, p: nat, m: (string, string, nat))
    requires p < |line| && PairMatchAt(line, p) == Some(m)
    ensures FindPairs(line, p) == [(m.0, m.1)] + FindPairs(line, m.2)
  {
  }

  /** A line of `key: value` pairs with identifier keys and bare values
      reads back, under `re.findall`, as exactly those pairs in order. */
  lemma {:induction false} FindPairsReadsBack(line: string, p: nat, pairs: seq<(string, string)>)
    requires p <= |line| && line[p..] == PairsLine(pairs)
    requires forall j :: 0 <= j < |pairs| ==> ReadablePair(pairs[j])
    ensures FindPairs(line, p) == pairs
    decreases |pairs|
  {
    if pairs == [] {
      assert |line[p..]| == 0;
      assert FindPairs(line, p) == [];
    } else if |pairs| == 1 {
      LastPair(line, p, pairs);
    } else {
      var e := FirstPair(line, p, pairs);
      FindPairsReadsBack(line, e + 1, pairs[1..]);
      assert FindPairs(line, p) == [pairs[0]] + pairs[1..];
      assert pairs == [pairs[0]] + pairs[1..];
    }
  }

  /** The last pair of the line is the last match. */
  lemma LastPair(line: string, p: nat, pairs: seq<(string, string)>)
    requires p <= |line| && line[p..] == PairsLine(pairs)
    requires |pairs| == 1 && ReadablePair(pairs[0])
    ensures FindPairs(line, p) == pairs
  {
    var k := pairs[0].0;
    var t := pairs[0].1;
    var e := p + |k| + 2 + |t|;
    PairPieces(line, p, k, t, PairsTail(pairs[1..]));
    assert e == |line|;
    PairAt(line, p, k, t, e);
    FindPairsTake(line, p, (k, t, e));
  }

  /** The first of several pairs is the first match, and the search goes
      on where the next pair starts, one past the space at e. */
  lemma FirstPair(line: string, p: nat, pairs: seq<(string, string)>) returns (e: nat)
    requires p <= |line| && line[p..] == PairsLine(pairs)
    requires |pairs| > 1 && ReadablePair(pairs[0]) && ReadablePair(pairs[1])
    ensures e < |line| && line[e + 1..] == PairsLine(pairs[1..])
    ensures FindPairs(line, p) == [pairs[0]] + FindPairs(line, e + 1)
  {
    e := FirstMatch(line, p, pairs);
    TakeThenSkip(line, p, pairs[0], e);
  }

  /** The first of several pairs is the match at p; it ends at a space
      where no key starts. */
  lemma FirstMatch(line: string, p: nat, pairs: seq<(string, string)>) returns (e: nat)
    requires p <= |line| && line[p..] == PairsLine(pairs)
    requires |pairs| > 1 && ReadablePair(pairs[0]) && ReadablePair(pairs[1])
    ensures p < e < |line| && !KeyColonAt(line, e) && line[e + 1..] == PairsLine(pairs[1..])
    ensures PairMatchAt(line, p) == Some((pairs[0].0, pairs[0].1, e))
  {
    var k := pairs[0].0;
    var t := pairs[0].1;
    e := p + |k| + 2 + |t|;
    PairPieces(line, p, k, t, PairsTail(pairs[1..]));
    assert pairs[1..][0] == pairs[1];
    NextPair(line, e, pairs[1..]);
    PairAt(line, p, k, t, e);
  }

  /** A match that ends where no key starts is found, and the search
      goes on one character later. */
  lemma TakeThenSkip(line: string, p: nat, pair: (string, string), e: nat)
    requires p < e < |line| && PairMatchAt(line, p) == Some((pair.0, pair.1, e))
    requires !KeyColonAt(line, e)
    ensures FindPairs(line, p) == [pair] + FindPairs(line, e + 1)
  {
    FindPairsTake(line, p, (pair.0, pair.1, e));
    FindPairsSkip(line, e);
    assert pair == (pair.0, pair.1);
  }

  /** Where no match starts, the search moves on by one character. */
  lemma FindPairsNoMatch(line: string, p: nat)
    requires p < |line| && PairMatchAt(line, p).None?
    ensures FindPairs(line, p) == FindPairs(line, p + 1)
  {
  }

  /** No match starts where no key starts, and the search moves on by
      one character. */
  lemma FindPairsSkip(line: string, p: nat)
    requires p < |line| && !KeyColonAt(line, p)
    ensures FindPairs(line, p) == FindPairs(line, p + 1)
  {
  }

  /** Where a space and the next pairs follow, the space starts no match
      and the next key matches `[a-zA-Z_]\w*:`. */
  lemma NextPair(line: string, e: nat, pairs: seq<(string, string)>)
    requires e <= |line| && line[e..] == " " + PairsLine(pairs)
    requires pairs != [] && ReadablePair(pairs[0])
    ensures e < |line| && line[e] == ' ' && !KeyColonAt(line, e)
    ensures KeyColonAt(line, e + 1) && line[e + 1..] == PairsLine(pairs)
  {
    ConsSlice(line, e, ' ', PairsLine(pairs));
    KeyAtStart(line, e + 1, pairs);
    assert !IsIdentStart(line[e]);
  }

  /** A key and its colon start a line of pairs. */
  lemma KeyAtStart(line: string, q: nat, pairs: seq<(string, string)>)
    requires q <= |line| && line[q..] == PairsLine(pairs)
    requires pairs != [] && ReadablePair(pairs[0])
    ensures KeyColonAt(line, q)
  {
    var k := pairs[0].0;
    PairPieces(line, q, k, pairs[0].1, PairsTail(pairs[1..]));
    KeyColonOf(line, q, k);
  }

  // ---------------------------------------------------------------------
  // The dict read back

  /** `strip()` leaves an identifier as it is. */
  lemma IdentifierStripped(k: string)
    requires IsValidIdentifier(k)
    ensures Strip(k) == k
  {
    if |k| > 1 {
      assert k[|k| - 1] == k[1..][|k| - 2];
    }
    StrippedFixed(k);
  }

  /** A sequence with no element twice. */
  predicate Distinct<T(==)>(s: seq<T>) {
    forall i, j :: 0 <= i < j < |s| ==> s[i] != s[j]
  }

  /** The keys of the pairs, in order. */
  function PairKeys(pairs: seq<(string, string)>): (ks: seq<string>)
    ensures |ks| == |pairs|
  {
    if pairs == [] then [] else [pairs[0].0] + PairKeys(pairs[1..])
  }

  lemma {:induction false} PairKeysAt(pairs: seq<(string, string)>, i: nat)
    requires i < |pairs|
    ensures PairKeys(pairs)[i] == pairs[i].0
    decreases i
  {
    if i > 0 {
      PairKeysAt(pairs[1..], i - 1);
    }
  }

  /** No key occurs twice. */
  predicate DistinctKeys(pairs: seq<(string, string)>) {
    Distinct(PairKeys(pairs))
  }

  /** With distinct keys, `obj[key.strip()] = parse_primitive_value(
      value.strip())` adds each pair in turn after the ones before it. */
  lemma PairsDictDistinct(pairs: seq<(string, string)>, n: nat)
    requires n <= |pairs| && DistinctKeys(pairs)
    requires forall j :: 0 <= j < |pairs| ==> ReadablePair(pairs[j])
    ensures var r := PairsDict(pairs, n);
      |r| == n && forall i :: 0 <= i < n ==> r[i] == (pairs[i].0, ParsePrimitiveValue(pairs[i].1))
  {
    DictKeys(pairs, n);
    forall i | 0 <= i < n ensures PairsDict(pairs, n)[i] == (pairs[i].0, ParsePrimitiveValue(pairs[i].1)) {
      DictValue(pairs, n, i);
    }
  }

  /** The dict of the first n pairs has their keys, in order. */
  lemma {:induction false} DictKeys(pairs: seq<(string, string)>, n: nat)
    requires n <= |pairs| && DistinctKeys(pairs)
    requires forall j :: 0 <= j < |pairs| ==> ReadablePair(pairs[j])
    ensures KeysOf(PairsDict(pairs, n)) == PairKeys(pairs[..n])
    decreases n
  {
    if n == 0 {
      assert PairsDict(pairs, n) == [];
    } else {
      DictKeys(pairs, n - 1);
      DictStep(pairs, n);
    }
  }

  /** The i-th entry of the dict of the first n pairs is the i-th pair,
      its value parsed. */
  lemma {:induction false} DictValue(pairs: seq<(string, string)>, n: nat, i: nat)
    requires i < n <= |pairs| && DistinctKeys(pairs)
    requires forall j :: 0 <= j < |pairs| ==> ReadablePair(pairs[j])
    ensures |PairsDict(pairs, n)| == n
    ensures PairsDict(pairs, n)[i] == (pairs[i].0, ParsePrimitiveValue(pairs[i].1))
    decreases n
  {
    DictKeys(pairs, n - 1);
    DictStep(pairs, n);
    if i < n - 1 {
      DictValue(pairs, n - 1, i);
    }
  }

  /** Adding the n-th pair, whose key is none of those before it, appends
      it to the dict. */
  lemma DictStep(pairs: seq<(string, string)>, n: nat)
    requires 0 < n <= |pairs| && DistinctKeys(pairs) && ReadablePair(pairs[n - 1])
    requires KeysOf(PairsDict(pairs, n - 1)) == PairKeys(pairs[..n - 1])
    ensures PairsDict(pairs, n) == PairsDict(pairs, n - 1) + [(pairs[n - 1].0, ParsePrimitiveValue(pairs[n - 1].1))]
    ensures KeysOf(PairsDict(pairs, n)) == PairKeys(pairs[..n])
  {
    var k := pairs[n - 1].0;
    PairKeysPrefix(pairs, n);
    DistinctLast(PairKeys(pairs), n);
    NewKeyAppended(pairs, n);
    KeysOfAppend(PairsDict(pairs, n - 1), (k, ParsePrimitiveValue(pairs[n - 1].1)));
  }

  /** The keys of the first n pairs, and of the first n - 1 with the n-th
      key after them. */
  lemma PairKeysPrefix(pairs: seq<(string, string)>, n: nat)
    requires 0 < n <= |pairs|
    ensures PairKeys(pairs[..n - 1]) == PairKeys(pairs)[..n - 1]
    ensures PairKeys(pairs[..n]) == PairKeys(pairs)[..n - 1] + [pairs[n - 1].0]
    ensures PairKeys(pairs)[n - 1] == pairs[n - 1].0
  {
    var ks := PairKeys(pairs);
    PrefixKeys(pairs, n - 1);
    PrefixKeys(pairs, n);
    PairKeysAt(pairs, n - 1);
    PrefixLast(ks, n);
  }

  lemma PrefixLast<T>(s: seq<T>, n: nat)
    requires 0 < n <= |s|
    ensures s[..n] == s[..n - 1] + [s[n - 1]]
  {
  }

  lemma PrefixKeys(pairs: seq<(string, string)>, m: nat)
    requires m <= |pairs|
    ensures PairKeys(pairs[..m]) == PairKeys(pairs)[..m]
  {
    var a := PairKeys(pairs[..m]);
    var b := PairKeys(pairs)[..m];
    forall i | 0 <= i < m ensures a[i] == b[i] {
      PairKeysAt(pairs[..m], i);
      PairKeysAt(pairs, i);
    }
  }

  /** In a sequence with no element twice, the n-th element is not among
      the ones before it. */
  lemma DistinctLast<T>(s: seq<T>, n: nat)
    requires 0 < n <= |s| && Distinct(s)
    ensures s[n - 1] !in s[..n - 1]
  {
  }

  lemma KeysOfAppend(entries: seq<(string, Value)>, e: (string, Value))
    ensures KeysOf(entries + [e]) == KeysOf(entries) + [e.0]
  {
  }

  /** A key new to the dict of the pairs before it is added at its end. */
  lemma NewKeyAppended(pairs: seq<(string, string)>, n: nat)
    requires 0 < n <= |pairs| && ReadablePair(pairs[n - 1])
    requires pairs[n - 1].0 !in KeysOf(PairsDict(pairs, n - 1))
    ensures PairsDict(pairs, n) == PairsDict(pairs, n - 1) + [(pairs[n - 1].0, ParsePrimitiveValue(pairs[n - 1].1))]
  {
    IdentifierStripped(pairs[n - 1].0);
    StrippedFixed(pairs[n - 1].1);
  }

  /** A line of pairs with distinct identifier keys and bare values reads
      back, under `_parse_single_line_object`, as the dict of those keys,
      in line order, each with its value parsed. */
  lemma SingleLineReadsBack(pairs: seq<(string, string)>)
    requires DistinctKeys(pairs)
    requires forall j :: 0 <= j < |pairs| ==> ReadablePair(pairs[j])
    ensures var r := SingleLineObject(PairsLine(pairs));
      |r| == |pairs| && forall i :: 0 <= i < |pairs| ==> r[i] == (pairs[i].0, ParsePrimitiveValue(pairs[i].1))
  {
    var line := PairsLine(pairs);
    assert line[0..] == line;
    FindPairsReadsBack(line, 0, pairs);
    PairsDictDistinct(pairs, |pairs|);
  }

  // ---------------------------------------------------------------------
  // What the encoder writes on one line

  /** `" ".join` of `key: value` texts is the line of those pairs. */
  lemma {:induction false} JoinedPairs(texts: seq<string>, pairs: seq<(string, string)>)
    requires |texts| == |pairs|
    requires forall j :: 0 <= j < |pairs| ==> texts[j] == pairs[j].0 + ": " + pairs[j].1
    ensures Join(texts, " ") == PairsLine(pairs)
    decreases |pairs|
  {
    if |pairs| == 1 {
      assert PairsTail(pairs[1..]) == [];
    } else if |pairs| > 1 {
      JoinedPairs(texts[1..], pairs[1..]);
      assert PairsLine(pairs) == texts[0] + " " + PairsLine(pairs[1..]);
    }
  }

  /** The i-th text `_encode_object` puts on a single line is the i-th key,
      a colon and a space, and that key's value. */
  lemma {:induction false} PairTextsAt(o: EncodeOptions, entries: seq<(string, Value)>, keys: seq<string>, i: nat)
    requires !Multiline(entries) && forall k :: k in keys ==> k in KeysOf(entries)
    requires i < |keys|
    ensures var v := entries[IndexOfKey(entries, keys[i])].1;
      IsScalar(v) && PairTexts(o, entries, keys)[i] == keys[i] + ": " + FormatScalar(v, o.delimiter)
    decreases |keys|
  {
    var n := |keys| - 1;
    var j := IndexOfKey(entries, keys[i]);
    assert !NeedsOwnLines(entries[j].1);
    if i < n {
      assert forall k :: k in keys[..n] ==> k in keys;
      PairTextsAt(o, entries, keys[..n], i);
      assert keys[..n][i] == keys[i];
    }
  }

  lemma {:induction false} DistinctOnce<T>(s: seq<T>, x: T)
    requires Distinct(s)
    ensures multiset(s)[x] <= 1
    decreases |s|
  {
    if s != [] {
      DistinctOnce(s[1..], x);
      assert s == [s[0]] + s[1..];
      if s[0] == x {
        assert x !in s[1..];
      }
    }
  }

  /** A permutation of a sequence with no element twice has none twice. */
  lemma PermutationDistinct<T>(a: seq<T>, b: seq<T>)
    requires multiset(a) == multiset(b) && Distinct(b)
    ensures Distinct(a)
  {
    forall i, j | 0 <= i < j < |a| ensures a[i] != a[j] {
      if a[i] == a[j] {
        assert a == a[..i] + [a[i]] + a[i + 1..j] + [a[j]] + a[j + 1..];
        assert multiset(a)[a[i]] >= 2;
        DistinctOnce(b, a[i]);
        assert false;
      }
    }
  }

  /** The keys of a dict with no key twice, in sorted order, are distinct. */
  lemma SortedKeysDistinct(entries: seq<(string, Value)>)
    requires UniqueKeys(entries)
    ensures Distinct(SortedKeys(entries))
  {
    var ks := KeysOf(entries);
    assert Distinct(ks);
    PermutationDistinct(SortedKeys(entries), ks);
  }

  /** A bare scalar's text can stand as the value of a pair. */
  lemma ScalarPairValue(k: string, v: Value, d: char)
    requires IsValidIdentifier(k) && IsDelimiter(d) && PlainScalar(v, d)
    ensures ReadablePair((k, FormatScalar(v, d)))
    ensures ParsePrimitiveValue(FormatScalar(v, d)) == v
  {
    PlainScalarField(v, d);
    PlainTokenChars(v, d);
    ScalarText(v, d);
  }

  /** A dict whose keys are identifiers and whose values are bare scalars,
      written on one line as `_encode_object` does (sorted keys, `key:
      value` joined by spaces), reads back under `_parse_single_line_object`
      as the same dict: the same keys, in sorted order, each with its own
      value. */
  lemma EncodedPairsReadBack(o: EncodeOptions, entries: seq<(string, Value)>)
    requires IsDelimiter(o.delimiter) && UniqueKeys(entries)
    requires forall j :: 0 <= j < |entries| ==>
      IsValidIdentifier(entries[j].0) && PlainScalar(entries[j].1, o.delimiter)
    ensures !Multiline(entries)
    ensures var keys := SortedKeys(entries);
      var r := SingleLineObject(Join(PairTexts(o, entries, keys), " "));
      |r| == |entries| && KeysOf(r) == keys &&
      forall i :: 0 <= i < |r| ==> Get(entries, r[i].0) == Some(r[i].1)
  {
    ScalarsOnOneLine(o, entries);
    var keys := SortedKeys(entries);
    var pairs := EncodedPairs(o, entries, keys);
    SingleLineReadsBack(pairs);
    var r := SingleLineObject(Join(PairTexts(o, entries, keys), " "));
    forall i | 0 <= i < |keys| ensures r[i] == (keys[i], entries[IndexOfKey(entries, keys[i])].1) {
    }
    SameEntries(entries, keys, r);
  }

  /** Entries that pair each of the dict's sorted keys with its value are
      the dict's entries, in that order. */
  lemma SameEntries(entries: seq<(string, Value)>, keys: seq<string>, r: seq<(string, Value)>)
    requires multiset(keys) == multiset(KeysOf(entries)) && forall k :: k in keys ==> k in KeysOf(entries)
    requires |r| == |keys|
    requires forall i :: 0 <= i < |keys| ==> r[i] == (keys[i], entries[IndexOfKey(entries, keys[i])].1)
    ensures |r| == |entries| && KeysOf(r) == keys
    ensures forall i :: 0 <= i < |r| ==> Get(entries, r[i].0) == Some(r[i].1)
  {
    SameSize(keys, KeysOf(entries));
    SameKeys(keys, r);
    forall i | 0 <= i < |r| ensures Get(entries, r[i].0) == Some(r[i].1) {
      assert keys[i] in keys;
      GetIndexed(entries, keys[i]);
    }
  }

  lemma SameSize<T>(a: seq<T>, b: seq<T>)
    requires multiset(a) == multiset(b)
    ensures |a| == |b|
  {
    assert |a| == |multiset(a)| && |b| == |multiset(b)|;
  }

  lemma SameKeys(keys: seq<string>, r: seq<(string, Value)>)
    requires |r| == |keys| && forall i :: 0 <= i < |keys| ==> r[i].0 == keys[i]
    ensures KeysOf(r) == keys
  {
  }

  lemma GetIndexed(entries: seq<(string, Value)>, k: string)
    requires k in KeysOf(entries)
    ensures Get(entries, k) == Some(entries[IndexOfKey(entries, k)].1)
  {
  }

  /** Bare scalars never need lines of their own. */
  lemma ScalarsOnOneLine(o: EncodeOptions, entries: seq<(string, Value)>)
    requires forall j :: 0 <= j < |entries| ==> PlainScalar(entries[j].1, o.delimiter)
    ensures !Multiline(entries)
  {
    forall j | 0 <= j < |entries| ensures !NeedsOwnLines(entries[j].1) {
      PlainTokenChars(entries[j].1, o.delimiter);
    }
  }

  /** The pairs `_encode_object` writes on one line for the sorted keys of
      a dict of identifier keys and bare scalars: each can be read back,
      no key occurs twice, and each value's text parses to the value. */
  lemma EncodedPairs(o: EncodeOptions, entries: seq<(string, Value)>, keys: seq<string>)
    returns (pairs: seq<(string, string)>)
    requires IsDelimiter(o.delimiter) && UniqueKeys(entries) && keys == SortedKeys(entries)
    requires forall j :: 0 <= j < |entries| ==>
      IsValidIdentifier(entries[j].0) && PlainScalar(entries[j].1, o.delimiter)
    requires !Multiline(entries)
    ensures |pairs| == |keys| && DistinctKeys(pairs)
    ensures Join(PairTexts(o, entries, keys), " ") == PairsLine(pairs)
    ensures forall i :: 0 <= i < |keys| ==>
      pairs[i].0 == keys[i] && ReadablePair(pairs[i]) &&
      ParsePrimitiveValue(pairs[i].1) == entries[IndexOfKey(entries, keys[i])].1
  {
    var d := o.delimiter;
    SortedKeysDistinct(entries);
    var texts := PairTexts(o, entries, keys);
    pairs := seq(|keys|, i requires 0 <= i < |keys| =>
      (keys[i], FormatScalar(entries[IndexOfKey(entries, keys[i])].1, d)));
    forall i | 0 <= i < |keys|
      ensures texts[i] == pairs[i].0 + ": " + pairs[i].1 && ReadablePair(pairs[i])
      ensures ParsePrimitiveValue(pairs[i].1) == entries[IndexOfKey(entries, keys[i])].1
    {
      var j := IndexOfKey(entries, keys[i]);
      PairTextsAt(o, entries, keys, i);
      ScalarPairValue(keys[i], entries[j].1, d);
    }
    JoinedPairs(texts, pairs);
    forall i | 0 <= i < |keys| ensures PairKeys(pairs)[i] == keys[i] {
      PairKeysAt(pairs, i);
    }
  }

  // ---------------------------------------------------------------------
  // What a single-line object cannot carry

  /** A string with a colon is always written quoted, and no value the
      pair pattern finds on any line is that quoted text: such a value is
      lost on the way back. */
  lemma ColonStringLost(line: string, s: string, d: char)
    requires ':' in s
    ensures FormatScalar(Str(s), d) == QuoteString(s)
    ensures forall j :: 0 <= j < |FindPairs(line, 0)| ==> FindPairs(line, 0)[j].1 != FormatScalar(Str(s), d)
  {
    StringWrittenRawIff(s, d);
    QuotedKeepsColon(s);
    FindPairsShape(line, 0);
  }

  /** A header with columns and text after its colon is read as a
      single-line object whose keys come from that text: the declared
      columns play no part. */
  lemma ColumnsIgnored(lines: seq<string>, h: HeaderInfo, cols: seq<ColumnDef>, d: char)
    requires lines != [] && h.rest != [] && h.columns != [] && cols != []
    ensures BlockResult(lines, h, d) == BlockResult(lines, h.(columns := cols), d)
    ensures BlockResult(lines, h, d) == Parsed(Map(SingleLineObject(h.rest)), 1)
  {
  }
}

=== FILE: text.dfy ===
/** String operations the Python source takes from `str` and `re`,
    restricted to ASCII: character classes, strip, lower, replace, join,
    split and decimal integers. */
module Text {

  // ---------------------------------------------------------------------
  // Character classes

  /** `c.isspace()` (and the regex class `\s`) on ASCII: space, \t, \n,
      \v, \f, \r and the separators \x1c to \x1f. */
  predicate IsSpace(c: char) {
    c == ' ' || c == '\t' || c == '\n' || c == '\r' || c == '\U{0B}' || c == '\U{0C}'
    || ('\U{1C}' <= c <= '\U{1F}')
  }

  predicate IsDigit(c: char) {
    '0' <= c <= '9'
  }

  predicate IsAlpha(c: char) {
    ('a' <= c <= 'z') || ('A' <= c <= 'Z')
  }

  /** `c.isalnum()` on ASCII. */
  predicate IsAlnum(c: char) {
    IsAlpha(c) || IsDigit(c)
  }

  /** The regex class `\w` on ASCII. */
  predicate IsWordChar(c: char) {
    IsAlnum(c) || c == '_'
  }

  /** The regex class `[a-zA-Z_]` that starts an identifier. */
  predicate IsIdentStart(c: char) {
    IsAlpha(c) || c == '_'
  }

  predicate AllSpace(s: string) {
    forall j :: 0 <= j < |s| ==> IsSpace(s[j])
  }

  predicate AllDigits(s: string) {
    forall j :: 0 <= j < |s| ==> IsDigit(s[j])
  }

  // ---------------------------------------------------------------------
  // Prefixes, suffixes, occurrences

  predicate StartsWith(s: string, p: string) {
    |p| <= |s| && s[..|p|] == p
  }

  predicate EndsWith(s: string, p: string) {
    |p| <= |s| && s[|s| - |p|..] == p
  }

  /** `p in s` for a substring p. */
  predicate ContainsSub(s: string, p: string) {
    StartsWith(s, p) || (s != [] && ContainsSub(s[1..], p))
  }

  /** A string shorter than p does not contain it. */
  lemma {:induction false} ShortNotContains(s: string, p: string)
    requires |s| < |p|
    ensures !ContainsSub(s, p)
  {
    if s != [] {
      ShortNotContains(s[1..], p);
    }
  }

  /** `s.count(c)` for a one-character c. */
  function CountChar(s: string, c: char): (n: nat)
    ensures n <= |s|
    ensures n == 0 <==> c !in s
  {
    if s == [] then 0 else (if s[0] == c then 1 else 0) + CountChar(s[1..], c)
  }

  lemma {:induction false} CountCharAppend(a: string, b: string, c: char)
    ensures CountChar(a + b, c) == CountChar(a, c) + CountChar(b, c)
  {
    if a != [] {
      assert (a + b)[0] == a[0];
      assert (a + b)[1..] == a[1..] + b;
      CountCharAppend(a[1..], b, c);
    } else {
      assert a + b == b;
    }
  }

  // ---------------------------------------------------------------------
  // strip

  /** `s.lstrip()`: s without its leading whitespace. */
  function LStrip(s: string): (r: string)
    ensures |r| <= |s| && r == s[|s| - |r|..]
    ensures AllSpace(s[..|s| - |r|])
    ensures r == [] || !IsSpace(r[0])
  {
    s[LStripStart(s, 0)..]
  }

  /** Where the text of s[i..] starts once its leading whitespace is cut. */
  function LStripStart(s: string, i: nat): (b: nat)
    requires i <= |s|
    ensures i <= b <= |s| && AllSpace(s[i..b]) && (b == |s| || !IsSpace(s[b]))
    decreases |s| - i
  {
    if i < |s| && IsSpace(s[i]) then
      var b := LStripStart(s, i + 1);
      assert s[i..b] == [s[i]] + s[i + 1..b];
      b
    else i
  }

  /** Only one index has the properties LStripStart promises. */
  lemma LStripStartUnique(s: string, i: nat, b: nat)
    requires i <= b <= |s| && AllSpace(s[i..b]) && (b == |s| || !IsSpace(s[b]))
    ensures LStripStart(s, i) == b
  {
    var f := LStripStart(s, i);
    forall m | i <= m < f ensures IsSpace(s[m]) {
      assert s[i..f][m - i] == s[m];
    }
    forall m | i <= m < b ensures IsSpace(s[m]) {
      assert s[i..b][m - i] == s[m];
    }
  }

  /** Where the text of s[..n] ends once its trailing whitespace is cut. */
  function RStripEnd(s: string, n: nat): (e: nat)
    requires n <= |s|
    ensures e <= n && AllSpace(s[e..n]) && (e == 0 || !IsSpace(s[e - 1]))
    decreases n
  {
    if n > 0 && IsSpace(s[n - 1]) then
      var e := RStripEnd(s, n - 1);
      assert s[e..n] == s[e..n - 1] + [s[n - 1]];
      e
    else n
  }

  /** Only one index has the properties RStripEnd promises. */
  lemma RStripEndUnique(s: string, n: nat, e: nat)
    requires e <= n <= |s| && AllSpace(s[e..n]) && (e == 0 || !IsSpace(s[e - 1]))
    ensures RStripEnd(s, n) == e
  {
    var f := RStripEnd(s, n);
    forall m | f <= m < n ensures IsSpace(s[m]) {
      assert s[f..n][m - f] == s[m];
    }
    forall m | e <= m < n ensures IsSpace(s[m]) {
      assert s[e..n][m - e] == s[m];
    }
  }

  /** `s.rstrip()`: s without its trailing whitespace. */
  function RStrip(s: string): (r: string)
    ensures |r| <= |s| && r == s[..|r|]
    ensures AllSpace(s[|r|..])
    ensures r == [] || !IsSpace(r[|r| - 1])
  {
    s[..RStripEnd(s, |s|)]
  }

  lemma PrefixOfPrefix<T>(s: seq<T>, k: nat, n: nat)
    requires k <= n <= |s|
    ensures s[..n][..k] == s[..k]
  {
  }

  /** `s.strip()`. */
  function Strip(s: string): string {
    RStrip(LStrip(s))
  }

  /** A string that `strip()` leaves unchanged. */
  predicate IsStripped(s: string) {
    s == [] || (!IsSpace(s[0]) && !IsSpace(s[|s| - 1]))
  }

  /** `line.strip()` is empty: the decoder's blank line. */
  predicate IsBlank(line: string) {
    AllSpace(line)
  }

  lemma LStripSpacePrefix(a: string, x: string)
    requires AllSpace(a)
    ensures LStrip(a + x) == LStrip(x)
  {
    var s := a + x;
    var e := LStripStart(x, 0);
    var b := |a| + e;
    assert s[0..b] == a + x[0..e];
    if b < |s| {
      assert s[b] == x[e];
    }
    LStripStartUnique(s, 0, b);
    assert s[b..] == x[e..];
  }

  lemma RStripSpaceSuffix(x: string, b: string)
    requires AllSpace(b)
    ensures RStrip(x + b) == RStrip(x)
  {
    var s := x + b;
    var e := RStripEnd(x, |x|);
    assert s[e..|s|] == x[e..] + b;
    if e > 0 {
      assert s[e - 1] == x[e - 1];
    }
    RStripEndUnique(s, |s|, e);
    assert s[..e] == x[..e];
  }

  /** Stripping a stripped string padded with whitespace gives it back. */
  lemma StripPadded(a: string, f: string, b: string)
    requires AllSpace(a) && AllSpace(b) && IsStripped(f)
    ensures Strip(a + f + b) == f
  {
    assert a + f + b == a + (f + b);
    LStripSpacePrefix(a, f + b);
    if f == [] {
      assert f + b == b;
      assert LStrip(b) == [];
    } else {
      assert LStrip(f + b) == f + b;
      RStripSpaceSuffix(f, b);
    }
  }

  lemma StripResultIsStripped(s: string)
    ensures IsStripped(Strip(s))
  {
    var l := LStrip(s);
    var r := RStrip(l);
    assert r == l[..|r|];
    if r != [] {
      assert r[0] == l[0];
    }
  }

  lemma StrippedFixed(s: string)
    requires IsStripped(s)
    ensures Strip(s) == s
  {
    assert AllSpace(s[0..0]);
    LStripStartUnique(s, 0, 0);
    assert LStrip(s) == s;
    assert AllSpace(s[|s|..|s|]);
    RStripEndUnique(s, |s|, |s|);
  }

  /** `s == s.strip()` exactly when s neither starts nor ends with
      whitespace. */
  lemma StripFixedIff(s: string)
    ensures Strip(s) == s <==> IsStripped(s)
  {
    if IsStripped(s) {
      StrippedFixed(s);
    } else {
      StripResultIsStripped(s);
    }
  }

  lemma StripBlank(s: string)
    ensures IsBlank(s) <==> Strip(s) == []
  {
    if IsBlank(s) {
      StripPadded(s, [], []);
      assert s + [] + [] == s;
    } else {
      var l := LStrip(s);
      assert l != [] && !IsSpace(l[0]);
      assert l[0..] == l;
    }
  }

  // ---------------------------------------------------------------------
  // lower, replace, join, split

  function LowerChar(c: char): char {
    if 'A' <= c <= 'Z' then (c as int + 32) as char else c
  }

  /** `s.lower()` on ASCII letters. */
  function Lower(s: string): (r: string)
    ensures |r| == |s|
    ensures forall j :: 0 <= j < |s| ==> r[j] == LowerChar(s[j])
  {
    seq(|s|, j requires 0 <= j < |s| => LowerChar(s[j]))
  }

  /** `s.replace(pat, sub)`: every non-overlapping occurrence of pat,
      scanning from the left, is replaced by sub. */
  function Replace(s: string, pat: string, sub: string): string
    requires |pat| > 0
    decreases |s|
  {
    if s == [] then []
    else if StartsWith(s, pat) then sub + Replace(s[|pat|..], pat, sub)
    else [s[0]] + Replace(s[1..], pat, sub)
  }

  /** Replacing by text at least as long never shortens the string. */
  lemma {:induction false} ReplaceNotShorter(s: string, pat: string, sub: string)
    requires 0 < |pat| <= |sub|
    ensures |Replace(s, pat, sub)| >= |s|
    decreases |s|
  {
    if s != [] {
      if StartsWith(s, pat) {
        ReplaceNotShorter(s[|pat|..], pat, sub);
      } else {
        ReplaceNotShorter(s[1..], pat, sub);
      }
    }
  }

  /** Replacing a single character distributes over concatenation. */
  lemma {:induction false} ReplaceCharAppend(a: string, b: string, p: char, sub: string)
    ensures Replace(a + b, [p], sub) == Replace(a, [p], sub) + Replace(b, [p], sub)
  {
    if a == [] {
      assert a + b == b;
    } else {
      assert (a + b)[0] == a[0];
      assert (a + b)[1..] == a[1..] + b;
      assert StartsWith(a + b, [p]) <==> a[0] == p;
      assert StartsWith(a, [p]) <==> a[0] == p;
      ReplaceCharAppend(a[1..], b, p, sub);
    }
  }

  /** The first and last characters after replacing a single character. */
  lemma ReplaceCharEnds(s: string, p: char, sub: string)
    requires s != [] && sub != []
    ensures Replace(s, [p], sub) != []
    ensures Replace(s, [p], sub)[0] == (if s[0] == p then sub[0] else s[0])
    ensures var r := Replace(s, [p], sub);
      r[|r| - 1] == (if s[|s| - 1] == p then sub[|sub| - 1] else s[|s| - 1])
  {
    assert StartsWith(s, [p]) <==> s[0] == p;
    var a, l := s[..|s| - 1], s[|s| - 1];
    assert s == a + [l];
    ReplaceCharAppend(a, [l], p, sub);
    assert StartsWith([l], [p]) <==> l == p;
    assert [l][1..] == [];
  }

  /** `sep.join(parts)`. */
  function Join(parts: seq<string>, sep: string): string {
    if parts == [] then []
    else if |parts| == 1 then parts[0]
    else parts[0] + sep + Join(parts[1..], sep)
  }

  /** Taking the head off a sequence and appending it first changes
      nothing. */
  lemma ConsSplit<T>(a: seq<T>, s: seq<T>)
    requires s != []
    ensures a + [s[0]] + s[1..] == a + s
  {
    assert [s[0]] + s[1..] == s;
  }

  lemma ConsAt<T>(h: T, s: seq<T>, i: nat)
    requires i < |s|
    ensures |[h] + s| == |s| + 1 && ([h] + s)[i + 1] == s[i]
  {
  }

  lemma SliceOfSlice<T>(s: seq<T>, i: nat, j: nat)
    requires i <= j <= |s|
    ensures s[i..][j - i..] == s[j..]
  {
  }

  lemma SuffixOfConcat<T>(a: seq<T>, b: seq<T>)
    ensures (a + b)[|a|..] == b && (a + b)[|a|..|a + b|] == b
  {
  }

  lemma PrefixStep<T>(s: seq<T>, i: nat)
    requires i < |s|
    ensures s[..i + 1][..i] == s[..i] && s[..i + 1][i] == s[i] && |s[..i + 1]| == i + 1
  {
  }

  lemma PrefixAll<T>(s: seq<T>)
    ensures s[..|s|] == s
  {
  }

  lemma DropTwo<T>(s: seq<T>)
    requires |s| >= 2
    ensures s == [s[0], s[1]] + s[2..]
  {
  }

  lemma ConsTwo<T>(a: T, b: T, s: seq<T>)
    ensures [a] + ([b] + s) == [a, b] + s
  {
  }

  lemma JoinCons(parts: seq<string>, sep: string)
    requires |parts| > 1
    ensures Join(parts, sep) == parts[0] + sep + Join(parts[1..], sep)
  {
  }

  /** The first character of a join is the first part's, the last is the
      last part's, when no part is empty. */
  lemma {:induction false} JoinEnds(parts: seq<string>, sep: string)
    requires parts != [] && forall j :: 0 <= j < |parts| ==> parts[j] != []
    ensures var r := Join(parts, sep); var last := parts[|parts| - 1];
      r != [] && r[0] == parts[0][0] && r[|r| - 1] == last[|last| - 1]
    decreases |parts|
  {
    if |parts| > 1 {
      JoinEnds(parts[1..], sep);
    }
  }

  /** Joining stripped, non-empty parts gives a stripped, non-empty text. */
  lemma JoinStripped(parts: seq<string>, sep: string)
    requires parts != []
    requires forall j :: 0 <= j < |parts| ==> parts[j] != [] && IsStripped(parts[j])
    ensures Join(parts, sep) != [] && IsStripped(Join(parts, sep))
  {
    JoinEnds(parts, sep);
    var last := parts[|parts| - 1];
    assert IsStripped(parts[0]) && IsStripped(last);
  }

  /** `s.split(c)` for a one-character separator c. */
  function SplitOn(s: string, c: char): (r: seq<string>)
    ensures |r| >= 1
  {
    SplitFrom(s, c, [])
  }

  function SplitFrom(s: string, c: char, cur: string): (r: seq<string>)
    ensures |r| >= 1
  {
    if s == [] then [cur]
    else if s[0] == c then [cur] + SplitFrom(s[1..], c, [])
    else SplitFrom(s[1..], c, cur + [s[0]])
  }

  lemma {:induction false} SplitFromPlain(a: string, rest: string, c: char, cur: string)
    requires c !in a
    ensures SplitFrom(a + rest, c, cur) == SplitFrom(rest, c, cur + a)
  {
    if a == [] {
      assert a + rest == rest;
      assert cur + a == cur;
    } else {
      assert (a + rest)[1..] == a[1..] + rest;
      assert cur + [a[0]] + a[1..] == cur + a;
      SplitFromPlain(a[1..], rest, c, cur + [a[0]]);
    }
  }

  /** Splitting lines joined by c gives the lines back when none of them
      contains c (`"\n".join` then `split("\n")`). */
  lemma {:induction false} SplitJoin(lines: seq<string>, c: char)
    requires |lines| >= 1
    requires forall j :: 0 <= j < |lines| ==> c !in lines[j]
    ensures SplitOn(Join(lines, [c]), c) == lines
  {
    if |lines| == 1 {
      SplitFromPlain(lines[0], [], c, []);
      assert lines[0] + [] == lines[0];
    } else {
      var tail := Join(lines[1..], [c]);
      assert Join(lines, [c]) == lines[0] + ([c] + tail);
      SplitFromPlain(lines[0], [c] + tail, c, []);
      assert ([c] + tail)[1..] == tail;
      SplitJoin(lines[1..], c);
      assert [] + lines[0] == lines[0];
    }
  }

  /** The position of the first c in s (`s.index(c)`): what
      `s.split(c, 1)` splits at. */
  function IndexOf(s: string, c: char): (j: nat)
    requires c in s
    ensures j < |s| && s[j] == c && c !in s[..j]
  {
    assert s[0..] == s;
    var j := IndexFrom(s, c, 0);
    assert forall m :: 0 <= m < j ==> s[..j][m] == s[m];
    j
  }

  /** The position of the first c in s from i on. */
  function IndexFrom(s: string, c: char, i: nat): (j: nat)
    requires i <= |s| && c in s[i..]
    ensures i <= j < |s| && s[j] == c
    ensures forall m :: i <= m < j ==> s[m] != c
    decreases |s| - i
  {
    if s[i] == c then i
    else
      assert s[i..] == [s[i]] + s[i + 1..];
      IndexFrom(s, c, i + 1)
  }

  // ---------------------------------------------------------------------
  // Ordering strings as Python compares them, and `sorted`

  /** `a <= b` on Python strings: code point by code point, a proper prefix
      first. */
  predicate LexLe(a: string, b: string)
    decreases |a|
  {
    a == [] || (b != [] && (a[0] < b[0] || (a[0] == b[0] && LexLe(a[1..], b[1..]))))
  }

  lemma {:induction false} LexTotal(a: string, b: string)
    ensures LexLe(a, b) || LexLe(b, a)
    decreases |a|
  {
    if a != [] && b != [] && a[0] == b[0] {
      LexTotal(a[1..], b[1..]);
    }
  }

  lemma {:induction false} LexReflexive(a: string)
    ensures LexLe(a, a)
    decreases |a|
  {
    if a != [] {
      LexReflexive(a[1..]);
    }
  }

  lemma {:induction false} LexTrans(a: string, b: string, c: string)
    requires LexLe(a, b) && LexLe(b, c)
    ensures LexLe(a, c)
    decreases |a|
  {
    if a != [] && a[0] == b[0] && b[0] == c[0] {
      LexTrans(a[1..], b[1..], c[1..]);
    }
  }

  lemma {:induction false} LexAntisymmetric(a: string, b: string)
    requires LexLe(a, b) && LexLe(b, a)
    ensures a == b
    decreases |a|
  {
    if a != [] {
      LexAntisymmetric(a[1..], b[1..]);
      assert a == [a[0]] + a[1..] && b == [b[0]] + b[1..];
    }
  }

  predicate SortedStrings(s: seq<string>) {
    forall i, j :: 0 <= i < j < |s| ==> LexLe(s[i], s[j])
  }

  /** Puts x in front of the first element it does not exceed. */
  function InsertString(x: string, s: seq<string>): (r: seq<string>)
    requires SortedStrings(s)
    ensures SortedStrings(r) && multiset(r) == multiset(s) + multiset{x}
  {
    if s == [] then [x]
    else
      HeadTail(s);
      if LexLe(x, s[0]) then
        assert forall j :: 0 <= j < |s| ==> LexLe(x, s[j]) by {
          forall j | 0 < j < |s| { LexTrans(x, s[0], s[j]); }
        }
        ConsSorted(x, s);
        [x] + s
      else
        var t := InsertString(x, s[1..]);
        assert LexLe(s[0], x) by { LexTotal(x, s[0]); }
        assert forall j :: 0 <= j < |t| ==> LexLe(s[0], t[j]) by {
          forall j | 0 <= j < |t|
            ensures LexLe(s[0], t[j])
          {
            assert t[j] in multiset(t);
            if t[j] != x {
              assert t[j] in multiset(s[1..]);
              var k :| 0 <= k < |s[1..]| && s[1..][k] == t[j];
              assert s[k + 1] == t[j];
            }
          }
        }
        ConsSorted(s[0], t);
        [s[0]] + t
  }

  lemma HeadTail<T>(s: seq<T>)
    requires s != []
    ensures s == [s[0]] + s[1..] && multiset(s) == multiset{s[0]} + multiset(s[1..])
  {
    assert s == [s[0]] + s[1..];
  }

  /** A sorted sequence stays sorted with an element in front that does
      not exceed any of it. */
  lemma ConsSorted(h: string, t: seq<string>)
    requires SortedStrings(t) && forall j :: 0 <= j < |t| ==> LexLe(h, t[j])
    ensures SortedStrings([h] + t)
  {
    var r := [h] + t;
    forall i, j | 0 <= i < j < |r| ensures LexLe(r[i], r[j]) {
      assert r[j] == t[j - 1];
      if i > 0 {
        assert r[i] == t[i - 1];
      }
    }
  }

  /** `sorted(s)` for strings. */
  function SortStrings(s: seq<string>): (r: seq<string>)
    ensures SortedStrings(r) && multiset(r) == multiset(s)
  {
    if s == [] then []
    else
      assert s == s[..|s| - 1] + [s[|s| - 1]];
      InsertString(s[|s| - 1], SortStrings(s[..|s| - 1]))
  }

  lemma SortedHeadsEqual(a: seq<string>, b: seq<string>)
    requires SortedStrings(a) && SortedStrings(b) && multiset(a) == multiset(b) && a != []
    ensures b != [] && a[0] == b[0]
  {
    assert a[0] in multiset(b);
    assert b[0] in multiset(a);
    var i :| 0 <= i < |b| && b[i] == a[0];
    var k :| 0 <= k < |a| && a[k] == b[0];
    assert LexLe(b[0], a[0]) by { if i == 0 { LexReflexive(a[0]); } }
    assert LexLe(a[0], b[0]) by { if k == 0 { LexReflexive(a[0]); } }
    LexAntisymmetric(a[0], b[0]);
  }

  lemma MultisetTail(a: seq<string>)
    requires a != []
    ensures multiset(a[1..]) == multiset(a) - multiset{a[0]}
  {
    assert a == [a[0]] + a[1..];
  }

  /** A sorted arrangement of given strings is unique, so it is the one
      any sorting algorithm returns. */
  lemma {:induction false} SortedUnique(a: seq<string>, b: seq<string>)
    requires SortedStrings(a) && SortedStrings(b) && multiset(a) == multiset(b)
    ensures a == b
    decreases |a|
  {
    if a != [] {
      SortedHeadsEqual(a, b);
      MultisetTail(a);
      MultisetTail(b);
      SortedUnique(a[1..], b[1..]);
      assert a == [a[0]] + a[1..] && b == [b[0]] + b[1..];
    } else {
      assert |b| == |multiset(b)| == 0;
    }
  }

  // ---------------------------------------------------------------------
  // Indentation

  function Spaces(n: nat): (r: string)
    ensures |r| == n && AllSpace(r)
    ensures forall j :: 0 <= j < n ==> r[j] == ' '
  {
    seq(n, _ => ' ')
  }

  lemma AllSpaceAppend(a: string, b: string)
    requires AllSpace(a) && AllSpace(b)
    ensures AllSpace(a + b)
  {
    forall j | 0 <= j < |a + b| ensures IsSpace((a + b)[j]) {
      if j < |a| {
        assert (a + b)[j] == a[j];
      } else {
        assert (a + b)[j] == b[j - |a|];
      }
    }
  }

  /** `len(line) - len(line.lstrip())`. */
  function IndentOf(line: string): (n: nat)
    ensures n <= |line|
  {
    |line| - |LStrip(line)|
  }

  /** A line that starts with n spaces is indented by at least n. */
  lemma IndentAtLeast(pad: string, rest: string)
    requires AllSpace(pad)
    ensures IndentOf(pad + rest) >= |pad|
    ensures rest != [] && !IsSpace(rest[0]) ==> IndentOf(pad + rest) == |pad|
  {
    LStripSpacePrefix(pad, rest);
  }

  // ---------------------------------------------------------------------
  // Decimal integers: `str(i)` and `int(s)`

  function DigitChar(d: nat): char
    requires d < 10
  {
    ('0' as int + d) as char
  }

  /** `str(n)` for a natural number. */
  function NatToString(n: nat): (r: string)
    ensures |r| >= 1 && AllDigits(r)
    decreases n
  {
    if n < 10 then [DigitChar(n)] else NatToString(n / 10) + [DigitChar(n % 10)]
  }

  /** `str(i)`: decimal digits with a leading `-` for a negative number. */
  function IntToString(i: int): (r: string)
    ensures |r| >= 1
  {
    if i < 0 then "-" + NatToString(-i) else NatToString(i)
  }

  /** The value of a run of decimal digits (`int(s)`, leading zeros allowed). */
  function DigitsValue(s: string): nat
    requires AllDigits(s)
  {
    if s == [] then 0 else DigitsValue(s[..|s| - 1]) * 10 + (s[|s| - 1] as int - '0' as int)
  }

  lemma {:induction false} DigitsValueOfNat(n: nat)
    ensures DigitsValue(NatToString(n)) == n
    decreases n
  {
    if n >= 10 {
      var s := NatToString(n);
      assert s[..|s| - 1] == NatToString(n / 10);
      DigitsValueOfNat(n / 10);
    }
  }
}

=== FILE: types.dfy ===
/** The value model shared by the encoder and the decoder (the JSONValue
    union and the TONLType enum of pytonl/types.py). */
module Types {

  datatype Option<+T> = None | Some(value: T)

  /** A JSON-like value. A Python float is kept as an opaque token: the text
      the decoder read, or the text `str(float)` would print. A map is an
      ordered sequence of key/value pairs, in Python dict insertion order. */
  datatype Value =
    | Null
    | Bool(b: bool)
    | Int(i: int)
    | Float(token: string)
    | Str(s: string)
    | List(items: seq<Value>)
    | Map(entries: seq<(string, Value)>)

  /** True for the values the source treats as primitives (None, bool, int,
      float, str). */
  predicate IsScalar(v: Value) {
    !v.List? && !v.Map?
  }

  /** The TONLType enum: the type hints a header column may carry. */
  datatype TONLType = NullType | BoolType | U32 | I32 | F64 | StrType | ObjType | ListType

  /** The enum's value, as written into a header (`TONLType.X.value`). */
  function TypeName(t: TONLType): string {
    match t
    case NullType => "null"
    case BoolType => "bool"
    case U32 => "u32"
    case I32 => "i32"
    case F64 => "f64"
    case StrType => "str"
    case ObjType => "obj"
    case ListType => "list"
  }

  /** `TONLType(s)`: the member whose value is `s`, or None where Python
      raises the ValueError the decoder catches. */
  function TypeFromName(s: string): (r: Option<TONLType>)
    ensures r.Some? ==> TypeName(r.value) == s
  {
    if s == "null" then Some(NullType)
    else if s == "bool" then Some(BoolType)
    else if s == "u32" then Some(U32)
    else if s == "i32" then Some(I32)
    else if s == "f64" then Some(F64)
    else if s == "str" then Some(StrType)
    else if s == "obj" then Some(ObjType)
    else if s == "list" then Some(ListType)
    else None
  }

  /** Every member's value converts back to that member. */
  lemma TypeNameRoundTrip(t: TONLType)
    ensures TypeFromName(TypeName(t)) == Some(t)
  {
  }

  // ---------------------------------------------------------------------
  // Ordered maps, as Python dicts behave

  function KeysOf(entries: seq<(string, Value)>): (ks: seq<string>)
    ensures |ks| == |entries|
    ensures forall j :: 0 <= j < |entries| ==> ks[j] == entries[j].0
  {
    seq(|entries|, j requires 0 <= j < |entries| => entries[j].0)
  }

  predicate UniqueKeys(entries: seq<(string, Value)>) {
    forall j, k :: 0 <= j < k < |entries| ==> entries[j].0 != entries[k].0
  }

  /** `d.get(k)`: the value stored under k. */
  function Get(entries: seq<(string, Value)>, k: string): (r: Option<Value>)
    ensures r.None? <==> k !in KeysOf(entries)
    ensures r.Some? ==> exists j :: 0 <= j < |entries| && entries[j] == (k, r.value)
  {
    if entries == [] then None
    else if entries[0].0 == k then Some(entries[0].1)
    else
      var r := Get(entries[1..], k);
      assert r.Some? ==> exists j :: 0 <= j < |entries[1..]| && entries[1..][j] == (k, r.value);
      r
  }

  /** Where `d[k]` reads: the position of k's first entry. */
  function IndexOfKey(entries: seq<(string, Value)>, k: string): (j: nat)
    requires k in KeysOf(entries)
    ensures j < |entries| && entries[j].0 == k && Get(entries, k) == Some(entries[j].1)
  {
    if entries[0].0 == k then 0
    else
      assert k in KeysOf(entries[1..]) by {
        var i :| 0 <= i < |entries| && KeysOf(entries)[i] == k;
        assert KeysOf(entries[1..])[i - 1] == k;
      }
      IndexOfKey(entries[1..], k) + 1
  }

  /** `set(d.keys())`. */
  function KeySet(entries: seq<(string, Value)>): (ks: set<string>)
    ensures forall k :: k in ks <==> k in KeysOf(entries)
  {
    set j | 0 <= j < |entries| :: entries[j].0
  }

  /** `d[k] = v`: an existing key keeps its position and takes the new
      value, a new key is appended. */
  function Put(entries: seq<(string, Value)>, k: string, v: Value): (r: seq<(string, Value)>)
    ensures k in KeysOf(entries) ==> |r| == |entries|
    ensures k !in KeysOf(entries) ==> r == entries + [(k, v)]
  {
    if k in KeysOf(entries) then Replaced(entries, k, v) else entries + [(k, v)]
  }

  /** The entries with every entry of key k holding v instead. */
  function Replaced(entries: seq<(string, Value)>, k: string, v: Value): seq<(string, Value)> {
    seq(|entries|, j requires 0 <= j < |entries| => if entries[j].0 == k then (k, v) else entries[j])
  }

  /** `d[k] = v` seen from the first entry. */
  lemma PutSplit(entries: seq<(string, Value)>, k: string, v: Value)
    requires entries != []
    ensures var tail := entries[1..];
      Put(entries, k, v) == [if entries[0].0 == k then (k, v) else entries[0]]
        + (if entries[0].0 == k && k !in KeysOf(tail) then tail else Put(tail, k, v))
  {
    var tail := entries[1..];
    if k !in KeysOf(entries) {
      forall i | 0 <= i < |tail| ensures KeysOf(tail)[i] != k {
        assert KeysOf(tail)[i] == KeysOf(entries)[i + 1];
      }
      assert entries + [(k, v)] == [entries[0]] + (tail + [(k, v)]);
    } else {
      ReplacedCons(entries, k, v);
      if k !in KeysOf(tail) {
        ReplacedNone(tail, k, v);
      }
    }
  }

  lemma ReplacedCons(entries: seq<(string, Value)>, k: string, v: Value)
    requires entries != []
    ensures Replaced(entries, k, v) ==
      [if entries[0].0 == k then (k, v) else entries[0]] + Replaced(entries[1..], k, v)
  {
  }

  lemma ReplacedNone(entries: seq<(string, Value)>, k: string, v: Value)
    requires k !in KeysOf(entries)
    ensures Replaced(entries, k, v) == entries
  {
    forall j | 0 <= j < |entries| ensures Replaced(entries, k, v)[j] == entries[j] {
      assert KeysOf(entries)[j] == entries[j].0;
    }
  }

  /** On a dict with distinct keys, `d[k] = v` keeps the keys distinct,
      replaces the value of k in place and leaves every other entry. */
  lemma PutInPlace(entries: seq<(string, Value)>, k: string, v: Value)
    requires UniqueKeys(entries)
    ensures UniqueKeys(Put(entries, k, v))
    ensures forall j :: 0 <= j < |entries| ==>
      Put(entries, k, v)[j] == (if entries[j].0 == k then (k, v) else entries[j])
  {
    var r := Put(entries, k, v);
    forall j | 0 <= j < |entries| ensures r[j] == (if entries[j].0 == k then (k, v) else entries[j]) {
      assert KeysOf(entries)[j] == entries[j].0;
    }
    forall a, b | 0 <= a < b < |r| ensures r[a].0 != r[b].0 {
      if b < |entries| {
        assert r[a].0 == entries[a].0 && r[b].0 == entries[b].0;
      } else {
        assert k !in KeysOf(entries) && r[b] == (k, v);
        assert r[a].0 == entries[a].0 == KeysOf(entries)[a];
      }
    }
  }

  /** After `d[k] = v`, looking k up gives v, and every other key keeps its
      value. */
  lemma {:induction false} GetAfterPut(entries: seq<(string, Value)>, k: string, v: Value, other: string)
    ensures Get(Put(entries, k, v), k) == Some(v)
    ensures other != k ==> Get(Put(entries, k, v), other) == Get(entries, other)
  {
    var r := Put(entries, k, v);
    if entries == [] {
      assert k !in KeysOf(entries);
      assert r == [(k, v)];
    } else {
      var tail := entries[1..];
      PutSplit(entries, k, v);
      if entries[0].0 == k && k !in KeysOf(tail) {
        assert r[1..] == tail;
      } else {
        GetAfterPut(tail, k, v, other);
        assert r[1..] == Put(tail, k, v);
      }
    }
  }
}

=== FILE: utils.dfy ===
/** The lexical layer of pytonl/utils.py: quoting, numeric literals,
    primitive tokens, the quote-aware field splitter, type inference,
    delimiter selection and the inline `key: value` scanner. */
module Utils {
  import opened Types
  import opened Text

  // ---------------------------------------------------------------------
  // Type inference

  /** `infer_type`: bool is tested before int; ints split into u32, i32
      and f64 by range. */
  function InferType(v: Value): (t: TONLType)
    ensures t == U32 <==> v.Int? && 0 <= v.i <= 0xFFFF_FFFF
    ensures t == I32 <==> v.Int? && -0x8000_0000 <= v.i < 0
    ensures t == F64 <==> v.Float? || (v.Int? && (v.i < -0x8000_0000 || v.i > 0xFFFF_FFFF))
    ensures t == BoolType <==> v.Bool?
    ensures t == NullType <==> v.Null?
    ensures t == StrType <==> v.Str?
    ensures t == ListType <==> v.List?
    ensures t == ObjType <==> v.Map?
  {
    match v
    case Null => NullType
    case Bool(_) => BoolType
    case Int(i) =>
      if 0 <= i <= 0xFFFF_FFFF then U32
      else if -0x8000_0000 <= i <= 0x7FFF_FFFF then I32
      else F64
    case Float(_) => F64
    case Str(_) => StrType
    case List(_) => ListType
    case Map(_) => ObjType
  }

  // ---------------------------------------------------------------------
  // Numeric literals: `^-?\d+\.?\d*([eE][+-]?\d+)?$`

  /** The length of the run of digits that starts s. */
  function LeadingDigits(s: string): (n: nat)
    ensures n <= |s| && AllDigits(s[..n])
    ensures n == |s| || !IsDigit(s[n])
  {
    if s != [] && IsDigit(s[0]) then
      var n := 1 + LeadingDigits(s[1..]);
      assert s[..n] == [s[0]] + s[1..][..n - 1];
      n
    else 0
  }

  /** `[eE][+-]?\d+`, the whole of e. */
  predicate IsExponent(e: string) {
    |e| >= 2 && (e[0] == 'e' || e[0] == 'E') &&
    var g := if e[1] == '+' || e[1] == '-' then e[2..] else e[1..];
    |g| >= 1 && AllDigits(g)
  }

  /** s without one leading minus sign. */
  function Unsigned(s: string): string {
    if s != [] && s[0] == '-' then s[1..] else s
  }

  /** The part of the regex after `-?`: `\d+\.?\d*([eE][+-]?\d+)?` up to
      the end of t. */
  predicate IsUnsignedNumber(t: string) {
    var n := LeadingDigits(t);
    n >= 1 &&
    var r := t[n..];
    var r2 := if r != [] && r[0] == '.' then r[1..] else r;
    var e := r2[LeadingDigits(r2)..];
    e == [] || IsExponent(e)
  }

  /** `is_number(s)`: the regex matched from the start of s to its end. */
  predicate IsNumber(s: string) {
    IsUnsignedNumber(Unsigned(s))
  }

  lemma AllDigitsLeading(d: string)
    requires AllDigits(d)
    ensures LeadingDigits(d) == |d|
  {
    if d != [] {
      AllDigitsLeading(d[1..]);
    }
  }

  /** After the leading digits, a numeric literal goes on only with `.`,
      `e` or `E`. */
  lemma NumberStopChar(t: string)
    ensures var n := LeadingDigits(t);
      n < |t| && t[n] != '.' && t[n] != 'e' && t[n] != 'E' ==> !IsUnsignedNumber(t)
  {
    var n := LeadingDigits(t);
    if n < |t| && t[n] != '.' && t[n] != 'e' && t[n] != 'E' {
      var r := t[n..];
      assert r[0] == t[n];
      assert LeadingDigits(r) == 0;
      assert r[0..] == r;
    }
  }

  lemma UnsignedChars(s: string)
    ensures forall j :: 0 <= j < |Unsigned(s)| ==> Unsigned(s)[j] in s
  {
  }

  /** A numeric literal with neither `.` nor an exponent is `-?\d+`. */
  lemma IntegerLiteral(s: string)
    requires IsNumber(s) && '.' !in s && 'e' !in s && 'E' !in s
    ensures Unsigned(s) != [] && AllDigits(Unsigned(s))
  {
    var t := Unsigned(s);
    NumberStopChar(t);
    UnsignedChars(s);
    assert LeadingDigits(t) == |t|;
    assert t[..|t|] == t;
  }

  /** The same, stated on the lower-cased token as the parser tests it. */
  lemma IntegerToken(t: string)
    requires IsNumber(t) && '.' !in t && 'e' !in Lower(t)
    ensures Unsigned(t) != [] && AllDigits(Unsigned(t))
  {
    assert forall j :: 0 <= j < |t| && (t[j] == 'e' || t[j] == 'E') ==> Lower(t)[j] == 'e';
    IntegerLiteral(t);
  }

  /** `int(s)` for a token of the form `-?\d+`. */
  function IntValue(s: string): int
    requires Unsigned(s) != [] && AllDigits(Unsigned(s))
  {
    if s[0] == '-' then -(DigitsValue(s[1..]) as int) else DigitsValue(s)
  }

  /** `str(i)` is a numeric literal that reads back as i. */
  lemma IntLiteralRoundTrip(i: int)
    ensures IsNumber(IntToString(i))
    ensures '.' !in IntToString(i) && 'e' !in IntToString(i) && 'E' !in IntToString(i)
    ensures IntValue(IntToString(i)) == i
  {
    var s := IntToString(i);
    var d := if i < 0 then NatToString(-i) else NatToString(i);
    assert Unsigned(s) == d;
    AllDigitsLeading(d);
    assert d[|d|..] == [];
    if i < 0 {
      DigitsValueOfNat(-i);
      assert s[1..] == d;
      assert forall j :: 0 <= j < |s| ==> s[j] == '-' || IsDigit(s[j]) by {
        forall j | 0 <= j < |s| ensures s[j] == '-' || IsDigit(s[j]) {
          if j > 0 { assert s[j] == d[j - 1]; }
        }
      }
    } else {
      DigitsValueOfNat(i);
      assert forall j :: 0 <= j < |s| ==> IsDigit(s[j]);
    }
  }

  // ---------------------------------------------------------------------
  // Quoting

  /** The lower-cased words that must be quoted to stay strings. */
  predicate IsReservedWord(w: string) {
    w == "null" || w == "true" || w == "false" || w == "undefined"
    || w == "infinity" || w == "-infinity" || w == "nan"
  }

  /** `needs_quoting(value, delimiter, in_tabular_context=inTabular)`. */
  predicate NeedsQuoting(value: string, delimiter: char, inTabular: bool) {
    if value == [] then true
    else if delimiter in value then true
    else if '\n' in value || '\r' in value || '\t' in value || '"' in value || '\\' in value then true
    else if !inTabular && ':' in value then true
    else if value != Strip(value) then true
    else if IsReservedWord(Lower(value)) then true
    else IsNumber(value)
  }

  /** `needs_quoting` quotes exactly the strings that are empty, hold the
      delimiter, a line break, a tab, a quote or a backslash, hold a colon
      outside a tabular row, start or end with whitespace, spell a reserved
      word in any case, or look like a number. */
  lemma NeedsQuotingExactly(value: string, delimiter: char, inTabular: bool)
    ensures NeedsQuoting(value, delimiter, inTabular) <==>
      value == [] || delimiter in value ||
      '\n' in value || '\r' in value || '\t' in value || '"' in value || '\\' in value ||
      (!inTabular && ':' in value) ||
      IsSpace(value[0]) || IsSpace(value[|value| - 1]) ||
      IsReservedWord(Lower(value)) || IsNumber(value)
  {
    StripFixedIff(value);
  }

  const Quote3: string := "\"\"\""

  /** `quote_string`: triple quotes when the value holds a newline or `"""`
      (backslashes doubled, `"""` escaped as `\"""`), otherwise one pair of
      quotes (backslashes doubled, quotes doubled). */
  function QuoteString(value: string): string {
    if '\n' in value || ContainsSub(value, Quote3) then
      var escaped := Replace(Replace(value, "\\", "\\\\"), Quote3, "\\\"\"\"");
      Quote3 + escaped + Quote3
    else
      var escaped := Replace(Replace(value, "\\", "\\\\"), "\"", "\"\"");
      "\"" + escaped + "\""
  }

  /** `unquote_string`. The triple-quote form is tried first. */
  function UnquoteString(value: string): string {
    UnquoteStripped(Strip(value))
  }

  /** `unquote_string` after its `strip()`. */
  function UnquoteStripped(v: string): string {
    if StartsWith(v, Quote3) && EndsWith(v, Quote3) && |v| >= 6 then
      Replace(Replace(v[3..|v| - 3], "\\\"\"\"", Quote3), "\\\\", "\\")
    else if StartsWith(v, "\"") && EndsWith(v, "\"") && |v| >= 2 then
      Replace(Replace(v[1..|v| - 1], "\"\"", "\""), "\\\\", "\\")
    else v
  }

  // ---------------------------------------------------------------------
  // Primitive tokens

  /** `parse_primitive_value`. A float keeps its text as an opaque token;
      `float("inf")`, `float("-inf")` and `float("nan")` are the tokens
      Python prints for them. */
  function ParsePrimitiveValue(valueStr: string): (v: Value)
    ensures IsScalar(v)
  {
    ParseToken(Strip(valueStr))
  }

  /** `parse_primitive_value` after its `strip()`. */
  function ParseToken(t: string): (v: Value)
    ensures IsScalar(v)
  {
    if (StartsWith(t, "\"") && EndsWith(t, "\"")) || (StartsWith(t, Quote3) && EndsWith(t, Quote3)) then
      Str(UnquoteString(t))
    else if t == "null" || t == "" then Null
    else if t == "true" then Bool(true)
    else if t == "false" then Bool(false)
    else if IsNumber(t) then
      if '.' in t || 'e' in Lower(t) then Float(t)
      else
        IntegerToken(t);
        Int(IntValue(t))
    else if Lower(t) == "infinity" then Float("inf")
    else if Lower(t) == "-infinity" then Float("-inf")
    else if Lower(t) == "nan" then Float("nan")
    else Str(t)
  }

  /** The text the encoder writes for a scalar (`_encode_primitive` and the
      row and single-line formatting): strings are quoted exactly when
      `needs_quoting` says so. */
  function FormatScalar(v: Value, delimiter: char): string
    requires IsScalar(v)
  {
    match v
    case Null => "null"
    case Bool(b) => if b then "true" else "false"
    case Int(i) => IntToString(i)
    case Float(token) => token
    case Str(s) => if NeedsQuoting(s, delimiter, false) then QuoteString(s) else s
  }

  // ---------------------------------------------------------------------
  // Quoting round trip

  /** A string in which every backslash is the first of an escaped pair
      `\\`, as the escaping step of `quote_string` leaves it. */
  predicate BackslashesPaired(x: string)
    decreases |x|
  {
    x == [] ||
    (x[0] != '\\' && BackslashesPaired(x[1..])) ||
    (x[0] == '\\' && |x| >= 2 && x[1] == '\\' && BackslashesPaired(x[2..]))
  }

  lemma {:induction false} EscapedIsPaired(s: string)
    ensures BackslashesPaired(Replace(s, "\\", "\\\\"))
  {
    if s != [] {
      EscapedIsPaired(s[1..]);
      var r := Replace(s[1..], "\\", "\\\\");
      if s[0] == '\\' {
        assert Replace(s, "\\", "\\\\") == "\\\\" + r;
        assert ("\\\\" + r)[2..] == r;
      } else {
        assert Replace(s, "\\", "\\\\") == [s[0]] + r;
        assert ([s[0]] + r)[1..] == r;
      }
    }
  }

  /** Undoing the doubled backslashes gives the original string back. */
  lemma {:induction false} UnescapeBackslashes(s: string)
    ensures Replace(Replace(s, "\\", "\\\\"), "\\\\", "\\") == s
  {
    if s != [] {
      var x := Replace(s[1..], "\\", "\\\\");
      UnescapeBackslashes(s[1..]);
      if s[0] == '\\' {
        assert Replace(s, "\\", "\\\\") == "\\\\" + x;
        assert ("\\\\" + x)[2..] == x;
        assert s == "\\" + s[1..];
      } else {
        assert Replace(s, "\\", "\\\\") == [s[0]] + x;
        assert ([s[0]] + x)[1..] == x;
        assert !StartsWith([s[0]] + x, "\\\\");
        assert s == [s[0]] + s[1..];
      }
    }
  }

  /** Undoubling the doubled quotes gives the string back. */
  lemma {:induction false} UndoubleQuotes(x: string)
    ensures Replace(Replace(x, "\"", "\"\""), "\"\"", "\"") == x
  {
    if x != [] {
      var y := Replace(x[1..], "\"", "\"\"");
      UndoubleQuotes(x[1..]);
      if x[0] == '"' {
        assert Replace(x, "\"", "\"\"") == "\"\"" + y;
        assert ("\"\"" + y)[2..] == y;
        assert x == "\"" + x[1..];
      } else {
        assert Replace(x, "\"", "\"\"") == [x[0]] + y;
        assert ([x[0]] + y)[1..] == y;
        assert !StartsWith([x[0]] + y, "\"\"");
        assert x == [x[0]] + x[1..];
      }
    }
  }

  const EscapedQuote3: string := "\\\"\"\""

  /** The first character left by the `"""` escape. */
  lemma EscapeQuote3Head(y: string)
    requires y != []
    ensures var r := Replace(y, Quote3, EscapedQuote3);
      r != [] && r[0] == (if StartsWith(y, Quote3) then '\\' else y[0])
  {
  }

  /** Where the `"""` escape does not apply, it copies one character. */
  lemma EscapeQuote3Step(y: string)
    requires y != [] && !StartsWith(y, Quote3)
    ensures Replace(y, Quote3, EscapedQuote3) == [y[0]] + Replace(y[1..], Quote3, EscapedQuote3)
  {
  }

  /** Escaping `"""` never leaves a string that starts with `"""`. */
  lemma NoQuote3Prefix(y: string)
    ensures !StartsWith(Replace(y, Quote3, EscapedQuote3), Quote3)
  {
    if y == [] {
    } else if StartsWith(y, Quote3) || y[0] != '"' || |y| == 1 {
      EscapeQuote3Head(y);
    } else {
      if |y| >= 3 {
        assert y[..3] == [y[0], y[1], y[2]];
      }
      EscapeQuote3Step(y);
      NoQuote3PrefixAfterQuote(y[1..]);
    }
  }

  /** After a quote that does not open `"""`, the escaped rest does not
      start with `""`. */
  lemma NoQuote3PrefixAfterQuote(y1: string)
    requires y1 != []
    requires !(|y1| >= 2 && y1[0] == '"' && y1[1] == '"')
    ensures var r := Replace(y1, Quote3, EscapedQuote3);
      |r| < 2 || r[0] != '"' || r[1] != '"'
  {
    EscapeQuote3Head(y1);
    if y1[0] == '"' {
      EscapeQuote3Step(y1);
      if |y1| >= 2 {
        EscapeQuote3Head(y1[1..]);
      }
    }
  }

  lemma UnescapeQuote3Head(y: string)
    ensures Replace(EscapedQuote3 + y, EscapedQuote3, Quote3) == Quote3 + Replace(y, EscapedQuote3, Quote3)
  {
    assert StartsWith(EscapedQuote3 + y, EscapedQuote3);
    assert (EscapedQuote3 + y)[4..] == y;
  }

  lemma UnescapeQuote3Char(c: char, y: string)
    requires c != '\\'
    ensures Replace([c] + y, EscapedQuote3, Quote3) == [c] + Replace(y, EscapedQuote3, Quote3)
  {
    assert ([c] + y)[1..] == y;
  }

  lemma UnescapeQuote3Pair(y: string)
    requires !StartsWith(y, Quote3)
    ensures Replace("\\\\" + y, EscapedQuote3, Quote3) == "\\\\" + Replace(y, EscapedQuote3, Quote3)
  {
    var by1 := "\\" + y;
    assert ("\\\\" + y)[1..] == by1;
    assert by1[1..] == y;
    assert !StartsWith("\\\\" + y, EscapedQuote3) by {
      assert ("\\\\" + y)[1] == '\\';
    }
    assert !StartsWith(by1, EscapedQuote3) by {
      if |y| >= 3 {
        assert by1[1..4] == y[..3];
      }
    }
  }

  /** Where the `"""` escape applies, it replaces three characters. */
  lemma EscapeQuote3Match(x: string)
    requires StartsWith(x, Quote3)
    ensures Replace(x, Quote3, EscapedQuote3) == EscapedQuote3 + Replace(x[3..], Quote3, EscapedQuote3)
    ensures x == Quote3 + x[3..]
  {
  }

  /** The tails of a string with paired backslashes. */
  lemma PairedTail(x: string)
    requires BackslashesPaired(x) && x != []
    ensures x[0] != '\\' ==> BackslashesPaired(x[1..])
    ensures x[0] == '\\' ==> |x| >= 2 && x[1] == '\\' && BackslashesPaired(x[2..])
  {
  }

  /** The round trip of the `"""` escape, one step at a time: where the
      escape applies, ... */
  lemma UnescapeQuote3Triple(x: string)
    requires StartsWith(x, Quote3)
    requires Replace(Replace(x[3..], Quote3, EscapedQuote3), EscapedQuote3, Quote3) == x[3..]
    ensures Replace(Replace(x, Quote3, EscapedQuote3), EscapedQuote3, Quote3) == x
  {
    EscapeQuote3Match(x);
    UnescapeQuote3Head(Replace(x[3..], Quote3, EscapedQuote3));
  }

  /** ... where it copies a character other than a backslash, ... */
  lemma UnescapeQuote3Copy(x: string)
    requires x != [] && !StartsWith(x, Quote3) && x[0] != '\\'
    requires Replace(Replace(x[1..], Quote3, EscapedQuote3), EscapedQuote3, Quote3) == x[1..]
    ensures Replace(Replace(x, Quote3, EscapedQuote3), EscapedQuote3, Quote3) == x
  {
    EscapeQuote3Step(x);
    UnescapeQuote3Char(x[0], Replace(x[1..], Quote3, EscapedQuote3));
    assert x == [x[0]] + x[1..];
  }

  /** ... and where it copies an escaped backslash. */
  lemma UnescapeQuote3Backslashes(x: string)
    requires |x| >= 2 && x[0] == '\\' && x[1] == '\\'
    requires Replace(Replace(x[2..], Quote3, EscapedQuote3), EscapedQuote3, Quote3) == x[2..]
    ensures Replace(Replace(x, Quote3, EscapedQuote3), EscapedQuote3, Quote3) == x
  {
    var y := Replace(x[2..], Quote3, EscapedQuote3);
    EscapeQuote3Backslashes(x);
    calc {
      Replace("\\\\" + y, EscapedQuote3, Quote3);
      { NoQuote3Prefix(x[2..]); UnescapeQuote3Pair(y); }
      "\\\\" + x[2..];
      { DropTwo(x); }
      x;
    }
  }

  lemma EscapeQuote3Backslashes(x: string)
    requires |x| >= 2 && x[0] == '\\' && x[1] == '\\'
    ensures Replace(x, Quote3, EscapedQuote3) == "\\\\" + Replace(x[2..], Quote3, EscapedQuote3)
  {
    var y := Replace(x[2..], Quote3, EscapedQuote3);
    NotQuote3Start(x);
    EscapeQuote3Step(x);
    assert x[1..][0] == '\\' && x[1..][1..] == x[2..];
    NotQuote3Start(x[1..]);
    EscapeQuote3Step(x[1..]);
    assert Replace(x[1..], Quote3, EscapedQuote3) == [x[1]] + y;
    ConsTwo(x[0], x[1], y);
  }

  lemma NotQuote3Start(y: string)
    requires y != [] && y[0] != '"'
    ensures !StartsWith(y, Quote3)
  {
    if |y| >= 3 {
      assert y[..3][0] == y[0];
    }
  }

  /** Undoing the `"""` escape gives back a string whose backslashes are
      paired. */
  lemma {:induction false} UnescapeQuote3(x: string)
    requires BackslashesPaired(x)
    ensures Replace(Replace(x, Quote3, EscapedQuote3), EscapedQuote3, Quote3) == x
    decreases |x|
  {
    if x == [] {
    } else if StartsWith(x, Quote3) {
      PairedTail(x);
      PairedTail(x[1..]);
      PairedTail(x[2..]);
      assert x[1..][1..] == x[2..] && x[2..][1..] == x[3..];
      UnescapeQuote3(x[3..]);
      UnescapeQuote3Triple(x);
    } else if x[0] != '\\' {
      PairedTail(x);
      UnescapeQuote3(x[1..]);
      UnescapeQuote3Copy(x);
    } else {
      PairedTail(x);
      UnescapeQuote3(x[2..]);
      UnescapeQuote3Backslashes(x);
    }
  }

  /** The two forms `quote_string` produces, stated apart from the
      unquoting. */
  lemma QuoteStringForms(s: string)
    ensures var x := Replace(s, "\\", "\\\\");
      QuoteString(s) == if '\n' in s || ContainsSub(s, Quote3)
        then Quote3 + Replace(x, Quote3, EscapedQuote3) + Quote3
        else "\"" + Replace(x, "\"", "\"\"") + "\""
  {
  }

  /** `quote_string` output is wrapped in quotes. */
  lemma QuotedShape(s: string)
    ensures var q := QuoteString(s); |q| >= 2 && q[0] == '"' && q[|q| - 1] == '"'
  {
    QuoteStringForms(s);
  }

  lemma UnquoteStrippedTripleForm(t: string)
    ensures UnquoteStripped(Quote3 + t + Quote3) ==
      Replace(Replace(t, EscapedQuote3, Quote3), "\\\\", "\\")
  {
    var q := Quote3 + t + Quote3;
    assert q[..3] == Quote3 && q[|q| - 3..] == Quote3;
    assert q[3..|q| - 3] == t;
  }

  lemma UnquoteStrippedDoubleForm(e: string)
    requires e == [] || e[0] != '"' || e[|e| - 1] != '"'
    ensures UnquoteStripped("\"" + e + "\"") ==
      Replace(Replace(e, "\"\"", "\""), "\\\\", "\\")
  {
    var q := "\"" + e + "\"";
    if e != [] {
      assert q[1] == e[0] && q[|q| - 2] == e[|e| - 1];
    }
    assert !(StartsWith(q, Quote3) && EndsWith(q, Quote3) && |q| >= 6);
    assert q[..1] == "\"" && q[|q| - 1..] == "\"";
    assert q[1..|q| - 1] == e;
  }

  /** The `strip()` in `unquote_string` does nothing to quoted text. */
  lemma UnquoteQuoted(s: string)
    ensures UnquoteString(QuoteString(s)) == UnquoteStripped(QuoteString(s))
  {
    QuotedShape(s);
    StrippedFixed(QuoteString(s));
  }

  /** The triple-quoted form unquotes to the original. */
  lemma QuoteRoundTripTriple(s: string)
    requires '\n' in s || ContainsSub(s, Quote3)
    ensures UnquoteString(QuoteString(s)) == s
  {
    var x := Replace(s, "\\", "\\\\");
    var t := Replace(x, Quote3, EscapedQuote3);
    calc {
      UnquoteString(QuoteString(s));
      { UnquoteQuoted(s); }
      UnquoteStripped(QuoteString(s));
      { QuoteStringForms(s); }
      UnquoteStripped(Quote3 + t + Quote3);
      { UnquoteStrippedTripleForm(t); }
      Replace(Replace(t, EscapedQuote3, Quote3), "\\\\", "\\");
      { EscapedIsPaired(s); UnescapeQuote3(x); }
      Replace(x, "\\\\", "\\");
      { UnescapeBackslashes(s); }
      s;
    }
  }

  /** The double-quoted form unquotes to the original when s does not both
      begin and end with a quote. */
  lemma QuoteRoundTripDouble(s: string)
    requires !('\n' in s || ContainsSub(s, Quote3))
    requires !(|s| >= 1 && s[0] == '"' && s[|s| - 1] == '"')
    ensures UnquoteString(QuoteString(s)) == s
  {
    var x := Replace(s, "\\", "\\\\");
    var e := Replace(x, "\"", "\"\"");
    if s != [] {
      ReplaceCharEnds(s, '\\', "\\\\");
      ReplaceCharEnds(x, '"', "\"\"");
    }
    calc {
      UnquoteString(QuoteString(s));
      { UnquoteQuoted(s); }
      UnquoteStripped(QuoteString(s));
      { QuoteStringForms(s); }
      UnquoteStripped("\"" + e + "\"");
      { UnquoteStrippedDoubleForm(e); }
      Replace(Replace(e, "\"\"", "\""), "\\\\", "\\");
      { UndoubleQuotes(x); }
      Replace(x, "\\\\", "\\");
      { UnescapeBackslashes(s); }
      s;
    }
  }

  /** `unquote_string(quote_string(s)) == s` for every s that does not both
      begin and end with a double quote. */
  lemma QuoteRoundTrip(s: string)
    requires !(|s| >= 1 && s[0] == '"' && s[|s| - 1] == '"')
    ensures UnquoteString(QuoteString(s)) == s
  {
    if '\n' in s || ContainsSub(s, Quote3) {
      QuoteRoundTripTriple(s);
    } else {
      QuoteRoundTripDouble(s);
    }
  }

  /** The three-character string `"x"`, which begins and ends with a
      quote, is quoted as `"""x"""`. */
  lemma QuoteOfQuotedString(s: string)
    requires s == ['"', 'x', '"']
    ensures QuoteString(s) == Quote3 + "x" + Quote3
  {
    assert !ContainsSub(s, Quote3) by {
      assert s[..3] == s && s[1] != Quote3[1];
      ShortNotContains(s[1..], Quote3);
    }
    assert s == ['"', 'x'] + ['"'];
    assert Replace(s, "\\", "\\\\") == s by {
      ReplaceCharAppend(['"', 'x'], ['"'], '\\', "\\\\");
      ReplaceCharAppend(['"'], ['x'], '\\', "\\\\");
    }
    assert Replace(s, "\"", "\"\"") == "\"\"x\"\"" by {
      ReplaceCharAppend(['"', 'x'], ['"'], '"', "\"\"");
      ReplaceCharAppend(['"'], ['x'], '"', "\"\"");
    }
    QuoteStringForms(s);
  }

  /** Why the round trip needs its precondition: `"x"` is quoted as
      `"""x"""`, which unquotes by the triple-quote rule to `x`, so the
      string comes back without its quotes. */
  lemma QuoteRoundTripFailsOnQuotedString(s: string)
    requires s == ['"', 'x', '"']
    ensures UnquoteString(QuoteString(s)) == "x" != s
  {
    calc {
      UnquoteString(QuoteString(s));
      { UnquoteQuoted(s); QuoteOfQuotedString(s); }
      UnquoteStripped(Quote3 + "x" + Quote3);
      { UnquoteStrippedTripleForm("x"); }
      Replace(Replace("x", EscapedQuote3, Quote3), "\\\\", "\\");
      { assert Replace("x", EscapedQuote3, Quote3) == "x"; }
      Replace("x", "\\\\", "\\");
      "x";
    }
  }

  // ---------------------------------------------------------------------
  // Reading back what the encoder writes

  /** The literals `null`, `true` and `false` are their own lower case. */
  lemma ReservedLiteralsLower(t: string)
    ensures t == "null" ==> Lower(t) == "null"
    ensures t == "true" ==> Lower(t) == "true"
    ensures t == "false" ==> Lower(t) == "false"
  {
  }

  /** Text that does not begin with a quote takes neither quoted branch. */
  lemma NotQuotedToken(t: string)
    requires t != [] && t[0] != '"'
    ensures !StartsWith(t, "\"") && !StartsWith(t, Quote3)
  {
    assert t[..1][0] == t[0];
  }

  /** The `strip()` in `parse_primitive_value` does nothing to a stripped
      token. */
  lemma ParseStripped(t: string)
    requires IsStripped(t)
    ensures ParsePrimitiveValue(t) == ParseToken(t)
  {
    StrippedFixed(t);
  }

  /** What `needs_quoting` rules out for a string it lets through. */
  lemma PlainStringFacts(s: string, delimiter: char, inTabular: bool)
    requires !NeedsQuoting(s, delimiter, inTabular)
    ensures s != [] && IsStripped(s) && s[0] != '"'
    ensures !IsReservedWord(Lower(s)) && !IsNumber(s)
  {
    StripResultIsStripped(s);
  }

  /** The last branch of `parse_primitive_value`: any other text is a
      string. */
  lemma PlainTokenParses(t: string)
    requires t != [] && t[0] != '"'
    requires !IsReservedWord(Lower(t)) && !IsNumber(t)
    ensures ParseToken(t) == Str(t)
  {
    ReservedLiteralsLower(t);
    NotQuotedToken(t);
  }

  /** A string `needs_quoting` lets through unquoted reads back as that
      same string. */
  lemma PlainStringReadsBack(s: string, delimiter: char, inTabular: bool)
    requires !NeedsQuoting(s, delimiter, inTabular)
    ensures ParsePrimitiveValue(s) == Str(s)
  {
    PlainStringFacts(s, delimiter, inTabular);
    ParseStripped(s);
    PlainTokenParses(s);
  }

  /** The characters of `str(i)`. */
  lemma IntLiteralChars(i: int)
    ensures var s := IntToString(i);
      (forall j :: 0 <= j < |s| ==> s[j] == '-' || IsDigit(s[j])) && IsDigit(s[|s| - 1])
  {
    var s := IntToString(i);
    var d := if i < 0 then NatToString(-i) else NatToString(i);
    if i < 0 {
      assert s == "-" + d;
      assert forall j :: 0 < j < |s| ==> s[j] == d[j - 1];
    }
  }

  /** The integer branch of `parse_primitive_value`. */
  lemma IntegerTokenParses(t: string)
    requires t != [] && t[0] != '"'
    requires t != "null" && t != "true" && t != "false"
    requires IsNumber(t) && '.' !in t && 'e' !in Lower(t)
    ensures Unsigned(t) != [] && AllDigits(Unsigned(t))
    ensures ParseToken(t) == Int(IntValue(t))
  {
    IntegerToken(t);
  }

  lemma IntTextShape(i: int)
    ensures var s := IntToString(i);
      s != [] && s[0] != '"' && s[0] != 'n' && s[0] != 't' && s[0] != 'f' && IsStripped(s)
      && forall j :: 0 <= j < |s| ==> Lower(s)[j] != 'e'
  {
    var s := IntToString(i);
    IntLiteralChars(i);
    assert s[0] != '"' && s[0] != 'n' && s[0] != 't' && s[0] != 'f';
    assert forall j :: 0 <= j < |s| ==> Lower(s)[j] != 'e';
  }

  /** `str(i)` reads back as the integer i. */
  lemma IntReadsBack(i: int)
    ensures ParsePrimitiveValue(IntToString(i)) == Int(i)
  {
    var s := IntToString(i);
    IntLiteralRoundTrip(i);
    IntTextShape(i);
    calc {
      ParsePrimitiveValue(s);
      { ParseStripped(s); }
      ParseToken(s);
      { IntegerTokenParses(s); }
      Int(IntValue(s));
    }
  }

  /** The quoted branch of `parse_primitive_value`. */
  lemma QuotedTokenParses(t: string)
    requires |t| >= 2 && t[0] == '"' && t[|t| - 1] == '"'
    ensures ParseToken(t) == Str(UnquoteString(t))
  {
    assert t[..1] == "\"";
    assert StartsWith(t, "\"");
    assert t[|t| - 1..] == "\"";
    assert EndsWith(t, "\"");
  }

  /** Text wrapped in quotes reads back as the unquoted string. */
  lemma QuotedTokenReadsBack(t: string)
    requires |t| >= 2 && t[0] == '"' && t[|t| - 1] == '"'
    ensures ParsePrimitiveValue(t) == Str(UnquoteString(t))
  {
    calc {
      ParsePrimitiveValue(t);
      { ParseStripped(t); }
      ParseToken(t);
      { QuotedTokenParses(t); }
      Str(UnquoteString(t));
    }
  }

  /** A quoted string reads back as s whenever s does not both begin and
      end with a quote. */
  lemma QuotedReadsBack(s: string)
    requires !(|s| >= 1 && s[0] == '"' && s[|s| - 1] == '"')
    ensures ParsePrimitiveValue(QuoteString(s)) == Str(s)
  {
    QuotedShape(s);
    QuoteRoundTrip(s);
    QuotedTokenReadsBack(QuoteString(s));
  }

  /** What the encoder writes for a string reads back as that string. */
  lemma StrReadsBack(s: string, delimiter: char)
    requires !(|s| >= 1 && s[0] == '"' && s[|s| - 1] == '"')
    ensures ParsePrimitiveValue(FormatScalar(Str(s), delimiter)) == Str(s)
  {
    if NeedsQuoting(s, delimiter, false) {
      QuotedReadsBack(s);
    } else {
      PlainStringReadsBack(s, delimiter, false);
    }
  }

  lemma NullReadsBack()
    ensures ParsePrimitiveValue("null") == Null
  {
    var t := "null";
    assert IsStripped(t);
    ParseStripped(t);
    NotQuotedToken(t);
  }

  lemma TrueReadsBack()
    ensures ParsePrimitiveValue("true") == Bool(true)
  {
    var t := "true";
    assert IsStripped(t);
    ParseStripped(t);
    NotQuotedToken(t);
  }

  lemma FalseReadsBack()
    ensures ParsePrimitiveValue("false") == Bool(false)
  {
    var t := "false";
    assert t[0] == 'f' && t[4] == 'e';
    assert IsStripped(t);
    ParseStripped(t);
    NotQuotedToken(t);
    assert t != "null" && t != "" && t != "true";
  }

  /** Every scalar but a float reads back as itself from the text the
      encoder writes for it, provided a string does not both begin and
      end with a double quote. */
  lemma ScalarRoundTrip(v: Value, delimiter: char)
    requires IsScalar(v) && !v.Float?
    requires v.Str? ==> !(|v.s| >= 1 && v.s[0] == '"' && v.s[|v.s| - 1] == '"')
    ensures ParsePrimitiveValue(FormatScalar(v, delimiter)) == v
  {
    match v
    case Null => NullReadsBack();
    case Bool(b) => if b { TrueReadsBack(); } else { FalseReadsBack(); }
    case Int(i) => IntReadsBack(i);
    case Str(s) => StrReadsBack(s, delimiter);
  }


  /** A stripped token that is not quoted, not a literal and does not
      start like a number takes the special-float branches or is a
      string. */
  lemma WordToken(t: string)
    requires IsStripped(t) && t != [] && t[0] != '"'
    requires t != "null" && t != "true" && t != "false"
    requires LeadingDigits(Unsigned(t)) == 0
    ensures ParsePrimitiveValue(t) ==
      if Lower(t) == "infinity" then Float("inf")
      else if Lower(t) == "-infinity" then Float("-inf")
      else if Lower(t) == "nan" then Float("nan")
      else Str(t)
  {
    ParseStripped(t);
    NotQuotedToken(t);
  }

  /** A character whose lower case is a lower-case letter is that letter
      or its upper case, so neither a space, a quote, a minus sign nor a
      digit. */
  lemma LowerLetter(c: char)
    requires 'a' <= LowerChar(c) <= 'z'
    ensures c == LowerChar(c) || c == (LowerChar(c) as int - 32) as char
    ensures !IsSpace(c) && c != '"' && c != '-' && !IsDigit(c)
  {
  }

  /** The word `infinity`, in any case, reads as the float token `inf`. */
  lemma InfinityWordRead(t: string)
    requires Lower(t) == "infinity"
    ensures ParsePrimitiveValue(t) == Float("inf")
  {
    assert LowerChar(t[0]) == 'i' && LowerChar(t[7]) == 'y';
    LowerLetter(t[0]);
    LowerLetter(t[7]);
    assert Unsigned(t) == t;
    assert LeadingDigits(t) == 0;
    WordToken(t);
  }

  /** The word `-infinity`, in any case, reads as the float token `-inf`. */
  lemma NegInfinityWordRead(t: string)
    requires Lower(t) == "-infinity"
    ensures ParsePrimitiveValue(t) == Float("-inf")
  {
    assert LowerChar(t[0]) == '-' && LowerChar(t[1]) == 'i' && LowerChar(t[8]) == 'y';
    assert t[0] == '-';
    LowerLetter(t[1]);
    LowerLetter(t[8]);
    assert Unsigned(t) == t[1..];
    assert LeadingDigits(t[1..]) == 0;
    WordToken(t);
  }

  /** `inf` is neither a number nor a special-float word. */
  lemma InfTokenRead()
    ensures ParsePrimitiveValue("inf") == Str("inf")
  {
    var t := "inf";
    assert LeadingDigits(t) == 0;
    assert Lower(t) == "inf";
    WordToken(t);
  }

  /** Nor is `-inf`. */
  lemma NegInfTokenRead()
    ensures ParsePrimitiveValue("-inf") == Str("-inf")
  {
    var t := "-inf";
    assert Unsigned(t) == "inf";
    assert LeadingDigits("inf") == 0;
    assert Lower(t) == "-inf";
    WordToken(t);
  }

  /** `nan` is the special-float word itself. */
  lemma NanTokenRead()
    ensures ParsePrimitiveValue("nan") == Float("nan")
  {
    var t := "nan";
    assert LeadingDigits(t) == 0;
    assert Lower(t) == "nan";
    WordToken(t);
  }

  /** The word `nan`, in any case, reads as the float token `nan`. */
  lemma NaNWordRead(t: string)
    requires Lower(t) == "nan"
    ensures ParsePrimitiveValue(t) == Float("nan")
  {
    assert LowerChar(t[0]) == 'n' && LowerChar(t[2]) == 'n';
    LowerLetter(t[0]);
    LowerLetter(t[2]);
    assert Unsigned(t) == t;
    assert LeadingDigits(t) == 0;
    WordToken(t);
  }

  /** What the encoder writes for the special floats: `str(float)` gives
      `inf`, `-inf` and `nan`, which the float branch writes unchanged.
      `nan` reads back as a float, while `inf` and `-inf` are neither a
      number nor one of the words above, so they read back as strings. */
  lemma SpecialFloatsReadBack(delimiter: char)
    ensures ParsePrimitiveValue(FormatScalar(Float("inf"), delimiter)) == Str("inf")
    ensures ParsePrimitiveValue(FormatScalar(Float("-inf"), delimiter)) == Str("-inf")
    ensures ParsePrimitiveValue(FormatScalar(Float("nan"), delimiter)) == Float("nan")
  {
    InfTokenRead();
    NegInfTokenRead();
    NanTokenRead();
  }

  /** The text a float should be written as for it to read back as
      itself: `Infinity`, `-Infinity` and `NaN` for the special values,
      the token otherwise. */
  function FloatTextFixed(token: string): string {
    if token == "inf" then "Infinity"
    else if token == "-inf" then "-Infinity"
    else if token == "nan" then "NaN"
    else token
  }

  /** The fixed texts are the special-float words in mixed case. */
  lemma FixedTextsLower()
    ensures Lower(FloatTextFixed("inf")) == "infinity"
    ensures Lower(FloatTextFixed("-inf")) == "-infinity"
    ensures Lower(FloatTextFixed("nan")) == "nan"
  {
    assert FloatTextFixed("inf") == "Infinity";
    assert FloatTextFixed("-inf") == "-Infinity";
    assert FloatTextFixed("nan") == "NaN";
  }

  /** Written that way, the special floats read back as themselves. */
  lemma SpecialFloatsReadBackFixed()
    ensures ParsePrimitiveValue(FloatTextFixed("inf")) == Float("inf")
    ensures ParsePrimitiveValue(FloatTextFixed("-inf")) == Float("-inf")
    ensures ParsePrimitiveValue(FloatTextFixed("nan")) == Float("nan")
  {
    FixedTextsLower();
    InfinityWordRead(FloatTextFixed("inf"));
    NegInfinityWordRead(FloatTextFixed("-inf"));
    NaNWordRead(FloatTextFixed("nan"));
  }

  // ---------------------------------------------------------------------
  // The quote-aware field splitter

  /** The splitter's three modes. */
  datatype Mode = Plain | InQuote | InTripleQuote

  /** The splitter's state between two iterations: the text still to scan,
      the mode, the field being built and the fields already emitted. */
  datatype Cursor = Cursor(rest: string, mode: Mode, cur: string, fields: seq<string>)

  /** One iteration of the splitter's loop: it consumes one, two or three
      characters. */
  function Advance(s: Cursor, d: char): (t: Cursor)
    requires s.rest != []
    ensures |t.rest| < |s.rest|
  {
    var rest := s.rest;
    var c := rest[0];
    match s.mode
    case Plain =>
      if c == '"' then
        if |rest| > 2 && rest[1] == '"' && rest[2] == '"' then Cursor(rest[3..], InTripleQuote, s.cur + Quote3, s.fields)
        else Cursor(rest[1..], InQuote, s.cur + [c], s.fields)
      else if c == '\\' && |rest| > 1 && rest[1] == d then Cursor(rest[2..], Plain, s.cur + [d], s.fields)
      else if c == d then Cursor(rest[1..], Plain, [], s.fields + [Strip(s.cur)])
      else Cursor(rest[1..], Plain, s.cur + [c], s.fields)
    case InQuote =>
      if c == '"' && |rest| > 1 && rest[1] == '"' then Cursor(rest[2..], InQuote, s.cur + "\"\"", s.fields)
      else if c == '"' then Cursor(rest[1..], Plain, s.cur + [c], s.fields)
      else Cursor(rest[1..], InQuote, s.cur + [c], s.fields)
    case InTripleQuote =>
      if c == '"' && |rest| > 2 && rest[1] == '"' && rest[2] == '"' then Cursor(rest[3..], Plain, s.cur + Quote3, s.fields)
      else Cursor(rest[1..], InTripleQuote, s.cur + [c], s.fields)
  }

  /** The fields the splitter returns when it continues from s: once the
      text runs out, the stripped current field is appended. */
  function Scan(s: Cursor, d: char): seq<string>
    decreases |s.rest|
  {
    if s.rest == [] then s.fields + [Strip(s.cur)] else Scan(Advance(s, d), d)
  }

  lemma ScanStep(s: Cursor, d: char)
    requires s.rest != []
    ensures Scan(s, d) == Scan(Advance(s, d), d)
  {
  }

  /** The fields `split_line_by_delimiter(line, d)` returns. */
  function SplitFields(line: string, d: char): seq<string> {
    Scan(Cursor(line, Plain, [], []), d)
  }

  /** An iteration either keeps the emitted fields or appends the stripped
      current field. */
  lemma AdvanceFields(s: Cursor, d: char)
    requires s.rest != []
    ensures var t := Advance(s, d);
      t.fields == s.fields || t.fields == s.fields + [Strip(s.cur)]
  {
    var c := s.rest[0];
    if s.mode == Plain && c == d && c != '"' && !(c == '\\' && |s.rest| > 1 && s.rest[1] == d) {
      assert Advance(s, d).fields == s.fields + [Strip(s.cur)];
    } else {
      assert Advance(s, d).fields == s.fields;
    }
  }

  /** Every field from index k on is stripped. */
  predicate StrippedFrom(fs: seq<string>, k: nat) {
    forall j :: k <= j < |fs| ==> IsStripped(fs[j])
  }

  lemma StrippedFromEarlier(fs: seq<string>, k: nat)
    requires k < |fs| && IsStripped(fs[k]) && StrippedFrom(fs, k + 1)
    ensures StrippedFrom(fs, k)
  {
  }

  /** r keeps the fields fs, adds at least one, and every field it adds
      is stripped. */
  predicate ScanExtends(r: seq<string>, fs: seq<string>) {
    |r| > |fs| && (forall j :: 0 <= j < |fs| ==> r[j] == fs[j]) && StrippedFrom(r, |fs|)
  }

  lemma ScanExtendsEarlier(r: seq<string>, fs: seq<string>, x: string)
    requires IsStripped(x) && ScanExtends(r, fs + [x])
    ensures ScanExtends(r, fs)
  {
    assert r[|fs|] == (fs + [x])[|fs|];
    forall j | 0 <= j < |fs| ensures r[j] == fs[j] {
      assert (fs + [x])[j] == fs[j];
    }
    StrippedFromEarlier(r, |fs|);
  }

  /** The scan keeps the fields already emitted, adds at least one, and
      every field it adds is stripped. */
  lemma {:induction false} ScanShape(s: Cursor, d: char)
    ensures ScanExtends(Scan(s, d), s.fields)
    decreases |s.rest|
  {
    if s.rest == [] {
      ScanShapeAtEnd(s, d);
    } else {
      ScanShape(Advance(s, d), d);
      ScanShapeStep(s, d);
    }
  }

  lemma ScanShapeAtEnd(s: Cursor, d: char)
    requires s.rest == []
    ensures ScanExtends(Scan(s, d), s.fields)
  {
    StripResultIsStripped(s.cur);
    var r := s.fields + [Strip(s.cur)];
    assert Scan(s, d) == r;
    assert forall j :: 0 <= j < |s.fields| ==> r[j] == s.fields[j];
    assert StrippedFrom(r, |s.fields|) by {
      forall j | |s.fields| <= j < |r| ensures IsStripped(r[j]) {
        assert r[j] == Strip(s.cur);
      }
    }
  }

  lemma ScanShapeStep(s: Cursor, d: char)
    requires s.rest != []
    requires ScanExtends(Scan(Advance(s, d), d), Advance(s, d).fields)
    ensures ScanExtends(Scan(s, d), s.fields)
  {
    var t := Advance(s, d);
    StripResultIsStripped(s.cur);
    AdvanceFields(s, d);
    assert Scan(s, d) == Scan(t, d);
    if t.fields != s.fields {
      ScanExtendsEarlier(Scan(t, d), s.fields, Strip(s.cur));
    }
  }

  /** A split always gives at least one field, and every field is
      stripped. */
  lemma SplitFieldsShape(line: string, d: char)
    ensures |SplitFields(line, d)| >= 1
    ensures StrippedFrom(SplitFields(line, d), 0)
  {
    ScanShape(Cursor(line, Plain, [], []), d);
  }

  /** `split_line_by_delimiter`: the while loop over i, with the mode, the
      current field and the emitted fields as its state. It returns at
      least one field, and every field is stripped. */
  method SplitLineByDelimiter(line: string, delimiter: char) returns (fields: seq<string>)
    ensures fields == SplitFields(line, delimiter)
    ensures |fields| >= 1
    ensures forall j :: 0 <= j < |fields| ==> IsStripped(fields[j])
  {
    fields := [];
    var current: string := [];
    var mode := Plain;
    var i := 0;
    while i < |line|
      invariant 0 <= i <= |line|
      invariant Scan(Cursor(line[i..], mode, current, fields), delimiter) == SplitFields(line, delimiter)
      decreases |line| - i
    {
      ghost var before := Cursor(line[i..], mode, current, fields);
      ghost var i0 := i;
      var c := line[i];
      var next: Option<char> := if i + 1 < |line| then Some(line[i + 1]) else None;
      var nextNext: Option<char> := if i + 2 < |line| then Some(line[i + 2]) else None;
      assert next.Some? ==> i + 1 < |line|;
      assert nextNext.Some? ==> i + 2 < |line|;
      assert before.rest[0] == c;
      assert next.Some? <==> |before.rest| > 1;
      assert next.Some? ==> before.rest[1] == next.value;
      assert nextNext.Some? <==> |before.rest| > 2;
      assert nextNext.Some? ==> before.rest[2] == nextNext.value;
      if mode == Plain {
        if c == '"' {
          if next == Some('"') && nextNext == Some('"') {
            mode := InTripleQuote;
            current := current + Quote3;
            i := i + 2;
          } else {
            mode := InQuote;
            current := current + [c];
          }
        } else if c == '\\' && next == Some(delimiter) {
          current := current + [delimiter];
          i := i + 1;
        } else if c == delimiter {
          fields := fields + [Strip(current)];
          current := [];
        } else {
          current := current + [c];
        }
      } else if mode == InQuote {
        current := current + [c];
        if c == '"' {
          if next == Some('"') {
            current := current + "\"";
            assert current == before.cur + "\"\"";
            i := i + 1;
          } else {
            mode := Plain;
          }
        }
      } else {
        current := current + [c];
        if c == '"' && next == Some('"') && nextNext == Some('"') {
          current := current + "\"\"";
          assert current == before.cur + Quote3;
          mode := Plain;
          i := i + 2;
        }
      }
      assert i < |line|;
      assert Advance(before, delimiter) == Cursor(before.rest[i + 1 - i0..], mode, current, fields);
      ScanStep(before, delimiter);
      i := i + 1;
      SliceOfSlice(line, i0, i);
      assert Cursor(before.rest[i - i0..], mode, current, fields) == Cursor(line[i..], mode, current, fields);
    }
    assert line[|line|..] == [];
    fields := fields + [Strip(current)];
    SplitFieldsShape(line, delimiter);
  }

  /** Outside quotes, text without quotes, backslashes or the delimiter is
      copied into the current field. */
  lemma {:induction false} ScanPlainRun(a: string, rest: string, d: char, cur: string, fields: seq<string>)
    requires '"' !in a && '\\' !in a && d !in a
    ensures Scan(Cursor(a + rest, Plain, cur, fields), d) == Scan(Cursor(rest, Plain, cur + a, fields), d)
  {
    if a == [] {
      assert a + rest == rest && cur + a == cur;
    } else {
      var s := Cursor(a + rest, Plain, cur, fields);
      assert s.rest[0] == a[0] && s.rest[1..] == a[1..] + rest;
      assert Advance(s, d) == Cursor(a[1..] + rest, Plain, cur + [a[0]], fields);
      ScanPlainRun(a[1..], rest, d, cur + [a[0]], fields);
      assert cur + [a[0]] + a[1..] == cur + a;
    }
  }

  /** Outside quotes, the delimiter ends the current field. */
  lemma ScanAtDelimiter(rest: string, d: char, cur: string, fields: seq<string>)
    requires d != '"' && d != '\\'
    ensures Scan(Cursor([d] + rest, Plain, cur, fields), d) == Scan(Cursor(rest, Plain, [], fields + [Strip(cur)]), d)
  {
    var s := Cursor([d] + rest, Plain, cur, fields);
    assert s.rest[0] == d && s.rest[1..] == rest;
    assert Advance(s, d) == Cursor(rest, Plain, [], fields + [Strip(cur)]);
  }

  /** The delimiters the encoder and the decoder use. */
  predicate IsDelimiter(d: char) {
    d == ',' || d == '|' || d == '\t' || d == ';'
  }

  /** The separator the encoder puts between fields: `", "` for a comma,
      `" d "` otherwise. */
  function FieldSeparator(d: char): string {
    if d == ',' then ", " else [' ', d, ' ']
  }

  /** What the separator has before the delimiter. */
  function SeparatorLead(d: char): string {
    if d == ',' then [] else " "
  }

  lemma SeparatorParts(f: string, d: char, tail: string)
    ensures f + FieldSeparator(d) + tail == (f + SeparatorLead(d)) + ([d] + (" " + tail))
  {
  }

  /** A field the encoder can write and the splitter reads back whole. */
  predicate IsSimpleField(f: string, d: char) {
    IsStripped(f) && d !in f && '"' !in f && '\\' !in f
  }

  lemma SimpleFieldChars(f: string, d: char)
    requires IsSimpleField(f, d) && IsDelimiter(d)
    ensures var a := f + SeparatorLead(d); '"' !in a && '\\' !in a && d !in a
  {
  }

  lemma ScanFieldToSeparator(f: string, d: char, pad: string, tail: string, fields: seq<string>)
    requires IsDelimiter(d) && IsSimpleField(f, d)
    ensures Scan(Cursor(f + FieldSeparator(d) + tail, Plain, pad, fields), d) ==
      Scan(Cursor(" " + tail, Plain, [], fields + [Strip(pad + (f + SeparatorLead(d)))]), d)
  {
    var pre := SeparatorLead(d);
    SeparatorParts(f, d, tail);
    SimpleFieldChars(f, d);
    ScanPlainRun(f + pre, [d] + (" " + tail), d, pad, fields);
    ScanAtDelimiter(" " + tail, d, pad + (f + pre), fields);
  }

  lemma ScanLeadingSpace(tail: string, d: char, fields: seq<string>)
    requires IsDelimiter(d)
    ensures Scan(Cursor(" " + tail, Plain, [], fields), d) == Scan(Cursor(tail, Plain, " ", fields), d)
  {
    var s := Cursor(" " + tail, Plain, [], fields);
    assert s.rest[0] == ' ' && s.rest[1..] == tail;
    assert Advance(s, d) == Cursor(tail, Plain, " ", fields);
  }

  /** A simple field followed by the separator: the field is emitted and
      the separator's trailing space starts the next one. */
  lemma ScanFieldThenSeparator(f: string, d: char, pad: string, tail: string, fields: seq<string>)
    requires IsDelimiter(d) && AllSpace(pad) && IsSimpleField(f, d)
    ensures Scan(Cursor(f + FieldSeparator(d) + tail, Plain, pad, fields), d) ==
      Scan(Cursor(tail, Plain, " ", fields + [f]), d)
  {
    var pre := SeparatorLead(d);
    ScanFieldToSeparator(f, d, pad, tail, fields);
    assert pad + (f + pre) == pad + f + pre;
    StripPadded(pad, f, pre);
    ScanLeadingSpace(tail, d, fields + [f]);
  }

  /** The last simple field is emitted when the text runs out. */
  lemma ScanLastField(f: string, d: char, pad: string, fields: seq<string>)
    requires IsDelimiter(d) && AllSpace(pad) && IsSimpleField(f, d)
    ensures Scan(Cursor(f, Plain, pad, fields), d) == fields + [f]
  {
    ScanPlainRun(f, [], d, pad, fields);
    assert f + [] == f;
    assert pad + f + [] == pad + f;
    StripPadded(pad, f, []);
  }

  lemma {:induction false} ScanJoined(fs: seq<string>, d: char, pad: string, fields: seq<string>)
    requires fs != [] && IsDelimiter(d) && AllSpace(pad)
    requires forall j :: 0 <= j < |fs| ==> IsSimpleField(fs[j], d)
    ensures Scan(Cursor(Join(fs, FieldSeparator(d)), Plain, pad, fields), d) == fields + fs
    decreases |fs|
  {
    if |fs| == 1 {
      ScanLastField(fs[0], d, pad, fields);
      assert fs == [fs[0]];
    } else {
      ScanJoined(fs[1..], d, " ", fields + [fs[0]]);
      ScanJoinedStep(fs, d, pad, fields);
    }
  }

  lemma ScanJoinedStep(fs: seq<string>, d: char, pad: string, fields: seq<string>)
    requires |fs| > 1 && IsDelimiter(d) && AllSpace(pad) && IsSimpleField(fs[0], d)
    requires Scan(Cursor(Join(fs[1..], FieldSeparator(d)), Plain, " ", fields + [fs[0]]), d) == fields + [fs[0]] + fs[1..]
    ensures Scan(Cursor(Join(fs, FieldSeparator(d)), Plain, pad, fields), d) == fields + fs
  {
    var rest := Join(fs[1..], FieldSeparator(d));
    JoinCons(fs, FieldSeparator(d));
    ScanFieldThenSeparator(fs[0], d, pad, rest, fields);
    ConsSplit(fields, fs);
  }

  /** Splitting stripped fields that hold no delimiter, quote or backslash,
      joined as the encoder joins them, gives exactly those fields back. */
  lemma SplitJoinRoundTrip(fs: seq<string>, d: char)
    requires fs != [] && IsDelimiter(d)
    requires forall j :: 0 <= j < |fs| ==> IsSimpleField(fs[j], d)
    ensures SplitFields(Join(fs, FieldSeparator(d)), d) == fs
  {
    ScanJoined(fs, d, [], []);
  }

  /** Without the delimiter anywhere in the rest, the scan ends with one
      field holding everything. */
  lemma {:induction false} ScanWithoutDelimiter(s: Cursor, d: char)
    requires d !in s.rest
    ensures Scan(s, d) == s.fields + [Strip(s.cur + s.rest)]
    decreases |s.rest|
  {
    if s.rest == [] {
      assert s.cur + s.rest == s.cur;
    } else {
      var t := Advance(s, d);
      AdvanceKeepsText(s, d);
      ScanWithoutDelimiter(t, d);
    }
  }

  /** Without the delimiter, one step of the splitter only moves text from
      the rest to the current field. */
  lemma AdvanceKeepsText(s: Cursor, d: char)
    requires s.rest != [] && d !in s.rest
    ensures var t := Advance(s, d);
      t.fields == s.fields && t.cur + t.rest == s.cur + s.rest
  {
    var rest := s.rest;
    var t := Advance(s, d);
    assert rest[0] != d;
    if |rest| > 1 {
      assert rest[1] != d;
    }
    var k := |rest| - |t.rest|;
    assert t.rest == rest[k..];
    assert t.cur == s.cur + rest[..k];
    assert rest[..k] + rest[k..] == rest;
  }

  /** A line without the delimiter is one field: the line, stripped. */
  lemma NoDelimiterOneField(line: string, d: char)
    requires d !in line
    ensures SplitFields(line, d) == [Strip(line)]
  {
    ScanWithoutDelimiter(Cursor(line, Plain, [], []), d);
    assert [] + line == line;
  }

  /** Inside `"..."`, text without quotes is copied. */
  lemma {:induction false} ScanQuoteRun(q: string, rest: string, d: char, cur: string, fields: seq<string>)
    requires '"' !in q
    ensures Scan(Cursor(q + rest, InQuote, cur, fields), d) == Scan(Cursor(rest, InQuote, cur + q, fields), d)
  {
    if q == [] {
      assert q + rest == rest && cur + q == cur;
    } else {
      var s := Cursor(q + rest, InQuote, cur, fields);
      assert s.rest[0] == q[0] && s.rest[1..] == q[1..] + rest;
      assert Advance(s, d) == Cursor(q[1..] + rest, InQuote, cur + [q[0]], fields);
      ScanQuoteRun(q[1..], rest, d, cur + [q[0]], fields);
      assert cur + [q[0]] + q[1..] == cur + q;
    }
  }

  /** A delimiter inside `"..."` does not split: the quoted text, quotes
      included, goes into the current field. */
  lemma QuotedTextNotSplit(q: string, rest: string, d: char, cur: string, fields: seq<string>)
    requires q != [] && '"' !in q
    requires rest == [] || rest[0] != '"'
    ensures Scan(Cursor("\"" + q + "\"" + rest, Plain, cur, fields), d) ==
      Scan(Cursor(rest, Plain, cur + "\"" + q + "\"", fields), d)
  {
    var s := Cursor("\"" + q + "\"" + rest, Plain, cur, fields);
    assert s.rest[0] == '"' && s.rest[1] == q[0] && s.rest[1..] == q + ("\"" + rest);
    assert Advance(s, d) == Cursor(q + ("\"" + rest), InQuote, cur + "\"", fields);
    ScanQuoteRun(q, "\"" + rest, d, cur + "\"", fields);
    var u := Cursor("\"" + rest, InQuote, cur + "\"" + q, fields);
    assert u.rest[0] == '"' && u.rest[1..] == rest;
    assert |u.rest| > 1 ==> u.rest[1] == rest[0];
    assert Advance(u, d) == Cursor(rest, Plain, cur + "\"" + q + "\"", fields);
  }

  // ---------------------------------------------------------------------
  // Identifiers: `^[a-zA-Z_][a-zA-Z0-9_]*$`

  /** All characters of s are `[a-zA-Z0-9_]`. */
  predicate AllWord(s: string) {
    forall j :: 0 <= j < |s| ==> IsWordChar(s[j])
  }

  /** `is_valid_identifier`: a letter or `_`, then letters, digits and `_`. */
  function IsValidIdentifier(name: string): (b: bool)
    ensures b <==> name != [] && AllWord(name) && !IsDigit(name[0])
  {
    name != [] && IsIdentStart(name[0]) && AllWord(name[1..])
  }

  /** An identifier is quoted only when it spells a reserved word: it has
      no delimiter, quote, backslash, colon or whitespace, and does not
      start like a number. */
  lemma IdentifierQuoting(name: string, delimiter: char, inTabular: bool)
    requires IsValidIdentifier(name) && IsDelimiter(delimiter)
    ensures NeedsQuoting(name, delimiter, inTabular) <==> IsReservedWord(Lower(name))
  {
    WordHasNoSpecials(name, delimiter);
    assert IsStripped(name);
    StripFixedIff(name);
    IdentifierNotNumber(name);
  }

  lemma IdentifierNotNumber(name: string)
    requires IsValidIdentifier(name)
    ensures !IsNumber(name)
  {
    assert Unsigned(name) == name;
    assert LeadingDigits(name) == 0;
  }

  /** A run of `[a-zA-Z0-9_]` holds no delimiter, line break, tab, quote,
      backslash or colon. */
  lemma WordHasNoSpecials(s: string, delimiter: char)
    requires AllWord(s) && IsDelimiter(delimiter)
    ensures delimiter !in s && '\n' !in s && '\r' !in s && '\t' !in s
    ensures '"' !in s && '\\' !in s && ':' !in s
  {
    forall c | c in s ensures IsWordChar(c) {
      var j :| 0 <= j < |s| && s[j] == c;
    }
  }

  // ---------------------------------------------------------------------
  // The inline `key: value` scanner

  /** The first index from i on that is not whitespace. */
  function SkipSpaces(line: string, i: nat): (j: nat)
    requires i <= |line|
    ensures i <= j <= |line| && (j == |line| || !IsSpace(line[j]))
    decreases |line| - i
  {
    if i < |line| && IsSpace(line[i]) then SkipSpaces(line, i + 1) else i
  }

  /** The first index from i on that is not `[a-zA-Z0-9_]`. */
  function SkipWord(line: string, i: nat): (j: nat)
    requires i <= |line|
    ensures i <= j <= |line| && (j == |line| || !IsWordChar(line[j]))
    decreases |line| - i
  {
    if i < |line| && IsWordChar(line[i]) then SkipWord(line, i + 1) else i
  }

  /** Where a `"""` value ends: just past the first `"""` from i on that
      does not follow a backslash, or the end of the line. */
  function TripleQuoteEnd(line: string, i: nat): (e: nat)
    requires 1 <= i <= |line|
    ensures i <= e <= |line|
    decreases |line| - i
  {
    if i >= |line| then i
    else if i + 3 <= |line| && line[i..i + 3] == Quote3 && line[i - 1] != '\\' then i + 3
    else TripleQuoteEnd(line, i + 1)
  }

  /** Where a `"` value ends: just past the first quote from i on that is
      not doubled, or the end of the line. */
  function QuoteEnd(line: string, i: nat): (e: nat)
    requires i <= |line|
    ensures i <= e <= |line|
    decreases |line| - i
  {
    if i >= |line| then i
    else if line[i] == '"' then
      if i + 1 < |line| && line[i + 1] == '"' then QuoteEnd(line, i + 2) else i + 1
    else QuoteEnd(line, i + 1)
  }

  /** The whitespace at i is followed by whitespace, a non-empty run of
      `[a-zA-Z0-9_]`, whitespace and a colon: the next key starts. */
  predicate KeyAhead(line: string, i: nat)
    requires i < |line|
  {
    var j := SkipSpaces(line, i + 1);
    j < |line| &&
    var k := SkipSpaces(line, SkipWord(line, j));
    k < |line| && line[k] == ':' && k > j
  }

  /** Where an unquoted value ends: at the first whitespace from i on that
      starts the next key, or the end of the line. */
  function PlainValueEnd(line: string, i: nat): (e: nat)
    requires i <= |line|
    ensures i <= e <= |line|
    ensures i < |line| && !IsSpace(line[i]) ==> e > i
    decreases |line| - i
  {
    if i >= |line| then i
    else if IsSpace(line[i]) && KeyAhead(line, i) then i
    else PlainValueEnd(line, i + 1)
  }

  /** Where the value that starts at i, a non-whitespace position, ends:
      a quoted value runs to its closing quotes, an unquoted one to the
      next key. */
  function ValueEnd(line: string, i: nat): (e: nat)
    requires i < |line| && !IsSpace(line[i])
    ensures i < e <= |line|
  {
    if line[i] != '"' then PlainValueEnd(line, i)
    else if i + 2 < |line| && line[i..i + 3] == Quote3 then TripleQuoteEnd(line, i + 3)
    else QuoteEnd(line, i + 1)
  }

  /** The text handed to `parse_primitive_value`: a quoted value as it
      stands, an unquoted one stripped. */
  function ValueText(line: string, i: nat): string
    requires i < |line| && !IsSpace(line[i])
  {
    var e := ValueEnd(line, i);
    if line[i] == '"' then line[i..e] else Strip(line[i..e])
  }

  /** A value starts at each of these positions. */
  predicate ValueStarts(line: string, pairs: seq<(string, nat)>) {
    forall j :: 0 <= j < |pairs| ==> pairs[j].1 < |line| && !IsSpace(line[pairs[j].1])
  }

  /** The keys `parse_key_value_pairs` reads from index i on, each with the
      position where its value starts, after those in acc. None stands for
      an iteration that makes no progress: the character at the key
      position is neither `[a-zA-Z0-9_]`, whitespace nor a colon, and the
      source's loop then repeats forever. */
  function PairStarts(line: string, i: nat, acc: seq<(string, nat)>): (r: Option<seq<(string, nat)>>)
    requires i <= |line| && ValueStarts(line, acc)
    ensures r.Some? ==> ValueStarts(line, r.value)
    decreases |line| - i
  {
    if i >= |line| then Some(acc)
    else
      var i1 := SkipSpaces(line, i);
      if i1 >= |line| then Some(acc)
      else
        var i2 := SkipWord(line, i1);
        var i3 := SkipSpaces(line, i2);
        if !(i3 < |line| && line[i3] == ':') then
          if i3 == i then None else PairStarts(line, i3, acc)
        else
          var i4 := SkipSpaces(line, i3 + 1);
          if i4 >= |line| then Some(acc)
          else PairStarts(line, ValueEnd(line, i4), acc + [(line[i1..i2], i4)])
  }

  /** The dict built by `result[key] = parse_primitive_value(value)` for
      each key in turn: a later key overwrites an earlier one in place. */
  function DictOf(line: string, pairs: seq<(string, nat)>): seq<(string, Value)>
    requires ValueStarts(line, pairs)
  {
    if pairs == [] then []
    else
      var last := pairs[|pairs| - 1];
      Put(DictOf(line, pairs[..|pairs| - 1]), last.0, ParsePrimitiveValue(ValueText(line, last.1)))
  }

  /** The dict `parse_key_value_pairs(line)` returns, or None where it does
      not return. */
  function KeyValuePairs(line: string): Option<seq<(string, Value)>> {
    match PairStarts(line, 0, [])
    case None => None
    case Some(pairs) => Some(DictOf(line, pairs))
  }

  lemma DictOfSnoc(line: string, pairs: seq<(string, nat)>, key: string, start: nat)
    requires ValueStarts(line, pairs) && start < |line| && !IsSpace(line[start])
    ensures ValueStarts(line, pairs + [(key, start)])
    ensures DictOf(line, pairs + [(key, start)]) ==
      Put(DictOf(line, pairs), key, ParsePrimitiveValue(ValueText(line, start)))
  {
    assert (pairs + [(key, start)])[..|pairs|] == pairs;
  }

  /** One iteration of `parse_key_value_pairs`, case by case: only
      whitespace is left; no colon follows the key; nothing follows the
      colon; a value follows the colon. */
  lemma PairStartsBlank(line: string, i: nat, acc: seq<(string, nat)>)
    requires i <= |line| && ValueStarts(line, acc) && SkipSpaces(line, i) == |line|
    ensures PairStarts(line, i, acc) == Some(acc)
  {
  }

  lemma PairStartsNoColon(line: string, i: nat, acc: seq<(string, nat)>, i1: nat, i3: nat)
    requires i <= |line| && ValueStarts(line, acc) && i1 == SkipSpaces(line, i) < |line|
    requires i3 == SkipSpaces(line, SkipWord(line, i1))
    requires !(i3 < |line| && line[i3] == ':')
    ensures PairStarts(line, i, acc) == if i3 == i then None else PairStarts(line, i3, acc)
  {
  }

  lemma PairStartsNoValue(line: string, i: nat, acc: seq<(string, nat)>, i1: nat, i3: nat)
    requires i <= |line| && ValueStarts(line, acc) && i1 == SkipSpaces(line, i) < |line|
    requires i3 == SkipSpaces(line, SkipWord(line, i1))
    requires i3 < |line| && line[i3] == ':' && SkipSpaces(line, i3 + 1) == |line|
    ensures PairStarts(line, i, acc) == Some(acc)
  {
  }

  lemma PairStartsValue(line: string, i: nat, acc: seq<(string, nat)>, i1: nat, i3: nat, i4: nat)
    requires i <= |line| && ValueStarts(line, acc) && i1 == SkipSpaces(line, i) < |line|
    requires i3 == SkipSpaces(line, SkipWord(line, i1))
    requires i3 < |line| && line[i3] == ':' && i4 == SkipSpaces(line, i3 + 1) < |line|
    ensures ValueStarts(line, acc + [(line[i1..SkipWord(line, i1)], i4)])
    ensures PairStarts(line, i, acc) ==
      PairStarts(line, ValueEnd(line, i4), acc + [(line[i1..SkipWord(line, i1)], i4)])
  {
  }

  /** The whitespace-skipping loop of `parse_key_value_pairs`. */
  method SkipSpacesFrom(line: string, i0: nat) returns (i: nat)
    requires i0 <= |line|
    ensures i == SkipSpaces(line, i0)
  {
    i := i0;
    while i < |line| && IsSpace(line[i])
      invariant i0 <= i <= |line| && SkipSpaces(line, i) == SkipSpaces(line, i0)
      decreases |line| - i
    {
      i := i + 1;
    }
  }

  /** The loop that reads a key, `[a-zA-Z0-9_]*`. */
  method SkipWordFrom(line: string, i0: nat) returns (i: nat)
    requires i0 <= |line|
    ensures i == SkipWord(line, i0)
  {
    i := i0;
    while i < |line| && IsWordChar(line[i])
      invariant i0 <= i <= |line| && SkipWord(line, i) == SkipWord(line, i0)
      decreases |line| - i
    {
      i := i + 1;
    }
  }

  /** The loop that finds the closing `"""` of a value. */
  method FindTripleQuoteEnd(line: string, i0: nat) returns (i: nat)
    requires 1 <= i0 <= |line|
    ensures i == TripleQuoteEnd(line, i0)
  {
    i := i0;
    while i < |line|
      invariant i0 <= i <= |line| && TripleQuoteEnd(line, i) == TripleQuoteEnd(line, i0)
      decreases |line| - i
    {
      if i + 3 <= |line| && line[i..i + 3] == Quote3 && line[i - 1] != '\\' {
        i := i + 3;
        return;
      }
      i := i + 1;
    }
  }

  /** The loop that finds the closing `"` of a value, stepping over doubled
      quotes. */
  method FindQuoteEnd(line: string, i0: nat) returns (i: nat)
    requires i0 <= |line|
    ensures i == QuoteEnd(line, i0)
  {
    i := i0;
    while i < |line|
      invariant i0 <= i <= |line| && QuoteEnd(line, i) == QuoteEnd(line, i0)
      decreases |line| - i
    {
      if line[i] == '"' {
        if i + 1 < |line| && line[i + 1] == '"' {
          i := i + 2;
        } else {
          i := i + 1;
          return;
        }
      } else {
        i := i + 1;
      }
    }
  }

  /** The loop that reads an unquoted value, looking ahead at each
      whitespace for the next `key:`. */
  method FindPlainValueEnd(line: string, i0: nat) returns (i: nat)
    requires i0 <= |line|
    ensures i == PlainValueEnd(line, i0)
  {
    i := i0;
    while i < |line|
      invariant i0 <= i <= |line| && PlainValueEnd(line, i) == PlainValueEnd(line, i0)
      decreases |line| - i
    {
      if IsSpace(line[i]) {
        var j := SkipSpacesFrom(line, i + 1);
        if j >= |line| {
          assert !KeyAhead(line, i);
        } else {
          var k := SkipWordFrom(line, j);
          k := SkipSpacesFrom(line, k);
          if k < |line| && line[k] == ':' && k > j {
            assert KeyAhead(line, i);
            return;
          }
          assert !KeyAhead(line, i);
        }
        i := i + 1;
      } else {
        i := i + 1;
      }
    }
  }

  /** The part of the loop body that reads a value. */
  method ReadValueAt(line: string, valueStart: nat) returns (i: nat, value: Value)
    requires valueStart < |line| && !IsSpace(line[valueStart])
    ensures i == ValueEnd(line, valueStart)
    ensures value == ParsePrimitiveValue(ValueText(line, valueStart))
  {
    i := valueStart;
    var length := |line|;
    if line[i] == '"' {
      if i + 2 < length && line[i..i + 3] == Quote3 {
        i := FindTripleQuoteEnd(line, i + 3);
      } else {
        i := FindQuoteEnd(line, i + 1);
      }
      var valueStr := line[valueStart..i];
      value := ParsePrimitiveValue(valueStr);
    } else {
      i := FindPlainValueEnd(line, i);
      var valueStr := Strip(line[valueStart..i]);
      value := ParsePrimitiveValue(valueStr);
    }
  }

  /** One pass of the loop body of `parse_key_value_pairs` from i0: it
      skips whitespace, reads a key and, after a colon, a value. It
      returns where the next pass starts and the pair to assign, if any.
      A pass that reads no pair and stops where it started is one the
      source repeats forever. */
  method ReadPair(line: string, i0: nat, ghost starts: seq<(string, nat)>)
    returns (i: nat, pair: Option<(string, Value)>, ghost start: nat)
    requires i0 < |line| && ValueStarts(line, starts)
    ensures i0 <= i <= |line|
    ensures pair.None? ==>
      PairStarts(line, i0, starts) == (if i == i0 then None else PairStarts(line, i, starts))
    ensures pair.Some? ==>
      i0 < i && start < |line| && !IsSpace(line[start])
      && pair.value.1 == ParsePrimitiveValue(ValueText(line, start))
      && ValueStarts(line, starts + [(pair.value.0, start)])
      && PairStarts(line, i0, starts) == PairStarts(line, i, starts + [(pair.value.0, start)])
  {
    var length := |line|;
    start := 0;
    pair := None;
    i := SkipSpacesFrom(line, i0);
    if i >= length {
      PairStartsBlank(line, i0, starts);
      return;
    }
    var keyStart := i;
    i := SkipWordFrom(line, i);
    var key := line[keyStart..i];
    i := SkipSpacesFrom(line, i);
    if i < length && line[i] == ':' {
      ghost var colon := i;
      i := SkipSpacesFrom(line, i + 1);
      if i >= length {
        PairStartsNoValue(line, i0, starts, keyStart, colon);
        return;
      }
      PairStartsValue(line, i0, starts, keyStart, colon, i);
      start := i;
      var value;
      i, value := ReadValueAt(line, i);
      pair := Some((key, value));
    } else {
      PairStartsNoColon(line, i0, starts, keyStart, i);
    }
  }

  /** `parse_key_value_pairs`: the outer loop makes one pass per iteration
      and assigns the pair it reads into the dict. None where the source
      loops forever. */
  method ParseKeyValuePairs(line: string) returns (r: Option<seq<(string, Value)>>)
    ensures r == KeyValuePairs(line)
  {
    var result: seq<(string, Value)> := [];
    ghost var starts: seq<(string, nat)> := [];
    var i: nat := 0;
    var length := |line|;
    while i < length
      invariant 0 <= i <= length && ValueStarts(line, starts)
      invariant PairStarts(line, i, starts) == PairStarts(line, 0, [])
      invariant result == DictOf(line, starts)
      decreases length - i
    {
      var i0 := i;
      var pair;
      ghost var start;
      i, pair, start := ReadPair(line, i, starts);
      if pair.Some? {
        DictOfSnoc(line, starts, pair.value.0, start);
        starts := starts + [(pair.value.0, start)];
        result := Put(result, pair.value.0, pair.value.1);
      } else if i == i0 {
        return None;
      }
    }
    assert PairStarts(line, i, starts) == Some(starts);
    FoundPairs(line, starts);
    return Some(result);
  }

  lemma FoundPairs(line: string, pairs: seq<(string, nat)>)
    requires ValueStarts(line, pairs) && PairStarts(line, 0, []) == Some(pairs)
    ensures KeyValuePairs(line) == Some(DictOf(line, pairs))
  {
  }

  // Properties of the scanner

  /** A character the scanner can meet at a key position without getting
      stuck. */
  predicate IsKeyLineChar(c: char) {
    IsWordChar(c) || IsSpace(c) || c == ':'
  }

  lemma {:induction false} PairStartsTotal(line: string, i: nat, acc: seq<(string, nat)>)
    requires i <= |line| && ValueStarts(line, acc)
    requires forall j :: 0 <= j < |line| ==> IsKeyLineChar(line[j])
    ensures PairStarts(line, i, acc).Some?
    decreases |line| - i
  {
    if i < |line| {
      var i1 := SkipSpaces(line, i);
      if i1 < |line| {
        var i3 := SkipSpaces(line, SkipWord(line, i1));
        if !(i3 < |line| && line[i3] == ':') {
          PairStartsNoColon(line, i, acc, i1, i3);
          assert i3 != i;
          PairStartsTotal(line, i3, acc);
        } else if SkipSpaces(line, i3 + 1) == |line| {
          PairStartsNoValue(line, i, acc, i1, i3);
        } else {
          var i4 := SkipSpaces(line, i3 + 1);
          PairStartsValue(line, i, acc, i1, i3, i4);
          PairStartsTotal(line, ValueEnd(line, i4), acc + [(line[i1..SkipWord(line, i1)], i4)]);
        }
      }
    }
  }

  /** `parse_key_value_pairs` returns on every line made only of letters,
      digits, `_`, whitespace and colons. */
  lemma KeyValuePairsTerminates(line: string)
    requires forall j :: 0 <= j < |line| ==> IsKeyLineChar(line[j])
    ensures KeyValuePairs(line).Some?
  {
    PairStartsTotal(line, 0, []);
  }

  /** A line that starts with `-` makes the loop repeat forever: nothing
      at the key position is consumed. */
  lemma KeyValuePairsStuck(line: string)
    requires line != [] && line[0] == '-'
    ensures KeyValuePairs(line).None?
  {
    assert SkipSpaces(line, 0) == 0;
    assert SkipWord(line, 0) == 0;
    PairStartsNoColon(line, 0, [], 0, 0);
  }

  lemma {:induction false} SkipWordOver(line: string, i: nat, n: nat)
    requires i <= n <= |line| && (n == |line| || !IsWordChar(line[n]))
    requires forall j :: i <= j < n ==> IsWordChar(line[j])
    ensures SkipWord(line, i) == n
    decreases n - i
  {
    if i < n {
      SkipWordOver(line, i + 1, n);
    }
  }

  lemma {:induction false} SkipWordRun(line: string, i: nat)
    requires i <= |line|
    ensures AllWord(line[i..SkipWord(line, i)])
    decreases |line| - i
  {
    if i < |line| && IsWordChar(line[i]) {
      SkipWordRun(line, i + 1);
      assert line[i..SkipWord(line, i)] == [line[i]] + line[i + 1..SkipWord(line, i + 1)];
    }
  }

  lemma {:induction false} PlainValueToEnd(line: string, i: nat)
    requires i <= |line|
    requires forall j :: i <= j < |line| ==> !IsSpace(line[j])
    ensures PlainValueEnd(line, i) == |line|
    decreases |line| - i
  {
    if i < |line| {
      PlainValueToEnd(line, i + 1);
    }
  }

  /** Every key is made of `[a-zA-Z0-9_]`. */
  predicate WordKeys(pairs: seq<(string, nat)>) {
    forall j :: 0 <= j < |pairs| ==> AllWord(pairs[j].0)
  }

  predicate WordKeyDict(d: seq<(string, Value)>) {
    forall j :: 0 <= j < |d| ==> AllWord(d[j].0)
  }

  lemma {:induction false} PairStartsKeys(line: string, i: nat, acc: seq<(string, nat)>)
    requires i <= |line| && ValueStarts(line, acc) && WordKeys(acc)
    ensures PairStarts(line, i, acc).Some? ==> WordKeys(PairStarts(line, i, acc).value)
    decreases |line| - i
  {
    if i < |line| {
      var i1 := SkipSpaces(line, i);
      if i1 < |line| {
        var i3 := SkipSpaces(line, SkipWord(line, i1));
        if !(i3 < |line| && line[i3] == ':') {
          PairStartsNoColon(line, i, acc, i1, i3);
          if i3 != i {
            PairStartsKeys(line, i3, acc);
          }
        } else if SkipSpaces(line, i3 + 1) == |line| {
          PairStartsNoValue(line, i, acc, i1, i3);
        } else {
          var i4 := SkipSpaces(line, i3 + 1);
          var key := line[i1..SkipWord(line, i1)];
          PairStartsValue(line, i, acc, i1, i3, i4);
          SkipWordRun(line, i1);
          assert WordKeys(acc + [(key, i4)]);
          PairStartsKeys(line, ValueEnd(line, i4), acc + [(key, i4)]);
        }
      }
    }
  }

  lemma {:induction false} DictOfKeys(line: string, pairs: seq<(string, nat)>)
    requires ValueStarts(line, pairs) && WordKeys(pairs)
    ensures UniqueKeys(DictOf(line, pairs)) && WordKeyDict(DictOf(line, pairs))
    decreases |pairs|
  {
    if pairs != [] {
      var front := pairs[..|pairs| - 1];
      var last := pairs[|pairs| - 1];
      assert WordKeys(front);
      DictOfKeys(line, front);
      PutWordKey(DictOf(line, front), last.0, ParsePrimitiveValue(ValueText(line, last.1)));
    }
  }

  lemma PutWordKey(d: seq<(string, Value)>, k: string, v: Value)
    requires UniqueKeys(d) && WordKeyDict(d) && AllWord(k)
    ensures UniqueKeys(Put(d, k, v)) && WordKeyDict(Put(d, k, v))
  {
    var r := Put(d, k, v);
    PutInPlace(d, k, v);
    forall j | 0 <= j < |r|
      ensures AllWord(r[j].0)
    {
      if k !in KeysOf(d) {
        assert r == d + [(k, v)];
      } else {
        assert r[j] == (if d[j].0 == k then (k, v) else d[j]);
      }
    }
  }

  /** The dict `parse_key_value_pairs` returns has distinct keys, each made
      of `[a-zA-Z0-9_]` (possibly empty, as in `: 1`). */
  lemma KeyValuePairsKeys(line: string)
    ensures KeyValuePairs(line).Some? ==>
      UniqueKeys(KeyValuePairs(line).value) && WordKeyDict(KeyValuePairs(line).value)
  {
    PairStartsKeys(line, 0, []);
    var r := PairStarts(line, 0, []);
    if r.Some? {
      DictOfKeys(line, r.value);
    }
  }

  /** `key: value` with an unquoted value without whitespace reads as the
      dict with that one key and the parsed value. */
  lemma OnePair(key: string, value: string)
    requires key != [] && AllWord(key)
    requires value != [] && value[0] != '"' && forall j :: 0 <= j < |value| ==> !IsSpace(value[j])
    ensures KeyValuePairs(key + ": " + value) == Some([(key, ParsePrimitiveValue(value))])
  {
    var line := key + ": " + value;
    var n := |key|;
    var pairs := [(key, n + 2)];
    OnePairScan(key, value, line);
    OnePairStarts(key, value, line);
    assert pairs[..0] == [];
    var v := ParsePrimitiveValue(value);
    assert DictOf(line, pairs) == Put([], key, v);
    assert key !in KeysOf([]);
    assert Put([], key, v) == [(key, v)];
  }

  /** Where the scanner's skips land on `key: value`. */
  lemma OnePairScan(key: string, value: string, line: string)
    requires key != [] && AllWord(key) && line == key + ": " + value
    requires value != [] && value[0] != '"' && forall j :: 0 <= j < |value| ==> !IsSpace(value[j])
    ensures |key| + 2 < |line| && line[|key|] == ':' && line[|key| + 2] == value[0]
    ensures SkipSpaces(line, 0) == 0 && SkipWord(line, 0) == |key| && SkipSpaces(line, |key|) == |key|
    ensures SkipSpaces(line, |key| + 1) == |key| + 2
    ensures line[0..|key|] == key && line[|key| + 2..] == value
    ensures ValueEnd(line, |key| + 2) == |line|
  {
    var n := |key|;
    assert forall j :: 0 <= j < n ==> line[j] == key[j];
    assert line[n] == ':' && line[n + 1] == ' ';
    assert forall j :: n + 2 <= j < |line| ==> line[j] == value[j - n - 2];
    assert SkipSpaces(line, 0) == 0;
    SkipWordOver(line, 0, n);
    assert SkipSpaces(line, n) == n;
    assert SkipSpaces(line, n + 2) == n + 2;
    assert SkipSpaces(line, n + 1) == n + 2;
    PlainValueToEnd(line, n + 2);
    assert line[0..n] == key;
    SuffixOfConcat(key + ": ", value);
  }

  lemma OnePairStarts(key: string, value: string, line: string)
    requires key != [] && line == key + ": " + value && |key| + 2 < |line|
    requires line[|key|] == ':' && !IsSpace(line[|key| + 2]) && value != []
    requires SkipSpaces(line, 0) == 0 && SkipWord(line, 0) == |key| && SkipSpaces(line, |key|) == |key|
    requires SkipSpaces(line, |key| + 1) == |key| + 2
    requires line[0..|key|] == key && line[|key| + 2..] == value && IsStripped(value)
    requires ValueEnd(line, |key| + 2) == |line|
    ensures PairStarts(line, 0, []) == Some([(key, |key| + 2)])
    ensures ValueText(line, |key| + 2) == value
  {
    var n := |key|;
    PairStartsValue(line, 0, [], 0, n, n + 2);
    assert [] + [(line[0..n], n + 2)] == [(key, n + 2)];
    assert PairStarts(line, |line|, [(key, n + 2)]) == Some([(key, n + 2)]);
    assert line[n + 2..|line|] == value;
    StrippedFixed(value);
  }

  // ---------------------------------------------------------------------
  // Delimiter selection

  /** The candidates, in the order `min` scans the tally. */
  const Candidates: seq<char> := [',', '|', '\t', ';']

  /** The keys of the tally `count_in_data` returns. */
  predicate IsTally(counts: map<char, nat>) {
    counts.Keys == {',', '|', '\t', ';'}
  }

  /** How often c occurs in the string leaves of v: dict keys, numbers and
      literals are not counted. */
  function Occurrences(v: Value, c: char): nat
    decreases v
  {
    match v
    case Str(s) => CountChar(s, c)
    case List(items) => OccurrencesIn(v, items, c)
    case Map(entries) => OccurrencesInValues(v, entries, c)
    case _ => 0
  }

  /** The occurrences in a prefix of a list's items. */
  function OccurrencesIn(ghost parent: Value, items: seq<Value>, c: char): nat
    requires parent.List? && items <= parent.items
    decreases parent, |items|
  {
    if items == [] then 0
    else OccurrencesIn(parent, items[..|items| - 1], c) + Occurrences(items[|items| - 1], c)
  }

  /** The occurrences in the values of a prefix of a dict's entries. */
  function OccurrencesInValues(ghost parent: Value, entries: seq<(string, Value)>, c: char): nat
    requires parent.Map? && entries <= parent.entries
    decreases parent, |entries|
  {
    if entries == [] then 0
    else
      assert entries[|entries| - 1] in parent.entries;
      OccurrencesInValues(parent, entries[..|entries| - 1], c) + Occurrences(entries[|entries| - 1].1, c)
  }

  /** Adds one child's tally into the running total, delimiter by delimiter. */
  method AddTally(total: map<char, nat>, sub: map<char, nat>) returns (sum: map<char, nat>)
    requires IsTally(total) && IsTally(sub)
    ensures IsTally(sum)
    ensures forall c :: c in sum ==> sum[c] == total[c] + sub[c]
  {
    sum := total;
    var j := 0;
    while j < |Candidates|
      invariant 0 <= j <= |Candidates|
      invariant IsTally(sum)
      invariant forall k :: 0 <= k < j ==> sum[Candidates[k]] == total[Candidates[k]] + sub[Candidates[k]]
      invariant forall k :: j <= k < |Candidates| ==> sum[Candidates[k]] == total[Candidates[k]]
    {
      var d := Candidates[j];
      sum := sum[d := sum[d] + sub[d]];
      j := j + 1;
    }
    assert Candidates[0] == ',' && Candidates[1] == '|' && Candidates[2] == '\t' && Candidates[3] == ';';
  }

  lemma ItemsTallyStep(v: Value, i: nat, counts: map<char, nat>, sub: map<char, nat>, sum: map<char, nat>)
    requires v.List? && i < |v.items| && IsTally(counts) && IsTally(sub) && IsTally(sum)
    requires forall c :: c in counts ==> counts[c] == OccurrencesIn(v, v.items[..i], c)
    requires forall c :: c in sub ==> sub[c] == Occurrences(v.items[i], c)
    requires forall c :: c in sum ==> sum[c] == counts[c] + sub[c]
    ensures forall c :: c in sum ==> sum[c] == OccurrencesIn(v, v.items[..i + 1], c)
  {
    PrefixStep(v.items, i);
  }

  lemma EntriesTallyStep(v: Value, i: nat, counts: map<char, nat>, sub: map<char, nat>, sum: map<char, nat>)
    requires v.Map? && i < |v.entries| && IsTally(counts) && IsTally(sub) && IsTally(sum)
    requires forall c :: c in counts ==> counts[c] == OccurrencesInValues(v, v.entries[..i], c)
    requires forall c :: c in sub ==> sub[c] == Occurrences(v.entries[i].1, c)
    requires forall c :: c in sum ==> sum[c] == counts[c] + sub[c]
    ensures forall c :: c in sum ==> sum[c] == OccurrencesInValues(v, v.entries[..i + 1], c)
  {
    PrefixStep(v.entries, i);
  }

  /** `count_in_data`: the tally of every candidate over v's string leaves,
      walking dict values and list items recursively. */
  method CountInData(v: Value) returns (counts: map<char, nat>)
    ensures IsTally(counts)
    ensures forall c :: c in counts ==> counts[c] == Occurrences(v, c)
    decreases v
  {
    counts := map[',' := 0, '|' := 0, '\t' := 0, ';' := 0];
    match v {
      case Map(entries) =>
        for i := 0 to |entries|
          invariant IsTally(counts)
          invariant forall c :: c in counts ==> counts[c] == OccurrencesInValues(v, entries[..i], c)
        {
          assert entries[i] in entries;
          var sub := CountInData(entries[i].1);
          ghost var before := counts;
          counts := AddTally(counts, sub);
          EntriesTallyStep(v, i, before, sub, counts);
        }
        PrefixAll(entries);
      case List(items) =>
        for i := 0 to |items|
          invariant IsTally(counts)
          invariant forall c :: c in counts ==> counts[c] == OccurrencesIn(v, items[..i], c)
        {
          var sub := CountInData(items[i]);
          ghost var before := counts;
          counts := AddTally(counts, sub);
          ItemsTallyStep(v, i, before, sub, counts);
        }
        PrefixAll(items);
      case Str(s) =>
        counts := map[',' := CountChar(s, ','), '|' := CountChar(s, '|'),
                      '\t' := CountChar(s, '\t'), ';' := CountChar(s, ';')];
      case _ =>
    }
  }

  /** `min(counts, key=counts.get)`: the index, in the tally's order, of the
      first candidate with the fewest occurrences. */
  function FirstMinimum(counts: map<char, nat>, n: nat): (i: nat)
    requires IsTally(counts) && 1 <= n <= |Candidates|
    ensures i < n
    ensures forall j :: 0 <= j < n ==> counts[Candidates[i]] <= counts[Candidates[j]]
    ensures forall j :: 0 <= j < i ==> counts[Candidates[i]] < counts[Candidates[j]]
  {
    if n == 1 then 0
    else
      var m := FirstMinimum(counts, n - 1);
      if counts[Candidates[n - 1]] < counts[Candidates[m]] then n - 1 else m
  }

  /** The list the selection analyses: the data itself, or the list a
      single-key dict wraps; None where the source settles on a comma. */
  function AnalysedList(data: Value): (r: Option<seq<Value>>)
    ensures r.Some? <==> data.List? || (data.Map? && |data.entries| == 1 && data.entries[0].1.List?)
  {
    if data.List? then Some(data.items)
    else if data.Map? && |data.entries| == 1 && data.entries[0].1.List? then Some(data.entries[0].1.items)
    else None
  }

  /** The spreadsheet heuristic: the first item is a dict with a key that
      starts with `col`. */
  predicate LooksTabular(items: seq<Value>) {
    |items| > 0 && items[0].Map? && exists k :: k in KeysOf(items[0].entries) && StartsWith(k, "col")
  }

  /** `any(k.startswith("col") for k in first_item.keys())`. */
  method HasColumnKey(entries: seq<(string, Value)>) returns (b: bool)
    ensures b <==> exists k :: k in KeysOf(entries) && StartsWith(k, "col")
  {
    b := false;
    for j := 0 to |entries|
      invariant b <==> exists k :: k in KeysOf(entries[..j]) && StartsWith(k, "col")
    {
      assert KeysOf(entries[..j + 1]) == KeysOf(entries[..j]) + [entries[j].0];
      if StartsWith(entries[j].0, "col") {
        b := true;
      }
    }
    assert entries[..|entries|] == entries;
  }

  /** `select_best_delimiter`: a comma unless the data is a list or a
      single-key dict wrapping one; then a tab for spreadsheet-like rows
      with no tab in them; otherwise the first candidate with the fewest
      occurrences in the string leaves. */
  method SelectBestDelimiter(data: Value) returns (d: char)
    ensures AnalysedList(data).None? ==> d == ','
    ensures AnalysedList(data).Some? ==>
      var items := AnalysedList(data).value;
      LooksTabular(items) && Occurrences(List(items), '\t') == 0 ==> d == '\t'
    ensures AnalysedList(data).Some? ==>
      var items := AnalysedList(data).value;
      !(LooksTabular(items) && Occurrences(List(items), '\t') == 0) ==>
        exists i :: 0 <= i < |Candidates| && d == Candidates[i]
          && (forall j :: 0 <= j < |Candidates| ==> Occurrences(List(items), d) <= Occurrences(List(items), Candidates[j]))
          && (forall j :: 0 <= j < i ==> Occurrences(List(items), d) < Occurrences(List(items), Candidates[j]))
  {
    var items: seq<Value>;
    if data.List? {
      items := data.items;
    } else if data.Map? && |data.entries| == 1 && data.entries[0].1.List? {
      items := data.entries[0].1.items;
    } else {
      return ',';
    }
    var counts := CountInData(List(items));
    var isTabular := false;
    if |items| > 0 && items[0].Map? {
      isTabular := HasColumnKey(items[0].entries);
    }
    if isTabular && counts['\t'] == 0 {
      return '\t';
    }
    var i := FirstMinimum(counts, |Candidates|);
    d := Candidates[i];
  }

  /** Dict keys never count: two dicts with the same values in the same
      order have the same tally, whatever their keys. */
  lemma {:induction false} KeysNotCounted(a: seq<(string, Value)>, b: seq<(string, Value)>, c: char)
    requires |a| == |b| && forall j :: 0 <= j < |a| ==> a[j].1 == b[j].1
    ensures Occurrences(Map(a), c) == Occurrences(Map(b), c)
  {
    var n := 0;
    while n < |a|
      invariant 0 <= n <= |a|
      invariant OccurrencesInValues(Map(a), a[..n], c) == OccurrencesInValues(Map(b), b[..n], c)
    {
      assert a[..n + 1][..n] == a[..n] && b[..n + 1][..n] == b[..n];
      n := n + 1;
    }
    assert a[..|a|] == a && b[..|b|] == b;
  }
}
